=== FILE: README.md ===
# FizzBee model checker core, in Dafny

FizzBee checks specifications written in a Python-like language. A parser
turns each spec into a protobuf AST of actions, blocks, statements and
invariants. A Go model checker then explores the reachable states
breadth-first. Each state is a `Process`: a heap of state variables and
threads. Each thread is a call stack of frames. Each frame holds a program
counter and a chain of scopes. The program counter is a dotted path into
the AST, such as `Actions[0].Block.Stmts[2]`.

This project models that core as pure Dafny functions over immutable
values and proves properties about them:

- `Text`: the string primitives the core relies on.
  - Go's `strings.Split` and `strings.Join`.
  - `strings.LastIndex`.
  - `strconv.Atoi` and `%d` formatting.
  - 64-bit wrap-around.
  - Byte-wise string order.
- `Sorting`: a generic insertion sort, used for `sort.Ints` and `sort.Strings`.
- `Stacks`: the generic stack of `lib/stack.go`.
- `Ast`: the AST messages.
- `ProtoPath`: program-counter paths, from `modelchecker/protopath.go`. The AST is a `Value` tree.
- `Scopes`: variable scopes and the heap, from `modelchecker/thread.go`.
- `Processes`: threads and processes, from `modelchecker/processor.go` and `modelchecker/thread.go`.
- `Execution`: the flow rules of a thread.
  - Entering a block.
  - Choosing the next program counter.
  - Finishing a statement under ATOMIC, SERIAL, ONEOF or PARALLEL flow.
- `Search`: the state-space graph and the breadth-first scheduler of `modelchecker/processor.go`.
- `Invariants`: safety invariant checking and the liveness witness marks.
- `Markov`: the graph and matrix side of the liveness check, from `modelchecker/markovchain.go`.
- `Parser`: the AST-building visitor of `parser/BuildAstVisitor.py`.
- `Options` and `Fmt`: reading the state-space options, and the performance tool's state summary.

A Go `panic` and a Python `raise` become the `Fail` case of a `Result`. So
does a Go runtime panic the code can reach, such as a failed type assertion
or the nil options of `ReadOptions`. Some failures are ones the callers never
cause, and these become preconditions instead:

- out-of-range indexing;
- a thread without a frame, the `No frame on the stack` panic of
  `Thread.currentFrame` (`HasFrame`, `Runnable`);
- a frame without a scope, a nil scope dereference (`|Frame0(p).scopes| > 0`).

Some things are parameters of the model:

- Starlark values are the type parameter `V`.
- Expression evaluation is a function parameter (`eval`, `wrapDict`).
- SHA-256 is a `digest` parameter.
- Python's `str` is a `show` parameter.

Where the model follows the code rather than its comments, the code is
authoritative, with one exception: the one-statement unwrap of `visitSuite`,
which is listed under "## Findings" and modelled as corrected.

- The end of a PARALLEL block is detected by comparing the length of the
  skip list with the number of statements. It is not detected by set
  inclusion.
  `SkipFullIffNothingPending` proves that the two agree while the skip list
  is well formed.
- Unlike the other stopping points, a `Stmts[i]` segment at the very start
  of a path continues at `Stmts[i+1]` when no such statement exists.
  `NextAt` models this.

## Model

| member | source | states |
|---|---|---|
| Text.Split | modelchecker/protopath.go:52 | Every part is free of the separator. A string without the separator splits into itself. A string with the separator splits into at least two parts. |
| Text.JoinSplit | modelchecker/protopath.go:111 | Joining the parts of a split gives back the original string. |
| Text.SplitJoin | modelchecker/protopath.go:111 | Splitting a join of separator-free parts gives back those parts. This is the inverse of JoinSplit. |
| Text.SplitAppend | modelchecker/protopath.go:52 | Splitting `a + sep + b` gives the parts of `a` followed by the parts of `b`. |
| Text.LastIndex | modelchecker/protopath.go:155 | The result is -1 exactly when the substring occurs nowhere. Otherwise the substring occurs at the result and at no later position. |
| Text.Wrap64 | modelchecker/protopath.go:112 | The result is a signed 64-bit value congruent to the input modulo 2^64. Values already in range are unchanged. |
| Text.NatToStringValue | modelchecker/protopath.go:112 | The decimal digits written for n have value n. |
| Text.AtoiIntToString | modelchecker/protopath.go:61 | `Atoi` reads back every 64-bit integer that `%d` writes. |
| Text.LeadingSpace | parser/BuildAstVisitor.py:70 | The count covers exactly the leading run of whitespace. |
| Text.StrLeTotal | modelchecker/processor.go:136 | The byte-wise string order used by `sort.Strings` is total. |
| Text.StrLeAntisymmetric | modelchecker/processor.go:136 | The order is antisymmetric. |
| Text.StrLeTransitive | modelchecker/processor.go:136 | The order is transitive. |
| Sorting.Sort | modelchecker/thread.go:115 | The output is a permutation of the input, sorted by the given order. |
| Sorting.SortedUnique | modelchecker/thread.go:112-117 | Two sorted permutations of the same multiset are equal, so a sorted copy is determined by the input's contents. |
| Sorting.SortPermutationInvariant | modelchecker/processor.go:135-139 | Sorting two permutations of each other gives the same sequence. |
| Stacks.NewStack | lib/stack.go:17-19 | A new stack is empty and has no peak. |
| Stacks.Peek | lib/stack.go:48-56 | On a consistent stack, the cached peak is the last element, or nothing when the stack is empty. |
| Stacks.Push | lib/stack.go:21-28 | Appends the value, keeps the peak cache consistent and makes the value the peak. |
| Stacks.Pop | lib/stack.go:30-46 | An empty stack is left as is and returns nothing. Otherwise it returns the last element, drops it and keeps the peak consistent. |
| Stacks.PushPop | lib/stack.go:21-46 | Popping right after pushing `v` returns `v` and restores the stack. |
| Stacks.Clone | lib/stack.go:68-77 | The clone holds the same elements in the same order with the same peak. |
| ProtoPath.IndexedParts | modelchecker/protopath.go:57-61 | A segment written as `name[i]` is recognised as indexed. Reading it back gives `name` and `i`. |
| ProtoPath.IndexStep | modelchecker/protopath.go:57-78 | An index that does not parse panics. Otherwise the step finds the element exactly when the field is a list and the index is in range. |
| ProtoPath.Step | modelchecker/protopath.go:56-86 | A step from anything but a message pointer panics. A plain segment finds the field exactly when the message declares it. |
| ProtoPath.WalkAppend | modelchecker/protopath.go:56-87 | Walking `a + b` is walking `a`, then `b` from where `a` ended. A miss or a panic stops the walk. |
| ProtoPath.GetFieldByPathExtend | modelchecker/protopath.go:50-90 | Resolving `path.part` is resolving `path` and then one more step. |
| ProtoPath.StmtPathResolves | modelchecker/protopath.go:50-90 | `block.Stmts[i]` resolves to statement i of the block's `Stmts` list when it exists, and to nothing otherwise. |
| ProtoPath.GetProtoFieldByPath | modelchecker/protopath.go:14-23 | A missing field gives nil. A found message pointer gives the message. A nil pointer or a non-message panics. |
| ProtoPath.NextFrom | modelchecker/protopath.go:96-131 | The scan from the right stops at the rightmost `Stmts[...]` segment or unparsable index. With no such segment the result is the empty path. |
| ProtoPath.NextFieldPathNone | modelchecker/protopath.go:130-131 | A path with no stopping segment has no next field. |
| ProtoPath.NextFieldPathRightmost | modelchecker/protopath.go:96-128 | For `prefix.Stmts[i].suffix`, the next path is `prefix.Stmts[i+1]` when that statement exists, and `prefix.$` otherwise. |
| ProtoPath.RemoveLastSegment | modelchecker/protopath.go:154-160 | The result is empty when the substring never occurs. Otherwise it is the path cut at the last occurrence, a prefix of the path. |
| ProtoPath.RemoveLastBlock | modelchecker/protopath.go:142-144 | The same, for `.Block`. |
| ProtoPath.RemoveLastForStmt | modelchecker/protopath.go:146-148 | The same, for `.ForStmt`. |
| ProtoPath.RemoveLastWhileStmt | modelchecker/protopath.go:150-152 | The same, for `.WhileStmt`. |
| ProtoPath.ParentBlockPath | modelchecker/protopath.go:134-140 | Empty exactly when `.Block` never occurs. Otherwise it is a prefix of the path that ends in the last `.Block`. |
| ProtoPath.LastMatch | modelchecker/protopath.go:167-175 | The last position where `Stmts[<digits>]` matches, if any. No match starts after it. |
| ProtoPath.MatchesDisjoint | modelchecker/protopath.go:168 | Matches of `Stmts\[\d+\]` never overlap, so the last match found left to right is the rightmost one. |
| ProtoPath.EndOfBlockReplacesLast | modelchecker/protopath.go:162-178 | The last `Stmts[n]` is replaced by `$` and the rest of the path is kept. |
| ProtoPath.EndOfBlockClearsTail | modelchecker/protopath.go:162-178 | After the replacement, no `Stmts[n]` remains from that point on. |
| ProtoPath.EndOfBlock | modelchecker/protopath.go:170-173 | A path without a match is unchanged. |
| Scopes.HeapUpdate | modelchecker/thread.go:66-72 | Reports whether the key is a state variable. Only that variable changes, and no key is added. |
| Scopes.Lookup | modelchecker/thread.go:119-125 | Nothing exactly when no scope binds the name. Otherwise the binding of the innermost scope that binds it. |
| Scopes.Visible | modelchecker/thread.go:128-139 | The visible variables are exactly the names some scope binds. |
| Scopes.VisibleIsLookup | modelchecker/thread.go:128-139 | The visible dictionary agrees with `Lookup`: inner scopes shadow outer ones. |
| Scopes.CopyDict | modelchecker/thread.go:145-168 | The target gains every key of the source with its value. The target's other keys are kept. |
| Scopes.CloneDict | modelchecker/thread.go:141-143 | The clone equals the original. |
| Scopes.UpdateScoped | modelchecker/processor.go:185-194 | Reports whether some scope binds the key. Only the innermost binding is overwritten. An unbound key changes nothing. |
| Scopes.PlaceOf | modelchecker/processor.go:168-181 | A key is written to its innermost scope, else to the heap when it is a state variable, else declared in the current scope. |
| Scopes.UpdateAll | modelchecker/processor.go:166-183 | After writing back a dictionary, each scope and the heap are as the per-key placement rules say, whatever the map's iteration order. |
| Scopes.ReadAfterWrite | modelchecker/processor.go:159-183 | Reading the variables back after writing a dictionary gives each written key its written value. |
| Scopes.WriteBackUnchanged | modelchecker/processor.go:159-183 | Writing back what was just read changes nothing. |
| Scopes.ContainsInt | modelchecker/thread.go:489-496 | True exactly when the value is in the list. |
| Scopes.SortedCopy | modelchecker/thread.go:112-117 | A sorted permutation of the input. |
| Processes.NewThread | modelchecker/thread.go:220-226 | A new thread has one frame, at the given file and program counter, with no scopes. |
| Processes.InsertNewScope | modelchecker/thread.go:234-239 | The current frame gains an empty innermost scope. Nothing else in the frame changes. |
| Processes.InsertNewScopeKeepsLookup | modelchecker/thread.go:234-239 | A new empty scope shadows nothing: every lookup is unchanged. |
| Processes.NewProcess | modelchecker/processor.go:42-63 | One thread at the empty program counter, an empty heap, and the given name and parent. |
| Processes.Fork | modelchecker/processor.go:65-83 | Same name, current thread, heap contents and threads. The parent is the original. |
| Processes.AddThread | modelchecker/processor.go:85-89 | Appends a fresh thread and changes nothing else. |
| Processes.RemoveCurrentThread | modelchecker/processor.go:151-155 | Removes exactly the current thread, keeping the others in order, and resets the current index to 0. |
| Processes.RemoveCurrentThreadInverse | modelchecker/processor.go:151-155 | Re-inserting the removed thread at its index restores the thread list. |
| Processes.GetAllVariables | modelchecker/processor.go:157-164 | The keys are the state variables plus the visible locals. A visible local shadows a state variable of the same name. |
| Processes.UpdateAllVariablesInScope | modelchecker/processor.go:166-183 | Only the current frame's scopes and the heap change, as the write-back rules say. Other threads are untouched. |
| Processes.HashCodeDependsOn | modelchecker/processor.go:120-145 | The hash depends only on the current thread's hash, the multiset of thread hashes and the heap hash. |
| Processes.HashCodePermutation | modelchecker/processor.go:128-139 | Reordering the threads while keeping the same current thread leaves the hash unchanged. |
| Processes.HashesOfPermutation | modelchecker/processor.go:121-124 | Permuted threads have permuted hashes. |
| Search.NewNode | modelchecker/processor.go:214-223 | Adds an isolated node at depth 0 and keeps the graph well formed. |
| Search.AddEdge | modelchecker/processor.go:232-233 | Exactly one edge is added. |
| Search.Attach | modelchecker/processor.go:225-265 | The new node has an edge from its source and, when given, to its target. Existing edges are kept. The graph stays well formed. |
| Search.AttachSymmetric | modelchecker/processor.go:225-235 | Inbound and outbound lists stay mirror images after a node is attached. |
| Search.AttachInRange | modelchecker/processor.go:225-265 | Every edge still names an existing node. |
| Search.Merge | modelchecker/processor.go:225-235 | The merge node has no process, copies the depths and links the node to the state seen before. |
| Search.ForkForAction | modelchecker/processor.go:237-250 | The child is a fork named after the action, one action and one fork deeper. |
| Search.ForkForAlternatePaths | modelchecker/processor.go:252-265 | The child holds the given process at the same action depth, one fork deeper. |
| Search.StartAction | modelchecker/processor.go:397-401 | The fork gains a thread whose only frame starts at `Actions[i]`. The fork is named after the action and keeps its heap. |
| Search.ActionSuccessor | modelchecker/processor.go:397-411 | The new action's thread is current, at `Actions[i]`, one action and one fork deeper. |
| Search.ThreadSuccessors | modelchecker/processor.go:385-393 | Exactly one fork per thread that has not finished, in thread order, with that thread current. The action depth is unchanged. |
| Search.YieldSuccessors | modelchecker/processor.go:379-436 | Every successor is one fork deeper. At the action bound no new action starts. Depth bounds are kept. |
| Search.YieldForks | modelchecker/processor.go:358-363 | The same bounds hold for the successors of every fork. |
| Search.Schedule | modelchecker/processor.go:343-369 | A visited state schedules nothing. Every scheduled node is one fork deeper and keeps the depth invariants and the action bound. |
| Search.InitSuccessors | modelchecker/processor.go:330-341 | One successor per action, named after it, one action and one fork deeper. |
| Search.ActionPcResolves | modelchecker/processor.go:338 | The program counter `Actions[i]` resolves to action i of the file when it exists. |
| Search.Explore | modelchecker/processor.go:307-325 | No expanded node is deeper than the action bound. |
| Execution.BlockAt | modelchecker/thread.go:315-316 | Succeeds exactly when the program counter names a Block, and then reports its flow and statement count. |
| Execution.EnterScope | modelchecker/thread.go:314-317 | The current frame gains an innermost scope with the block's flow. |
| Execution.BranchFork | modelchecker/thread.go:328-338 | The fork continues at `Stmts[i]` of the block. Under PARALLEL `i` is added to its skip list. Other threads are unchanged. |
| Execution.BlockForks | modelchecker/thread.go:326-330 | One branch fork per statement, in order. |
| Execution.ExecuteBlock | modelchecker/thread.go:313-347 | Fails exactly when the program counter is not a Block or its flow is unknown. Otherwise it enters the block. |
| Execution.EnterBlock | modelchecker/thread.go:318-344 | A known flow succeeds and pushes a scope with that flow. |
| Execution.EnterBlockSequential | modelchecker/thread.go:319-324 | ATOMIC and SERIAL forks nothing and continues at `Stmts[0]`. |
| Execution.EnterBlockForks | modelchecker/thread.go:325-341 | ONEOF and PARALLEL fork once per statement. Fork i is at `Stmts[i]`, with skip list `[i]` under PARALLEL. |
| Execution.ForkPcResolves | modelchecker/thread.go:329 | Each fork's program counter resolves to statement i of the block. |
| Execution.FindNextProgramCounter | modelchecker/thread.go:502-522 | An Action continues at `.Block` and a Block at `.Stmts[0]`. A statement, `any` statement or branch continues at the path `getNextFieldPath` returns, and fails when it fails. A missing node gives the empty path, and a nil one fails. |
| Execution.NextAfterStatement | modelchecker/thread.go:511-513 | After statement i, the program counter moves to statement i+1 when it exists, and to `block.$` otherwise. |
| Execution.Pending | modelchecker/thread.go:441-444 | Exactly the statement indices below n not in the skip list, in increasing order. |
| Execution.ParallelForks | modelchecker/thread.go:441-449 | One fork per pending statement, each marking its statement as started. |
| Execution.ExecuteEndOfStatement | modelchecker/thread.go:417-455 | Unknown flow fails. ONEOF jumps to the end of the block. Only the program counter of the current frame changes. |
| Execution.EndOfStatementSequential | modelchecker/thread.go:419-424 | ATOMIC and SERIAL move to the next program counter. Only SERIAL yields. |
| Execution.EndParallel | modelchecker/thread.go:429-451 | Only the program counter of the current frame changes. |
| Execution.EndParallelDone | modelchecker/thread.go:436-438 | When every statement has started, the block ends and the thread yields. |
| Execution.EndParallelFork | modelchecker/thread.go:440-451 | Otherwise there is one fork per pending statement, and the thread clears its program counter and yields. |
| Execution.SkipStaysWellFormed | modelchecker/thread.go:447 | Adding a pending index keeps the skip list duplicate-free and in range. |
| Execution.SkipFullIffNothingPending | modelchecker/thread.go:436-449 | For a well-formed skip list, the length test is equivalent to "no statement pending". |
| Invariants.NewDictFromStringDict | modelchecker/invariants.go:42-50 | Every name becomes a string key with its value, and no other key appears. |
| Invariants.StringDictRoundTrip | modelchecker/invariants.go:42-50 | Converting back gives the original dictionary. |
| Invariants.InvariantVars | modelchecker/invariants.go:35-36 | The state variables plus `__returns__`, which holds the wrapped return values. |
| Invariants.CheckInvariant | modelchecker/invariants.go:28-40 | Panics unless the invariant is ALWAYS and not nested. Otherwise it evaluates the expression over those variables. |
| Invariants.Outcomes | modelchecker/invariants.go:15-16 | Succeeds exactly when every invariant can be checked, with one outcome each. |
| Invariants.Failures | modelchecker/invariants.go:20-21 | Exactly the non-eventually invariants that failed, in order. |
| Invariants.Witnessed | modelchecker/invariants.go:18-19 | Marks exactly the eventually invariants that passed in a state with no threads left. |
| Invariants.CheckInvariants | modelchecker/invariants.go:8-26 | More than one file panics. Otherwise it reports, in increasing order, the invariants of the only file that are not `eventually` and failed. The witness set gains exactly the passing `eventually` invariants of a process without threads. |
| Invariants.EventuallyNeverFails | modelchecker/invariants.go:18-21 | An eventually invariant is never reported as a safety failure. |
| Markov.Dfs | modelchecker/markovchain.go:300-311 | Each node is listed once. The node is listed on first visit, and everything reachable from it ends up visited. |
| Markov.GetAllNodes | modelchecker/markovchain.go:288-299 | Starts at the root, has no duplicates and is closed under outbound edges. |
| Markov.ReachableListed | modelchecker/markovchain.go:288-311 | Every node on a path from the root is listed. |
| Markov.CreateTransitionMatrix | modelchecker/markovchain.go:247-270 | An n-by-n non-negative matrix. A sink loops to itself. Entry (i, j) of any other node is the number of its edges to j divided by its number of edges. |
| Markov.TransitionRowsSumToOne | modelchecker/markovchain.go:247-270 | Every row sums to 1. |
| Markov.TransitionStochastic | modelchecker/markovchain.go:247-270 | The transition matrix is row-stochastic. |
| Markov.Transpose | modelchecker/markovchain.go:271-287 | Entry (j, i) of the result is entry (i, j) of the input. |
| Markov.TransposeInvolution | modelchecker/markovchain.go:271-287 | Transposing twice gives the original matrix. |
| Markov.MultiplyMatrices | modelchecker/markovchain.go:21-44 | Panics unless both the row count and the width of the first row agree. Otherwise it is the element-wise product. |
| Markov.MultiplyRejectsNarrower | modelchecker/markovchain.go:26-28 | Equal row counts with a narrower first row of `b` are rejected. |
| Markov.MultiplyRejectsFewerRows | modelchecker/markovchain.go:26-28 | Unequal row counts are rejected even when the rows of `a` are ragged. |
| Markov.MultiplyByOnes | modelchecker/markovchain.go:36-41 | Multiplying by an all-ones matrix of the same shape gives the other factor back. |
| Markov.NormalizeColumns | modelchecker/markovchain.go:209-230 | A zero column is left unchanged. |
| Markov.NormalizedColumnSumsToOne | modelchecker/markovchain.go:209-230 | Every column with a non-zero sum sums to 1 afterwards. |
| Markov.WitnessRows | modelchecker/markovchain.go:165-178 | The rows of witnessed states with a process become self-loops. Other rows are unchanged. |
| Markov.WitnessRowsStochastic | modelchecker/markovchain.go:165-178 | Turning witnessed states into absorbing states keeps the matrix row-stochastic. |
| Parser.DedentLine | parser/BuildAstVisitor.py:72-77 | A non-blank line loses exactly its first k characters, or all of them when shorter. A blank line is kept. |
| Parser.TransformCode | parser/BuildAstVisitor.py:66-79 | Succeeds exactly when there is a first line left after skipping. |
| Parser.TransformCodeLines | parser/BuildAstVisitor.py:66-79 | Each output line is the input line dedented by the first kept line's indentation. |
| Parser.TransformCodeIdentity | parser/BuildAstVisitor.py:66-79 | Code whose first line is not indented is returned unchanged. |
| Parser.Reconcile | parser/BuildAstVisitor.py:130-136 | An unset flow on one side takes the other side's. Both unset becomes SERIAL. Two set flows are kept. |
| Parser.ReconcileIdempotent | parser/BuildAstVisitor.py:130-136 | Reconciling twice changes nothing. |
| Parser.VisitActiondef | parser/BuildAstVisitor.py:83-139 | Fails exactly on a child of unknown type. The action takes the last name, the statements of the last block and the reconciled flows. |
| Parser.VisitLabelledStmt | parser/BuildAstVisitor.py:149-192 | Fails exactly on a child of unknown type. The block takes the last flow keyword and the statements of the last block. |
| Parser.CollectSuite | parser/BuildAstVisitor.py:198-223 | Fails exactly when a child is neither a token nor a statement. Otherwise it returns the statements in order. |
| Parser.UnwrapAsWrittenDropsStatement | parser/BuildAstVisitor.py:225-227 | As written, a suite of one Python statement becomes an empty block. |
| Parser.UnwrapKeepsStatements | parser/BuildAstVisitor.py:225-228 | With the intended unwrap, a suite keeps its statements. |
| Parser.Unwrap | parser/BuildAstVisitor.py:198-228 | A single statement holding a block becomes that block. Any other suite becomes a fresh block of UNKNOWN flow over its statements. |
| Parser.VisitSuite | parser/BuildAstVisitor.py:195-228 | Fails exactly on a child that is neither a token nor a statement. Otherwise a suite of one block statement gives that block, and any other suite a fresh UNKNOWN-flow block listing its statements in order. |
| Parser.IsListOfType | parser/BuildAstVisitor.py:57-59 | True exactly when every item is an Invariant. |
| Parser.VisitStmt | parser/BuildAstVisitor.py:231-251 | Wraps Python code and blocks as statements and passes the other kinds through. Lists must hold only invariants. Anything else fails. |
| Parser.VisitInvariantStmt | parser/BuildAstVisitor.py:254-287 | Fails exactly on a child of unknown type. The flags reflect the ALWAYS and EVENTUALLY keywords, and the expression is the last test's transformed text. |
| Parser.InvariantsSuite | parser/BuildAstVisitor.py:290-301 | Succeeds exactly when every rule child is an invariant. It then returns one invariant per rule child, in the children's order. |
| Options.ApplyDefaults | modelchecker/options.go:14-16 | A zero concurrency limit defaults to the action limit. Anything else is kept. |
| Options.ReadOptions | modelchecker/options.go:8-17 | A read error is passed on. A file without options fails on the nil dereference. Otherwise the defaults are applied. |
| Fmt.GetStateString | performance/fmt.py:2-11 | A missing `process` key raises. Otherwise the state part, when present, comes before the returns part. |

## Left out

- File and YAML reading (`lib.ReadProtoFromFile`) is an input of `Options.ReadOptions`. Reading it has effects outside the model.
- Starlark is outside the model: `ExecInit`, `EvalPyExpr` and `Truth` are function parameters, and values are the type parameter `V`.
- SHA-256 and JSON encoding are outside the model. `Heap.HashCode`, `Scope.Hash`, `CallFrame.HashCode`, `CallStack.HashCode` and `Thread.HashCode` are parameters of `Processes.HashCode`. Only the structure of `Process.HashCode` is modelled.
- The mutex in `lib/stack.go` is left out: a value model has no concurrency.
- The deep copy of `RawArrayCopy` is left out: values are immutable, so a clone cannot alias its original.
- `CopyDict` clones sets element by element. With values as an opaque `V`, that copy is the identity.
- Floating point is modelled with exact reals. Rounding and the `1e-7` convergence tolerance are not modelled.
- `matrixVectorProduct`, `vectorNorm`, `normalizeVector`, `sum`, `vectorDifference`, the power iteration of `checkLiveness` and `steadyStateDistribution` are numerical loops over floats and are not modelled. Only their matrix inputs are.
- `printMatrix`, the logging calls, `captureStackTrace` and `Node.String` only produce output and are not modelled.
- `modelchecker/graph.go`, `main.go` and the web front end are outside the core.
- `Process.Children` is written but never read by the core, so it is left out. `Parent` is kept as a snapshot of the parent.
- `Thread.Execute` and `executeStatement` run Starlark code. Of these, the model covers only the flow rules they call.
- `executeAction` and `executeEndOfBlock` are program-counter and stack bookkeeping outside the modelled core. The first appends `.Block`; the second pops scopes and frames and removes finished threads.
- Walking the ANTLR parse tree is not modelled: each visitor receives its children already visited, as a sequence of `Child` values.
- `visitRoot`, `visitFile_input`, `visitInit_stmt`, `visitExpr_stmt` and `aggregateResult` only forward to those visitors and are left out.
- The visited-set lookup of `processNode` is the `visited` argument of `Search.Schedule`. The second lookup in `YieldNode` repeats the first one for the same node and is not modelled separately.
- `Search.Explore`: the exploration loop runs for at most `fuel` iterations, so termination of the real search is not modelled.
- `Markov.GetAllNodes`: the converse of `ReachableListed` is not stated. The model does not prove that every listed node is reachable.
- `Markov.NormalizeColumns`: the contract states column sums rather than every entry. Each entry of a non-zero column is divided by that column's sum.
- `ProtoPath.GetProtoFieldByPath`: the copy made by `convertToProto` is the identity on immutable values.
- `Parser.VisitSuite`: models the corrected unwrap rather than the code as written. A suite of one Python statement keeps that statement here, while the code replaces it by an empty block; see "## Findings" and `Parser.UnwrapAsWrittenDropsStatement`.
- `Processes.HashCode`: the digest itself is a parameter. The contract states only what the hash depends on.

## Findings

| source | as written | input that shows it | evidently intended | confidence | as-written member | corrected member |
|---|---|---|---|---|---|---|
| parser/BuildAstVisitor.py:225-227 | `block.stmts[0].block is not None` is always true for a protobuf submessage field, so any one-statement suite is replaced by that statement's block field | a suite holding the single Python statement `x = 1` becomes an empty block | only a statement that actually holds a block is replaced by it; a single Python statement is kept | not executed | Parser.UnwrapAsWrittenDropsStatement | Parser.UnwrapKeepsStatements |

=== FILE: ast.dfy ===
/** The parts of the FizzBee protobuf AST (`fizz_ast.proto`) that the parser
  builds and the checker reads. A protobuf submessage field is an `Option`:
  `None` when the field was never set.
 */
module Ast {
  import opened Wrappers

  /** `ast.Flow`: how the statements of a block are scheduled. */
  datatype Flow = Unknown | Serial | Atomic | Parallel | OneOf

  datatype PyStmt = PyStmt(code: string)

  datatype Block = Block(flow: Flow, stmts: seq<Statement>)

  /** A statement is either Python code or a nested block. */
  datatype Statement = Statement(pyStmt: Option<PyStmt>, block: Option<Block>)

  datatype Action = Action(name: string, flow: Flow, block: Block)

  datatype Invariant = Invariant(always: bool, eventually: bool, pyExpr: string, nested: Option<Invariant>)

  /** `ast.Block()`: the default instance of a Block message. */
  const EmptyBlock: Block := Block(Unknown, [])

  /** Reading an unset submessage field in Python yields its default
      instance, never None. */
  function BlockField(s: Statement): Block {
    s.block.GetOr(EmptyBlock)
  }
}

=== FILE: flow.dfy ===
/** The flow rules of `modelchecker/thread.go`: entering a block
  (`executeBlock`), choosing the next program counter
  (`FindNextProgramCounter`) and finishing a statement
  (`executeEndOfStatement`). Each returns the updated process, the forked
  processes and, where the source does, whether the thread yields; a Go
  panic is a `Fail`.

  The AST of the current frame's file is passed in as `file`.
 */
module Execution {
  import opened Wrappers
  import opened Ast
  import opened Text
  import opened Scopes
  import opened Processes
  import opened ProtoPath
  import opened Sorting

  /** What the flow rules read of a Block message. */
  datatype BlockInfo = BlockInfo(flow: Flow, size: nat)

  /** The items of a message's `Stmts` field; an unset field is empty. */
  function StmtsOf(fields: map<string, Value>): seq<Value> {
    if "Stmts" in fields && fields["Stmts"].List? then fields["Stmts"].items else []
  }

  function FlowOf(fields: map<string, Value>): Flow {
    if "Flow" in fields && fields["Flow"].FlowEnum? then fields["Flow"].flow else Unknown
  }

  /** `convertToBlock(GetProtoFieldByPath(file, path))`: the type assertion
      panics unless the path names a Block. */
  function BlockAt(file: map<string, Value>, path: string): (r: Result<BlockInfo>)
    ensures r.Ok? <==>
      GetFieldByPath(file, path).Found? && GetFieldByPath(file, path).value.Msg?
      && GetFieldByPath(file, path).value.kind == BlockMsg
    ensures r.Ok? ==>
      var fields := GetFieldByPath(file, path).value.fields;
      r.value == BlockInfo(FlowOf(fields), |StmtsOf(fields)|)
  {
    match GetProtoFieldByPath(file, path)
    case Fail(e) => Fail(e)
    case Ok(None) => Fail("interface conversion: interface is nil, not *ast.Block")
    case Ok(Some(m)) =>
      if m.kind == BlockMsg then Ok(BlockInfo(FlowOf(m.fields), |StmtsOf(m.fields)|))
      else Fail("interface conversion: not *ast.Block")
  }

  /** The innermost scope of the current frame. */
  function InnerScope<V>(p: Process<V>): Scope<V>
    requires Runnable(p) && |Frame0(p).scopes| > 0
  {
    Frame0(p).scopes[|Frame0(p).scopes| - 1]
  }

  /** `InsertNewScope` followed by setting the new scope's flow. */
  function EnterScope<V>(p: Process<V>, flow: Flow): (r: Process<V>)
    requires Runnable(p)
    ensures Runnable(r) && |Frame0(r).scopes| > 0
    ensures Frame0(r) == Frame0(p).(scopes := Frame0(p).scopes + [Scope(map[], flow, [])])
    ensures |r.threads| == |p.threads| && r.current == p.current && r.heap == p.heap
  {
    var t := InsertNewScope(p.threads[p.current]);
    var f := CurrentFrame(t);
    var n := |f.scopes| - 1;
    SetFrame(p, f.(scopes := f.scopes[n := f.scopes[n].(flow := flow)]))
  }

  /** A fork of `p` whose current frame continues at statement `i` of the
      block at `blockPath`, marking `i` as started when `markSkip` holds. */
  function BranchFork<V>(p: Process<V>, blockPath: string, i: int, markSkip: bool): (r: Process<V>)
    requires Runnable(p) && |Frame0(p).scopes| > 0
    ensures Runnable(r) && |Frame0(r).scopes| == |Frame0(p).scopes|
    ensures Pc(r) == blockPath + "." + Indexed("Stmts", i)
    ensures Frame0(r).scopes == Frame0(p).scopes[|Frame0(p).scopes| - 1 :=
      InnerScope(p).(skip := InnerScope(p).skip + (if markSkip then [i] else []))]
    ensures Frame0(r).fileIndex == Frame0(p).fileIndex
    ensures r.parent == Some(p) && r.heap.globals == p.heap.globals && r.current == p.current
    ensures |r.threads| == |p.threads|
    ensures forall j | 0 <= j < |p.threads| && j != p.current :: r.threads[j] == p.threads[j]
  {
    var q := Fork(p);
    assert Frame0(q) == Frame0(p);
    var f := Frame0(q);
    var n := |f.scopes| - 1;
    var inner := f.scopes[n];
    var inner' := inner.(skip := inner.skip + (if markSkip then [i] else []));
    SetFrame(q, f.(pc := blockPath + "." + Indexed("Stmts", i), scopes := f.scopes[n := inner']))
  }

  /** One fork per statement of the block at `blockPath`. */
  function BlockForks<V>(p: Process<V>, blockPath: string, n: nat, markSkip: bool): (r: seq<Process<V>>)
    requires Runnable(p) && |Frame0(p).scopes| > 0
    ensures |r| == n
    ensures forall i | 0 <= i < n :: r[i] == BranchFork(p, blockPath, i, markSkip)
  {
    seq(n, i requires 0 <= i < n => BranchFork(p, blockPath, i, markSkip))
  }

  /** `executeBlock`: enter the block at the current program counter. ATOMIC
      and SERIAL continue at its first statement; ONEOF and PARALLEL fork
      once per statement, and PARALLEL also records the statement each fork
      starts in that fork's skip list. */
  function ExecuteBlock<V>(p: Process<V>, file: map<string, Value>): (r: Result<(Process<V>, seq<Process<V>>)>)
    requires Runnable(p)
    ensures r.Ok? <==> BlockAt(file, Pc(p)).Ok? && BlockAt(file, Pc(p)).value.flow != Unknown
    ensures r.Ok? ==> Runnable(r.value.0) && r.value.0.heap == p.heap
    ensures r.Ok? ==>
      Frame0(r.value.0).scopes == Frame0(p).scopes + [Scope(map[], BlockAt(file, Pc(p)).value.flow, [])]
    ensures match BlockAt(file, Pc(p))
      case Fail(_) => r.Fail?
      case Ok(b) => r == EnterBlock(p, b)
  {
    match BlockAt(file, Pc(p))
    case Fail(e) => Fail(e)
    case Ok(b) => EnterBlock(p, b)
  }

  /** The part of `executeBlock` after the block at the program counter
      has been read. */
  function EnterBlock<V>(p: Process<V>, b: BlockInfo): (r: Result<(Process<V>, seq<Process<V>>)>)
    requires Runnable(p)
    ensures r.Ok? <==> b.flow != Unknown
    ensures r.Ok? ==> Runnable(r.value.0) && r.value.0.heap == p.heap
    ensures r.Ok? ==> Frame0(r.value.0).scopes == Frame0(p).scopes + [Scope(map[], b.flow, [])]
  {
    var pc := Pc(p);
    var q := EnterScope(p, b.flow);
    match b.flow
    case Atomic => Ok((SetPc(q, pc + ".Stmts[0]"), []))
    case Serial => Ok((SetPc(q, pc + ".Stmts[0]"), []))
    case OneOf | Parallel =>
      Ok((q, BlockForks(q, pc, b.size, b.flow == Parallel)))
    case Unknown => Fail("Unknown flow type")
  }

  /** ATOMIC and SERIAL blocks fork nothing and continue at their first
      statement. */
  lemma EnterBlockSequential<V>(p: Process<V>, b: BlockInfo)
    requires Runnable(p)
    requires b.flow in {Atomic, Serial}
    ensures EnterBlock(p, b).Ok?
    ensures EnterBlock(p, b).value.1 == []
    ensures Pc(EnterBlock(p, b).value.0) == Pc(p) + ".Stmts[0]"
  {
  }

  /** ONEOF and PARALLEL blocks fork once per statement: fork `i` continues
      at statement `i` in a copy of the new scope, whose skip list is `[i]`
      for PARALLEL and empty for ONEOF; the process itself stays put. */
  lemma EnterBlockForks<V>(p: Process<V>, b: BlockInfo, i: int)
    requires Runnable(p)
    requires b.flow in {OneOf, Parallel}
    requires 0 <= i < b.size
    ensures EnterBlock(p, b).Ok?
    ensures var (q, forks) := EnterBlock(p, b).value;
      && Pc(q) == Pc(p)
      && |forks| == b.size
      && Runnable(forks[i])
      && Pc(forks[i]) == Pc(p) + "." + Indexed("Stmts", i)
      && forks[i].parent == Some(q)
      && Frame0(forks[i]).scopes == Frame0(p).scopes + [Scope(map[], b.flow, if b.flow == Parallel then [i] else [])]
  {
    var pc := Pc(p);
    var q := EnterScope(p, b.flow);
    var forks := BlockForks(q, pc, b.size, b.flow == Parallel);
    assert EnterBlock(p, b) == Ok((q, forks));
    var fork := BranchFork(q, pc, i, b.flow == Parallel);
    assert forks[i] == fork;
    var outer := Frame0(p).scopes;
    var skip := if b.flow == Parallel then [i] else [];
    assert InnerScope(q) == Scope(map[], b.flow, []);
    assert [] + skip == skip;
    ReplaceLast(outer, Scope(map[], b.flow, []), Scope(map[], b.flow, skip));
  }

  lemma ReplaceLast<T>(s: seq<T>, x: T, y: T)
    ensures (s + [x])[|s| := y] == s + [y]
  {
  }

  /** Each fork made on entering a ONEOF or PARALLEL block is positioned at
      the statement of the block with its own index. */
  lemma ForkPcResolves<V>(p: Process<V>, file: map<string, Value>, i: int)
    requires Runnable(p)
    requires ExecuteBlock(p, file).Ok?
    requires 0 <= i < |ExecuteBlock(p, file).value.1| && IsInt64(i)
    ensures var fields := GetFieldByPath(file, Pc(p)).value.fields;
      GetFieldByPath(file, Pc(ExecuteBlock(p, file).value.1[i])) == Found(StmtsOf(fields)[i])
  {
    StmtPathResolves(file, Pc(p), i);
  }

  // ---------------------------------------------------------------------------
  // Next program counter
  // ---------------------------------------------------------------------------

  /** `FindNextProgramCounter`: by the kind of message at `pc`. An action
      continues into its block, a block into its first statement, and a
      statement, `any` statement or branch to the statement after it. Nil,
      or any other kind, gives the empty path. */
  function FindNextProgramCounter(file: map<string, Value>, pc: string): (r: Result<string>)
    ensures GetFieldByPath(file, pc).Missing? ==> r == Ok("")
    ensures GetFieldByPath(file, pc).Panic? ==> r.Fail?
    ensures GetFieldByPath(file, pc) == Found(NilMsg) ==> r.Fail?
    ensures (GetFieldByPath(file, pc).Found? && GetFieldByPath(file, pc).value.Msg?) ==>
      match GetFieldByPath(file, pc).value.kind
      case ActionMsg => r == Ok(pc + ".Block")
      case BlockMsg => r == Ok(pc + ".Stmts[0]")
      case OtherMsg => r == Ok("")
      case _ =>
        && (r.Ok? <==> GetNextFieldPath(file, pc).Ok?)
        && (r.Ok? ==> r.value == GetNextFieldPath(file, pc).value.0)
  {
    match GetProtoFieldByPath(file, pc)
    case Fail(e) => Fail(e)
    case Ok(None) => Ok("")
    case Ok(Some(m)) =>
      match m.kind
      case ActionMsg => Ok(pc + ".Block")
      case BlockMsg => Ok(pc + ".Stmts[0]")
      case OtherMsg => Ok("")
      case _ =>
        var next :- GetNextFieldPath(file, pc);
        Ok(next.0)
  }

  /** After statement `i` of the block at `prefix`, the next program counter
      is statement `i + 1` when the block has it, and the block's end marker
      `prefix.$` otherwise. */
  lemma NextAfterStatement(file: map<string, Value>, prefix: string, i: int)
    requires prefix != "" && IsInt64(i) && IsInt64(i + 1)
    requires var l := GetFieldByPath(file, prefix + "." + Indexed("Stmts", i));
      l.Found? && l.value.Msg? && l.value.kind == StatementMsg
    ensures var next := prefix + "." + Indexed("Stmts", i + 1);
      FindNextProgramCounter(file, prefix + "." + Indexed("Stmts", i)) ==
        match GetFieldByPath(file, next)
        case Found(_) => Ok(next)
        case Missing => Ok(prefix + ".$")
        case Panic => Fail("reflect panic")
  {
    var pc := prefix + "." + Indexed("Stmts", i);
    StmtPathAsJoin(prefix, i);
    NextFieldPathRightmost(file, prefix, i, []);
    var l := GetFieldByPath(file, pc);
    assert GetProtoFieldByPath(file, pc) == Ok(Some(Message(StatementMsg, l.value.fields)));
    assert FindNextProgramCounter(file, pc) ==
      match GetNextFieldPath(file, pc)
      case Ok(next) => Ok(next.0)
      case Fail(e) => Fail(e);
  }

  /** `prefix.Stmts[i]` is the join of the segments of `prefix` and `Stmts[i]`. */
  lemma StmtPathAsJoin(prefix: string, i: int)
    requires IsInt64(i)
    ensures prefix + "." + Indexed("Stmts", i) == Join(Split(prefix, '.') + [Indexed("Stmts", i)] + [], '.')
  {
    var pp := Split(prefix, '.');
    var seg := Indexed("Stmts", i);
    JoinSplit(prefix, '.');
    JoinAppend(pp, seg, '.');
    assert pp + [seg] + [] == pp + [seg];
  }

  // ---------------------------------------------------------------------------
  // End of statement
  // ---------------------------------------------------------------------------

  /** The statement indexes below `n` missing from `skip`, ascending: the
      branches of a PARALLEL block still to be started. */
  function Pending(skip: seq<int>, n: nat): (r: seq<int>)
    ensures forall x :: x in r <==> 0 <= x < n && x !in skip
    ensures forall a, b | 0 <= a < b < |r| :: r[a] < r[b]
  {
    if n == 0 then []
    else
      var init := Pending(skip, n - 1);
      assert forall a | 0 <= a < |init| :: init[a] < n - 1 by {
        forall a | 0 <= a < |init| ensures init[a] < n - 1 {
          assert init[a] in init;
        }
      }
      init + if n - 1 in skip then [] else [n - 1]
  }

  /** The forks that start each pending branch of a PARALLEL block. */
  function ParallelForks<V>(p: Process<V>, blockPath: string, pending: seq<int>): (r: seq<Process<V>>)
    requires Runnable(p) && |Frame0(p).scopes| > 0
    ensures |r| == |pending|
    ensures forall k | 0 <= k < |r| :: r[k] == BranchFork(p, blockPath, pending[k], true)
  {
    seq(|pending|, k requires 0 <= k < |pending| => BranchFork(p, blockPath, pending[k], true))
  }

  /** `executeEndOfStatement`, by the flow of the innermost scope:
      ATOMIC moves on without yielding, SERIAL moves on and yields, ONEOF
      jumps to the end of its block without yielding, and PARALLEL yields
      after either closing its block (every branch started) or forking one
      process per branch not yet started and clearing its own program
      counter. */
  function ExecuteEndOfStatement<V>(p: Process<V>, file: map<string, Value>)
    : (r: Result<(Process<V>, seq<Process<V>>, bool)>)
    requires Runnable(p) && |Frame0(p).scopes| > 0
    ensures r.Ok? ==> Runnable(r.value.0) && r.value.0.heap == p.heap
    ensures r.Ok? ==> Frame0(r.value.0) == Frame0(p).(pc := Pc(r.value.0))
    ensures InnerScope(p).flow == Unknown ==> r.Fail?
    ensures InnerScope(p).flow == OneOf ==> r == Ok((SetPc(p, EndOfBlock(Pc(p))), [], false))
    ensures InnerScope(p).flow == Parallel ==>
      match BlockAt(file, ParentBlockPath(Pc(p)))
      case Fail(_) => r.Fail?
      case Ok(b) => r == EndParallel(p, b)
  {
    var pc := Pc(p);
    var scope := InnerScope(p);
    match scope.flow
    case Atomic =>
      var next :- FindNextProgramCounter(file, pc);
      Ok((SetPc(p, next), [], false))
    case Serial =>
      var next :- FindNextProgramCounter(file, pc);
      Ok((SetPc(p, next), [], true))
    case OneOf => Ok((SetPc(p, EndOfBlock(pc)), [], false))
    case Parallel =>
      var b :- BlockAt(file, ParentBlockPath(pc));
      EndParallel(p, b)
    case Unknown => Fail("Unknown flow type")
  }

  /** The PARALLEL case of `executeEndOfStatement`, once the parent block
      has been read. */
  function EndParallel<V>(p: Process<V>, b: BlockInfo): (r: Result<(Process<V>, seq<Process<V>>, bool)>)
    requires Runnable(p) && |Frame0(p).scopes| > 0
    ensures r.Ok? ==> Runnable(r.value.0) && r.value.0.heap == p.heap
    ensures r.Ok? ==> Frame0(r.value.0) == Frame0(p).(pc := Pc(r.value.0))
  {
    var pc := Pc(p);
    var skip := InnerScope(p).skip;
    if |skip| == b.size then Ok((SetPc(p, EndOfBlock(pc)), [], true))
    else if |skip| > b.size then Fail("makeslice: cap out of range")
    else Ok((SetPc(p, ""), ParallelForks(p, ParentBlockPath(pc), Pending(skip, b.size)), true))
  }

  /** ATOMIC moves to the next program counter and does not yield; SERIAL
      does the same but yields. Neither forks. */
  lemma EndOfStatementSequential<V>(p: Process<V>, file: map<string, Value>)
    requires Runnable(p) && |Frame0(p).scopes| > 0
    requires InnerScope(p).flow in {Atomic, Serial}
    ensures var r := ExecuteEndOfStatement(p, file);
      var next := FindNextProgramCounter(file, Pc(p));
      && (r.Ok? <==> next.Ok?)
      && (r.Ok? ==> && r.value.1 == []
                    && r.value.2 == (InnerScope(p).flow == Serial)
                    && Pc(r.value.0) == next.value)
  {
  }

  /** PARALLEL, every branch started: jump to the end of the block and
      yield. A skip list longer than the block is an error. */
  lemma EndParallelDone<V>(p: Process<V>, b: BlockInfo)
    requires Runnable(p) && |Frame0(p).scopes| > 0
    ensures var r := EndParallel(p, b);
      var skip := InnerScope(p).skip;
      && (r.Ok? <==> |skip| <= b.size)
      && (r.Ok? ==> r.value.2)
      && (r.Ok? && |skip| == b.size ==> r.value.1 == [] && Pc(r.value.0) == EndOfBlock(Pc(p)))
  {
  }

  /** PARALLEL, some branch not started: fork `k` starts the `k`-th pending
      statement of the parent block and records it in its skip list; the
      process itself clears its program counter and yields. */
  lemma EndParallelFork<V>(p: Process<V>, b: BlockInfo, k: int)
    requires Runnable(p) && |Frame0(p).scopes| > 0
    requires |InnerScope(p).skip| < b.size
    requires 0 <= k < |Pending(InnerScope(p).skip, b.size)|
    ensures var r := EndParallel(p, b);
      var blockPath := ParentBlockPath(Pc(p));
      var skip := InnerScope(p).skip;
      var pending := Pending(skip, b.size);
      && r.Ok? && r.value.2
      && Pc(r.value.0) == ""
      && |r.value.1| == |pending|
      && Runnable(r.value.1[k])
      && Pc(r.value.1[k]) == blockPath + "." + Indexed("Stmts", pending[k])
      && |Frame0(r.value.1[k]).scopes| > 0
      && InnerScope(r.value.1[k]).skip == skip + [pending[k]]
      && r.value.1[k].parent == Some(p)
  {
    var blockPath := ParentBlockPath(Pc(p));
    var skip := InnerScope(p).skip;
    var pending := Pending(skip, b.size);
    var forks := ParallelForks(p, blockPath, pending);
    assert EndParallel(p, b) == Ok((SetPc(p, ""), forks, true));
    var fork := BranchFork(p, blockPath, pending[k], true);
    assert forks[k] == fork;
    var n := |Frame0(p).scopes|;
    assert InnerScope(fork) == Frame0(fork).scopes[n - 1];
  }

  /** A skip list as PARALLEL blocks build it: distinct statement indexes of
      a block with `n` statements. */
  predicate SkipWellFormed(skip: seq<int>, n: nat) {
    && (forall a | 0 <= a < |skip| :: 0 <= skip[a] < n)
    && (forall a, b | 0 <= a < b < |skip| :: skip[a] != skip[b])
  }

  /** Starting a pending branch keeps the skip list well formed. */
  lemma SkipStaysWellFormed(skip: seq<int>, n: nat, k: nat)
    requires SkipWellFormed(skip, n) && k < |Pending(skip, n)|
    ensures SkipWellFormed(skip + [Pending(skip, n)[k]], n)
  {
    var x := Pending(skip, n)[k];
    assert x in Pending(skip, n);
  }

  /** The statements a skip list marks as started. */
  function Started(skip: seq<int>): (r: set<int>)
    ensures forall x :: x in r <==> x in skip
  {
    set a | 0 <= a < |skip| :: skip[a]
  }

  lemma {:induction false} SubsetCard<T>(a: set<T>, b: set<T>)
    requires a <= b
    ensures |a| <= |b|
    decreases |a|
  {
    if a != {} {
      var x :| x in a;
      SubsetCard(a - {x}, b - {x});
    }
  }

  /** For a well-formed skip list, the length test of the source decides
      exactly whether every branch has been started. */
  lemma SkipFullIffNothingPending(skip: seq<int>, n: nat)
    requires SkipWellFormed(skip, n)
    ensures |skip| == n <==> Pending(skip, n) == []
  {
    var started := Started(skip);
    DistinctCard(skip);
    SubsetCard(started, Range(n));
    if |skip| == n {
      if Pending(skip, n) != [] {
        var x := Pending(skip, n)[0];
        assert x in Pending(skip, n);
        SubsetCard(started, Range(n) - {x});
      }
    } else {
      assert !(Range(n) <= started) by {
        if Range(n) <= started {
          SubsetCard(Range(n), started);
        }
      }
      var x :| x in Range(n) && x !in started;
      assert x in Pending(skip, n);
    }
  }

  lemma {:induction false} DistinctCard(skip: seq<int>)
    requires forall a, b | 0 <= a < b < |skip| :: skip[a] != skip[b]
    ensures |Started(skip)| == |skip|
    decreases |skip|
  {
    if |skip| > 0 {
      var init := skip[..|skip| - 1];
      DistinctCard(init);
      assert Started(skip) == Started(init) + {skip[|skip| - 1]};
      assert skip[|skip| - 1] !in init;
    }
  }
}

=== FILE: fmt.dfy ===
/** `get_state_string` of `performance/fmt.py`: a one-line summary of a
  node's process. Python's `str` of a value is the parameter `show`; a
  missing `process` key raises `KeyError`, a `Fail` here.
 */
module Fmt {
  import opened Wrappers

  function GetStateString<V>(node: map<string, map<string, V>>, show: V -> string): (r: Result<string>)
    ensures "process" !in node ==> r.Fail?
    ensures "process" in node ==> r.Ok?
    ensures "process" in node ==>
      var process := node["process"];
      && ("globals" !in process && "returns" !in process ==> r.value == "")
      && ("globals" in process && "returns" !in process ==>
            r.value == "state: " + show(process["globals"]) + " / ")
      && ("globals" !in process && "returns" in process ==>
            r.value == "returns: " + show(process["returns"]))
      && ("globals" in process && "returns" in process ==>
            r.value == "state: " + show(process["globals"]) + " / " + "returns: " + show(process["returns"]))
  {
    if "process" !in node then Fail("KeyError: 'process'")
    else
      var process := node["process"];
      var state := if "globals" in process then "state: " + show(process["globals"]) + " / " else "";
      var rets := if "returns" in process then "returns: " + show(process["returns"]) else "";
      Ok(state + rets)
  }

  /** The state part, when present, always comes first: the summary starts
      with it. */
  lemma StatePartFirst<V>(node: map<string, map<string, V>>, show: V -> string)
    requires "process" in node && "globals" in node["process"]
    ensures var s := "state: " + show(node["process"]["globals"]) + " / ";
      s <= GetStateString(node, show).value
  {
  }
}

=== FILE: invariants.dfy ===
/** Invariant checking of `modelchecker/invariants.go`. Evaluating the
  Python expression of an invariant is a parameter `eval`, and wrapping a
  dictionary as a Starlark value is a parameter `wrapDict`; a Go panic is
  a `Fail`. The witness matrix of the process is a set of (file,
  invariant) index pairs.
 */
module Invariants {
  import opened Wrappers
  import opened Ast
  import Scopes

  /** A key of a Starlark dict built from a string dict: `starlark.String(k)`. */
  datatype Key = StringKey(s: string)

  /** `NewDictFromStringDict`: the same entries, keyed by Starlark strings. */
  function NewDictFromStringDict<V>(vals: map<string, V>): (r: map<Key, V>)
    ensures forall k :: StringKey(k) in r <==> k in vals
    ensures forall k | k in vals :: r[StringKey(k)] == vals[k]
  {
    map k | k in vals :: StringKey(k) := vals[k]
  }

  /** Reading the keys back as Go strings recovers the original dict. */
  function StringDictFromDict<V>(d: map<Key, V>): map<string, V> {
    map key | key in d :: key.s := d[key]
  }

  lemma StringDictRoundTrip<V>(vals: map<string, V>)
    ensures StringDictFromDict(NewDictFromStringDict(vals)) == vals
  {
    var back := StringDictFromDict(NewDictFromStringDict(vals));
    assert back.Keys == vals.Keys by {
      forall k ensures k in back <==> k in vals {
        if k in vals {
          assert StringKey(k) in NewDictFromStringDict(vals);
        }
      }
    }
  }

  /** The variables an invariant is evaluated over: the globals, plus the
      process's return values as a dict under `__returns__`. */
  function InvariantVars<V>(globals: map<string, V>, rets: map<string, V>, wrapDict: map<Key, V> -> V)
    : (vars: map<string, V>)
    ensures vars.Keys == globals.Keys + {"__returns__"}
    ensures vars["__returns__"] == wrapDict(NewDictFromStringDict(rets))
    ensures forall k | k in globals && k != "__returns__" :: vars[k] == globals[k]
  {
    Scopes.CloneDict(globals)["__returns__" := wrapDict(NewDictFromStringDict(rets))]
  }

  /** `CheckInvariant`: only `always` invariants without a nested part are
      supported; the outcome is the truth of the expression. */
  function CheckInvariant<V>(inv: Invariant, globals: map<string, V>, rets: map<string, V>,
                             wrapDict: map<Key, V> -> V, eval: (string, map<string, V>) -> Result<bool>)
    : (r: Result<bool>)
    ensures !inv.always ==> r.Fail?
    ensures inv.nested.Some? ==> r.Fail?
    ensures inv.always && inv.nested.None? ==>
      r == eval(inv.pyExpr, InvariantVars(globals, rets, wrapDict))
  {
    if !inv.always then Fail("Invariant checking not supported for non-always invariants")
    else if inv.nested.Some? then Fail("Invariant checking not supported for nested invariants")
    else eval(inv.pyExpr, InvariantVars(globals, rets, wrapDict))
  }

  /** The outcome of every invariant of a file, in order; the first failure
      stops the check. */
  function Outcomes<V>(invs: seq<Invariant>, globals: map<string, V>, rets: map<string, V>,
                       wrapDict: map<Key, V> -> V, eval: (string, map<string, V>) -> Result<bool>)
    : (r: Result<seq<bool>>)
    ensures r.Ok? <==> forall j | 0 <= j < |invs| :: CheckInvariant(invs[j], globals, rets, wrapDict, eval).Ok?
    ensures r.Ok? ==> |r.value| == |invs|
    ensures r.Ok? ==>
      forall j | 0 <= j < |invs| :: r.value[j] == CheckInvariant(invs[j], globals, rets, wrapDict, eval).value
    decreases |invs|
  {
    if |invs| == 0 then Ok([])
    else
      var passed :- CheckInvariant(invs[0], globals, rets, wrapDict, eval);
      var rest :- Outcomes(invs[1..], globals, rets, wrapDict, eval);
      Ok([passed] + rest)
  }

  /** Indexes of the invariants below `n` that are not `eventually` and did
      not pass, ascending. */
  function Failures(invs: seq<Invariant>, passed: seq<bool>, n: nat): (r: seq<int>)
    requires n <= |invs| && |passed| == |invs|
    ensures forall j :: j in r <==> 0 <= j < n && !invs[j].eventually && !passed[j]
    ensures forall a, b | 0 <= a < b < |r| :: r[a] < r[b]
  {
    if n == 0 then []
    else
      var init := Failures(invs, passed, n - 1);
      assert forall a | 0 <= a < |init| :: init[a] < n - 1 by {
        forall a | 0 <= a < |init| ensures init[a] < n - 1 {
          assert init[a] in init;
        }
      }
      init + if !invs[n - 1].eventually && !passed[n - 1] then [n - 1] else []
  }

  /** The (file, invariant) pairs an evaluation witnesses: `eventually`
      invariants that passed once the process has no threads left. */
  function Witnessed(i: int, invs: seq<Invariant>, passed: seq<bool>, numThreads: nat): (r: set<(int, int)>)
    requires |passed| == |invs|
    ensures forall a, j :: (a, j) in r <==>
      a == i && 0 <= j < |invs| && invs[j].eventually && passed[j] && numThreads == 0
  {
    set j | 0 <= j < |invs| && invs[j].eventually && passed[j] && numThreads == 0 :: (i, j)
  }

  /** `CheckInvariants`: more than one file is rejected. Every file index
      gets an entry, possibly empty, listing in increasing order the
      invariants that are not `eventually` and failed. The passing
      `eventually` invariants of a process without threads are added to
      `seen`. */
  function CheckInvariants<V>(files: seq<seq<Invariant>>, numThreads: nat, globals: map<string, V>,
                              rets: map<string, V>, wrapDict: map<Key, V> -> V,
                              eval: (string, map<string, V>) -> Result<bool>, seen: set<(int, int)>)
    : (r: Result<(map<int, seq<int>>, set<(int, int)>)>)
    ensures |files| > 1 ==> r.Fail?
    ensures |files| == 0 ==> r == Ok((map[], seen))
    ensures |files| == 1 ==>
      var outcomes := Outcomes(files[0], globals, rets, wrapDict, eval);
      && (r.Ok? <==> outcomes.Ok?)
      && (r.Ok? ==>
            var (results, seen') := r.value;
            && results.Keys == {0}
            && (forall j :: j in results[0] <==>
                  0 <= j < |files[0]| && !files[0][j].eventually && !outcomes.value[j])
            && (forall a, b | 0 <= a < b < |results[0]| :: results[0][a] < results[0][b])
            && (forall a, j :: (a, j) in seen' <==>
                  || (a, j) in seen
                  || (a == 0 && 0 <= j < |files[0]| && files[0][j].eventually && outcomes.value[j]
                      && numThreads == 0)))
  {
    if |files| > 1 then Fail("Invariant checking not supported for multiple files")
    else if |files| == 0 then Ok((map[], seen))
    else
      var passed :- Outcomes(files[0], globals, rets, wrapDict, eval);
      Ok((map[0 := Failures(files[0], passed, |files[0]|)],
          seen + Witnessed(0, files[0], passed, numThreads)))
  }

  /** An `eventually` invariant is never reported as failed, whatever it
      evaluated to. */
  lemma EventuallyNeverFails<V>(files: seq<seq<Invariant>>, numThreads: nat, globals: map<string, V>,
                                rets: map<string, V>, wrapDict: map<Key, V> -> V,
                                eval: (string, map<string, V>) -> Result<bool>, seen: set<(int, int)>, j: int)
    requires |files| == 1 && 0 <= j < |files[0]| && files[0][j].eventually
    requires CheckInvariants(files, numThreads, globals, rets, wrapDict, eval, seen).Ok?
    ensures j !in CheckInvariants(files, numThreads, globals, rets, wrapDict, eval, seen).value.0[0]
  {
  }
}

=== FILE: markov.dfy ===
/** The structural helpers of the liveness analysis in
  `modelchecker/markovchain.go`: node enumeration by depth-first search,
  the transition matrix of the state graph, transposition, element-wise
  product, column normalisation and the absorbing witness rows. Matrices
  hold exact `real`s where the source uses `float64`. The state graph is an
  adjacency list over node indexes: `g[i]` lists the targets of node `i`'s
  outbound links, in order, possibly repeated.
 */
module Markov {
  import opened Wrappers
  import opened Sorting

  type Matrix = seq<seq<real>>

  /** Every link points at a node of the graph. */
  predicate GraphOk(g: seq<seq<int>>) {
    forall i, k :: 0 <= i < |g| && 0 <= k < |g[i]| ==> 0 <= g[i][k] < |g|
  }

  predicate IsMatrix(m: Matrix, rows: nat, cols: nat) {
    |m| == rows && forall i :: 0 <= i < rows ==> |m[i]| == cols
  }

  predicate Distinct(s: seq<int>) {
    forall i, j :: 0 <= i < j < |s| ==> s[i] != s[j]
  }

  // ---------------------------------------------------------------
  // getAllNodes / traverseDFS

  /** The DFS bookkeeping: `result` lists the visited nodes, each once. */
  ghost predicate Listed(g: seq<seq<int>>, visited: set<int>, result: seq<int>) {
    && (forall x :: x in visited ==> 0 <= x < |g|)
    && Distinct(result)
    && (forall x :: x in result <==> x in visited)
  }

  /** Every node visited since `before` has all its targets visited. */
  ghost predicate ClosedSince(g: seq<seq<int>>, before: set<int>, after: set<int>)
    requires forall x :: x in after ==> 0 <= x < |g|
  {
    forall x, k :: x in after && x !in before && 0 <= k < |g[x]| ==> g[x][k] in after
  }

  /** `traverseDFS` from `node`: an unvisited node is appended, then its
      targets are searched in order. */
  function Dfs(g: seq<seq<int>>, node: int, visited: set<int>, result: seq<int>): (r: (set<int>, seq<int>))
    requires GraphOk(g) && 0 <= node < |g| && Listed(g, visited, result)
    ensures Listed(g, r.0, r.1)
    ensures visited <= r.0 && node in r.0
    ensures result <= r.1
    ensures node !in visited ==> |r.1| > |result| && r.1[|result|] == node
    ensures ClosedSince(g, visited, r.0)
    decreases Range(|g|) - visited, 0
  {
    if node in visited then (visited, result)
    else
      assert node !in result;
      DfsLinks(g, g[node], 0, visited + {node}, result + [node])
  }

  /** The loop over a node's outbound links, from link `k` on. */
  function DfsLinks(g: seq<seq<int>>, targets: seq<int>, k: nat, visited: set<int>, result: seq<int>)
    : (r: (set<int>, seq<int>))
    requires GraphOk(g) && k <= |targets| && Listed(g, visited, result)
    requires forall j :: 0 <= j < |targets| ==> 0 <= targets[j] < |g|
    ensures Listed(g, r.0, r.1)
    ensures visited <= r.0
    ensures result <= r.1
    ensures forall j :: k <= j < |targets| ==> targets[j] in r.0
    ensures ClosedSince(g, visited, r.0)
    decreases Range(|g|) - visited, 1, |targets| - k
  {
    if k == |targets| then (visited, result)
    else
      var (v1, r1) := Dfs(g, targets[k], visited, result);
      DfsLinks(g, targets, k + 1, v1, r1)
  }

  /** `getAllNodes`: the nodes met by a depth-first search from the root,
      root first, each once; nothing for a nil root. */
  function GetAllNodes(g: seq<seq<int>>, root: Option<int>): (r: seq<int>)
    requires GraphOk(g) && (root.Some? ==> 0 <= root.value < |g|)
    ensures root.None? ==> r == []
    ensures root.Some? ==> |r| > 0 && r[0] == root.value
    ensures Distinct(r)
    ensures forall x :: x in r ==> 0 <= x < |g|
    ensures forall x, k :: x in r && 0 <= k < |g[x]| ==> g[x][k] in r
  {
    if root.None? then []
    else Dfs(g, root.value, {}, []).1
  }

  /** A walk along outbound links. */
  ghost predicate IsPath(g: seq<seq<int>>, p: seq<int>) {
    && (forall i :: 0 <= i < |p| ==> 0 <= p[i] < |g|)
    && (forall i :: 0 <= i < |p| - 1 ==> p[i + 1] in g[p[i]])
  }

  /** Every node reachable from the root is listed. */
  lemma {:induction false} ReachableListed(g: seq<seq<int>>, root: int, p: seq<int>)
    requires GraphOk(g) && 0 <= root < |g|
    requires |p| > 0 && p[0] == root && IsPath(g, p)
    ensures p[|p| - 1] in GetAllNodes(g, Some(root))
    decreases |p|
  {
    if |p| > 1 {
      var q := p[..|p| - 1];
      assert IsPath(g, q) by {
        forall i | 0 <= i < |q| - 1 ensures q[i + 1] in g[q[i]] {
          assert p[i + 1] in g[p[i]];
        }
      }
      ReachableListed(g, root, q);
      var x := p[|p| - 2];
      assert q[|q| - 1] == x;
      assert p[|p| - 2 + 1] in g[p[|p| - 2]];
      var k :| 0 <= k < |g[x]| && g[x][k] == p[|p| - 1];
    }
  }

  // ---------------------------------------------------------------
  // createTransitionMatrix

  /** Sum of a row, from the last entry back. */
  function RowSum(row: seq<real>): real {
    if |row| == 0 then 0.0 else RowSum(row[..|row| - 1]) + row[|row| - 1]
  }

  /** How often `j` is the target of a link in `targets`. */
  function Links(targets: seq<int>, j: int): nat {
    multiset(targets)[j]
  }

  /** Entry (i, j) of the transition matrix: a sink loops to itself with
      probability 1; otherwise each link carries 1 / outdegree, and
      repeated links add up. */
  function Transition(targets: seq<int>, i: int, j: int): real {
    (if |targets| == 0 && i == j then 1.0 else 0.0)
    + (if |targets| == 0 then 0.0 else (Links(targets, j) as real) / (|targets| as real))
  }

  function CreateTransitionMatrix(g: seq<seq<int>>): (m: Matrix)
    requires GraphOk(g)
    ensures IsMatrix(m, |g|, |g|)
    ensures forall i, j :: 0 <= i < |g| && 0 <= j < |g| && |g[i]| == 0 ==>
      m[i][j] == if i == j then 1.0 else 0.0
    ensures forall i, j :: 0 <= i < |g| && 0 <= j < |g| && m[i][j] != 0.0 ==>
      j in g[i] || (|g[i]| == 0 && i == j)
    ensures forall i, j :: 0 <= i < |g| && 0 <= j < |g| && |g[i]| > 0 ==>
      m[i][j] == (multiset(g[i])[j] as real) / (|g[i]| as real)
    ensures forall i, j :: 0 <= i < |g| && 0 <= j < |g| ==> m[i][j] >= 0.0
  {
    seq(|g|, i requires 0 <= i < |g| => TransitionRow(g[i], i, |g|))
  }

  /** Row `i` of an `n`-node transition matrix. */
  function TransitionRow(targets: seq<int>, i: int, n: nat): (row: seq<real>)
    ensures |row| == n
    ensures forall j :: 0 <= j < n ==> row[j] == Transition(targets, i, j)
  {
    seq(n, j requires 0 <= j < n => Transition(targets, i, j))
  }

  /** Link counts of the nodes below `n`. */
  function LinksBelow(targets: seq<int>, n: nat): nat {
    if n == 0 then 0 else LinksBelow(targets, n - 1) + Links(targets, n - 1)
  }

  lemma {:induction false} LinksBelowAppend(targets: seq<int>, x: int, n: nat)
    ensures LinksBelow(targets + [x], n) == LinksBelow(targets, n) + (if 0 <= x < n then 1 else 0)
  {
    if n > 0 {
      LinksBelowAppend(targets, x, n - 1);
      assert multiset(targets + [x]) == multiset(targets) + multiset{x};
    }
  }

  /** Every link points below `n`, so the counts add up to the outdegree. */
  lemma {:induction false} LinksBelowAll(targets: seq<int>, n: nat)
    requires forall k :: 0 <= k < |targets| ==> 0 <= targets[k] < n
    ensures LinksBelow(targets, n) == |targets|
    decreases |targets|
  {
    if |targets| == 0 {
      LinksBelowEmpty(n);
    } else {
      var init := targets[..|targets| - 1];
      assert targets == init + [targets[|targets| - 1]];
      LinksBelowAll(init, n);
      LinksBelowAppend(init, targets[|targets| - 1], n);
    }
  }

  lemma {:induction false} LinksBelowEmpty(n: nat)
    ensures LinksBelow([], n) == 0
  {
    if n > 0 {
      LinksBelowEmpty(n - 1);
    }
  }

  lemma {:induction false} RowPrefixSum(targets: seq<int>, i: int, row: seq<real>, n: nat)
    requires |targets| > 0 && n <= |row|
    requires forall j :: 0 <= j < |row| ==> row[j] == Transition(targets, i, j)
    ensures RowSum(row[..n]) == (LinksBelow(targets, n) as real) / (|targets| as real)
  {
    if n > 0 {
      RowPrefixSum(targets, i, row, n - 1);
      assert row[..n][..n - 1] == row[..n - 1];
      var d := |targets| as real;
      var a := LinksBelow(targets, n - 1) as real;
      var b := Links(targets, n - 1) as real;
      assert row[n - 1] == b / d;
      AddFractions(a, b, d);
    }
  }

  lemma AddFractions(a: real, b: real, d: real)
    requires d != 0.0
    ensures a / d + b / d == (a + b) / d
  {
  }

  /** A unit row sums to 1. */
  lemma {:induction false} UnitRowSum(row: seq<real>, i: int, n: nat)
    requires n <= |row|
    requires forall j :: 0 <= j < |row| ==> row[j] == if j == i then 1.0 else 0.0
    ensures RowSum(row[..n]) == if 0 <= i < n then 1.0 else 0.0
  {
    if n > 0 {
      UnitRowSum(row, i, n - 1);
      assert row[..n][..n - 1] == row[..n - 1];
    }
  }

  /** A row of the transition matrix sums to 1. */
  lemma TransitionRowSum(targets: seq<int>, i: int, n: nat)
    requires 0 <= i < n
    requires forall k :: 0 <= k < |targets| ==> 0 <= targets[k] < n
    ensures RowSum(TransitionRow(targets, i, n)) == 1.0
  {
    if |targets| == 0 {
      SinkRowSum(i, n);
    } else {
      LinkRowSum(targets, i, n);
    }
  }

  lemma SinkRowSum(i: int, n: nat)
    requires 0 <= i < n
    ensures RowSum(TransitionRow([], i, n)) == 1.0
  {
    var row := TransitionRow([], i, n);
    assert row[..n] == row;
    UnitRowSum(row, i, n);
  }

  lemma LinkRowSum(targets: seq<int>, i: int, n: nat)
    requires |targets| > 0
    requires forall k :: 0 <= k < |targets| ==> 0 <= targets[k] < n
    ensures RowSum(TransitionRow(targets, i, n)) == 1.0
  {
    var row := TransitionRow(targets, i, n);
    assert row[..n] == row;
    RowPrefixSum(targets, i, row, n);
    LinksBelowAll(targets, n);
    var d := |targets| as real;
    assert (LinksBelow(targets, n) as real) == d;
    DivSelf(d);
  }

  lemma DivSelf(d: real)
    requires d != 0.0
    ensures d / d == 1.0
  {
  }

  /** Every row of the transition matrix sums to 1: the matrix is
      row-stochastic. */
  lemma TransitionRowsSumToOne(g: seq<seq<int>>, i: int)
    requires GraphOk(g) && 0 <= i < |g|
    ensures RowSum(CreateTransitionMatrix(g)[i]) == 1.0
  {
    TransitionRowSum(g[i], i, |g|);
  }

  // ---------------------------------------------------------------
  // transpose

  /** `transpose`: rows after the first may be longer (their tail is
      ignored) but not shorter; an empty matrix panics on `matrix[0]`. */
  function Transpose(m: Matrix): (r: Matrix)
    requires |m| > 0 && forall i :: 0 <= i < |m| ==> |m[i]| >= |m[0]|
    ensures IsMatrix(r, |m[0]|, |m|)
    ensures forall i, j :: 0 <= i < |m| && 0 <= j < |m[0]| ==> r[j][i] == m[i][j]
  {
    seq(|m[0]|, j requires 0 <= j < |m[0]| =>
      seq(|m|, i requires 0 <= i < |m| && 0 <= j < |m[i]| => m[i][j]))
  }

  /** Transposing a non-empty rectangular matrix twice gives it back. */
  lemma TransposeInvolution(m: Matrix, rows: nat, cols: nat)
    requires rows > 0 && cols > 0 && IsMatrix(m, rows, cols)
    ensures Transpose(Transpose(m)) == m
  {
    var t := Transpose(Transpose(m));
    forall i | 0 <= i < rows ensures t[i] == m[i] {
      forall j | 0 <= j < cols ensures t[i][j] == m[i][j] {
      }
    }
  }

  // ---------------------------------------------------------------
  // multiplyMatrices

  /** `multiplyMatrices`: element-wise product; a shape mismatch (judged
      on the row count and the first row) panics. */
  function MultiplyMatrices(a: Matrix, b: Matrix): (r: Result<Matrix>)
    requires |a| > 0
    requires |b| == |a| && |b[0]| == |a[0]| ==>
      forall i :: 0 <= i < |a| ==> |a[i]| >= |a[0]| && |b[i]| >= |a[0]|
    ensures r.Ok? <==> |b| == |a| && |b[0]| == |a[0]|
    ensures r.Ok? ==> IsMatrix(r.value, |a|, |a[0]|)
    ensures r.Ok? ==> forall i, j :: 0 <= i < |a| && 0 <= j < |a[0]| ==> r.value[i][j] == a[i][j] * b[i][j]
  {
    if |b| != |a| || |b[0]| != |a[0]| then
      Fail("Matrices must have the same dimensions for element-wise multiplication")
    else
      Ok(seq(|a|, i requires 0 <= i < |a| =>
        seq(|a[0]|, j requires 0 <= j < |a[0]| => a[i][j] * b[i][j])))
  }

  /** Equal row counts are not enough: a narrower first row of `b` is
      rejected before any entry is read. */
  lemma MultiplyRejectsNarrower()
    ensures MultiplyMatrices([[1.0, 2.0]], [[1.0]]).Fail?
  {
  }

  /** Unequal row counts are rejected whatever the shape of the rows. */
  lemma MultiplyRejectsFewerRows()
    ensures MultiplyMatrices([[1.0, 2.0], [1.0]], [[1.0]]).Fail?
  {
  }

  /** An all-ones factor of the same shape leaves the other factor as it
      is. */
  lemma {:induction false} MultiplyByOnes(a: Matrix, ones: Matrix, rows: nat, cols: nat)
    requires rows > 0 && IsMatrix(a, rows, cols) && IsMatrix(ones, rows, cols)
    requires forall i, j :: 0 <= i < rows && 0 <= j < cols ==> ones[i][j] == 1.0
    ensures MultiplyMatrices(a, ones) == Ok(a)
  {
    var r := MultiplyMatrices(a, ones).value;
    forall i | 0 <= i < rows ensures r[i] == a[i] {
      assert |r[i]| == |a[i]| == cols;
      forall j | 0 <= j < cols ensures r[i][j] == a[i][j] {
        assert r[i][j] == a[i][j] * ones[i][j];
      }
    }
    assert r == a;
  }

  // ---------------------------------------------------------------
  // normalizeColumns

  /** Sum of column `col` over the first `n` rows. */
  function ColumnSum(m: Matrix, col: nat, n: nat): real
    requires n <= |m| && forall i :: 0 <= i < n ==> col < |m[i]|
  {
    if n == 0 then 0.0 else ColumnSum(m, col, n - 1) + m[n - 1][col]
  }

  predicate Rectangular(m: Matrix) {
    |m| > 0 && forall i :: 0 <= i < |m| ==> |m[i]| >= |m[0]|
  }

  function NormalizedEntry(m: Matrix, i: nat, j: nat): real
    requires Rectangular(m) && i < |m| && j < |m[i]|
  {
    if j < |m[0]| && ColumnSum(m, j, |m|) != 0.0 then m[i][j] / ColumnSum(m, j, |m|) else m[i][j]
  }

  /** `normalizeColumns`: every column of the first row's width whose sum
      is non-zero is divided by that sum; all-zero-sum columns, and
      entries past the first row's width, are left alone. */
  function NormalizeColumns(m: Matrix): (r: Matrix)
    requires Rectangular(m)
    ensures |r| == |m| && forall i :: 0 <= i < |m| ==> |r[i]| == |m[i]|
    ensures forall i, j :: 0 <= i < |m| && 0 <= j < |m[0]| && ColumnSum(m, j, |m|) == 0.0 ==>
      r[i][j] == m[i][j]
    ensures forall i, j :: 0 <= i < |m| && |m[0]| <= j < |m[i]| ==> r[i][j] == m[i][j]
  {
    seq(|m|, i requires 0 <= i < |m| =>
      seq(|m[i]|, j requires 0 <= j < |m[i]| => NormalizedEntry(m, i, j)))
  }

  lemma {:induction false} NormalizedColumnPrefix(m: Matrix, j: nat, n: nat)
    requires Rectangular(m) && j < |m[0]| && n <= |m| && ColumnSum(m, j, |m|) != 0.0
    ensures ColumnSum(NormalizeColumns(m), j, n) == ColumnSum(m, j, n) / ColumnSum(m, j, |m|)
  {
    if n > 0 {
      NormalizedColumnPrefix(m, j, n - 1);
      var sum := ColumnSum(m, j, |m|);
      var r := NormalizeColumns(m);
      assert r[n - 1][j] == m[n - 1][j] / sum;
      assert ColumnSum(r, j, n) == ColumnSum(r, j, n - 1) + r[n - 1][j];
      AddFractions(ColumnSum(m, j, n - 1), m[n - 1][j], sum);
    }
  }

  /** After normalisation a column with a non-zero sum sums to 1. */
  lemma NormalizedColumnSumsToOne(m: Matrix, j: nat)
    requires Rectangular(m) && j < |m[0]| && ColumnSum(m, j, |m|) != 0.0
    ensures ColumnSum(NormalizeColumns(m), j, |m|) == 1.0
  {
    NormalizedColumnPrefix(m, j, |m|);
    DivSelf(ColumnSum(m, j, |m|));
  }

  // ---------------------------------------------------------------
  // checkLiveness: witness rows

  function UnitRow(n: nat, i: int): (r: seq<real>)
    ensures |r| == n
    ensures forall j :: 0 <= j < n ==> r[j] == if j == i then 1.0 else 0.0
  {
    seq(n, j requires 0 <= j < n => if j == i then 1.0 else 0.0)
  }

  /** The row rewrite of `checkLiveness`: the row of every node that has a
      process and witnesses the invariant becomes absorbing, a unit row;
      every other row is kept. */
  function WitnessRows(m: Matrix, hasProcess: seq<bool>, witnessed: seq<bool>): (r: Matrix)
    requires |hasProcess| == |m| && |witnessed| == |m|
    ensures |r| == |m|
    ensures forall i :: 0 <= i < |m| && hasProcess[i] && witnessed[i] ==> r[i] == UnitRow(|m[i]|, i)
    ensures forall i :: 0 <= i < |m| && !(hasProcess[i] && witnessed[i]) ==> r[i] == m[i]
  {
    seq(|m|, i requires 0 <= i < |m| => if hasProcess[i] && witnessed[i] then UnitRow(|m[i]|, i) else m[i])
  }

  predicate Stochastic(m: Matrix) {
    forall i :: 0 <= i < |m| ==> RowSum(m[i]) == 1.0
  }

  /** Making witness rows absorbing keeps a square row-stochastic matrix
      row-stochastic, so the transition matrix stays one. */
  lemma WitnessRowsStochastic(m: Matrix, hasProcess: seq<bool>, witnessed: seq<bool>)
    requires IsMatrix(m, |m|, |m|) && Stochastic(m)
    requires |hasProcess| == |m| && |witnessed| == |m|
    ensures Stochastic(WitnessRows(m, hasProcess, witnessed))
  {
    var r := WitnessRows(m, hasProcess, witnessed);
    forall i | 0 <= i < |m| ensures RowSum(r[i]) == 1.0 {
      if hasProcess[i] && witnessed[i] {
        UnitRowSum(r[i], i, |m|);
        assert r[i][..|m|] == r[i];
      }
    }
  }

  /** The transition matrix is row-stochastic. */
  lemma TransitionStochastic(g: seq<seq<int>>)
    requires GraphOk(g)
    ensures Stochastic(CreateTransitionMatrix(g))
  {
    forall i | 0 <= i < |g| ensures RowSum(CreateTransitionMatrix(g)[i]) == 1.0 {
      TransitionRowsSumToOne(g, i);
    }
  }
}

=== FILE: options.dfy ===
/** `ReadOptionsFromYaml` of `modelchecker/options.go`. Reading and parsing
  the YAML file is an input: the outcome of `lib.ReadProtoFromFile`.
 */
module Options {
  import opened Wrappers

  datatype Opts = Opts(maxActions: int, maxConcurrentActions: int)

  /** `StateSpaceOptions`: its `Options` submessage may be unset (nil). */
  datatype StateSpaceOptions = StateSpaceOptions(options: Option<Opts>)

  /** Zero concurrency means "as many as actions". */
  function ApplyDefaults(o: Opts): (r: Opts)
    ensures r.maxActions == o.maxActions
    ensures o.maxConcurrentActions != 0 ==> r == o
    ensures r.maxConcurrentActions == 0 ==> r.maxActions == 0
    ensures o.maxConcurrentActions == 0 ==> r.maxConcurrentActions == r.maxActions
  {
    if o.maxConcurrentActions == 0 then o.(maxConcurrentActions := o.maxActions) else o
  }

  /** Defaulting twice is defaulting once. */
  lemma ApplyDefaultsIdempotent(o: Opts)
    ensures ApplyDefaults(ApplyDefaults(o)) == ApplyDefaults(o)
  {
  }

  /** `ReadOptionsFromYaml`: a read error is passed on; a file without an
      `options` section dereferences nil; otherwise defaults are applied. */
  function ReadOptions(read: Result<StateSpaceOptions>): (r: Result<StateSpaceOptions>)
    ensures read.Fail? ==> r == read
    ensures read.Ok? && read.value.options.None? ==> r.Fail?
    ensures read.Ok? && read.value.options.Some? ==>
      r == Ok(StateSpaceOptions(Some(ApplyDefaults(read.value.options.value))))
  {
    match read
    case Fail(e) => Fail(e)
    case Ok(msg) =>
      match msg.options
      case None => Fail("invalid memory address or nil pointer dereference")
      case Some(o) => Ok(StateSpaceOptions(Some(ApplyDefaults(o))))
  }
}

=== FILE: parser.dfy ===
/** The post-processing the Python front end (`parser/BuildAstVisitor.py`)
  does while turning an ANTLR parse tree into the protobuf AST. Tree walking
  is not modelled: a node's children arrive already visited, each as a
  `Child` carrying what visiting it produced. A Python `raise` is a `Fail`.
 */
module Parser {
  import opened Wrappers
  import opened Text
  import opened Ast

  /** The lexer tokens the visitors look at. */
  datatype Token =
    | LineBreak | ActionKw | Colon | Indent
    | AtomicKw | SerialKw | OneOfKw | ParallelKw
    | AlwaysKw | EventuallyKw
    | OtherToken

  /** What visiting a sub-tree returns. `PList` is a Python list;
      `PNone` is `None`. */
  datatype Proto =
    | PBlock(block: Block)
    | PStmt(stmt: Statement)
    | PPy(py: PyStmt)
    | PStateVars(code: string)
    | PAction(action: Action)
    | PInvariant(inv: Invariant)
    | PList(items: seq<Proto>)
    | PNone

  /** A child of a parse-tree node: a `NameContext` with its text, a
      `TestContext` with its source text, any other rule context with its
      visit result, a terminal token, or something that is neither a tree
      nor a terminal. */
  datatype Child =
    | Named(text: string)
    | Test(text: string)
    | Rule(proto: Proto)
    | Tok(token: Token)
    | Opaque

  /** The result of visiting a child. Name and test contexts hold only
      terminals, whose visits return `None`. */
  function Visited(c: Child): Proto {
    if c.Rule? then c.proto else PNone
  }

  // ---------------------------------------------------------------
  // transform_code

  /** One line of `transform_code`: a line with a non-blank character loses
      its first `k` characters (the whole line when it is shorter); a blank
      line is kept as is. */
  function DedentLine(line: string, k: nat): (r: string)
    ensures HasNonSpace(line) && k <= |line| ==> line == line[..k] + r
    ensures HasNonSpace(line) && k > |line| ==> r == ""
    ensures !HasNonSpace(line) ==> r == line
  {
    if HasNonSpace(line) then (if k <= |line| then line[k..] else "") else line
  }

  function DedentAll(lines: seq<string>, k: nat): (r: seq<string>)
    ensures |r| == |lines|
    ensures forall i :: 0 <= i < |lines| ==> r[i] == DedentLine(lines[i], k)
  {
    seq(|lines|, i requires 0 <= i < |lines| => DedentLine(lines[i], k))
  }

  /** `transform_code`: drop the first `skip` lines, then remove from each
      non-blank line the indentation of the first remaining line. With no
      line left, `lines[0]` raises. */
  function TransformCode(input: string, skip: nat): (r: Result<string>)
    ensures r.Ok? <==> skip < |Split(input, '\n')|
    ensures skip == 0 ==> r.Ok?
  {
    var lines := Split(input, '\n');
    if skip >= |lines| then Fail("IndexError: list index out of range")
    else
      var kept := lines[skip..];
      Ok(Join(DedentAll(kept, LeadingSpace(kept[0])), '\n'))
  }

  /** The output has one line per kept input line, each dedented by the
      leading whitespace of the first kept line. */
  lemma TransformCodeLines(input: string, skip: nat)
    requires skip < |Split(input, '\n')|
    ensures var lines := Split(input, '\n')[skip..];
      var out := Split(TransformCode(input, skip).value, '\n');
      && |out| == |Split(input, '\n')| - skip
      && forall i :: 0 <= i < |out| ==> out[i] == DedentLine(lines[i], LeadingSpace(lines[0]))
  {
    var lines := Split(input, '\n')[skip..];
    var mapped := DedentAll(lines, LeadingSpace(lines[0]));
    forall i | 0 <= i < |mapped| ensures '\n' !in mapped[i] {
      assert '\n' !in lines[i];
      if HasNonSpace(lines[i]) && LeadingSpace(lines[0]) <= |lines[i]| {
        assert lines[i] == lines[i][..LeadingSpace(lines[0])] + mapped[i];
      }
    }
    SplitJoin(mapped, '\n');
  }

  /** Nothing to skip and no indentation: the code comes back unchanged. */
  lemma TransformCodeIdentity(input: string)
    requires LeadingSpace(Split(input, '\n')[0]) == 0
    ensures TransformCode(input, 0) == Ok(input)
  {
    var lines := Split(input, '\n');
    assert lines[0..] == lines;
    var mapped := DedentAll(lines, 0);
    assert mapped == lines by {
      forall i | 0 <= i < |lines| ensures mapped[i] == lines[i] {
        assert lines[i][0..] == lines[i];
      }
    }
    JoinSplit(input, '\n');
  }

  // ---------------------------------------------------------------
  // Reference readings of a child list, defined from the last child back

  function FlowKeyword(t: Token): Option<Flow> {
    match t
    case AtomicKw => Some(Atomic)
    case SerialKw => Some(Serial)
    case OneOfKw => Some(OneOf)
    case ParallelKw => Some(Parallel)
    case _ => None
  }

  /** The flow named by the last flow keyword, or `Unknown`. */
  function LastFlow(cs: seq<Child>): Flow {
    if |cs| == 0 then Unknown
    else
      var c := cs[|cs| - 1];
      if c.Tok? && FlowKeyword(c.token).Some? then FlowKeyword(c.token).value
      else LastFlow(cs[..|cs| - 1])
  }

  /** The last visited child that is a Block. */
  function LastBlock(cs: seq<Child>): Option<Block> {
    if |cs| == 0 then None
    else if Visited(cs[|cs| - 1]).PBlock? then Some(Visited(cs[|cs| - 1]).block)
    else LastBlock(cs[..|cs| - 1])
  }

  /** The text of the last name child, or the empty default. */
  function LastName(cs: seq<Child>): string {
    if |cs| == 0 then ""
    else if cs[|cs| - 1].Named? then cs[|cs| - 1].text
    else LastName(cs[..|cs| - 1])
  }

  /** The source text of the last test child. */
  function LastTest(cs: seq<Child>): Option<string> {
    if |cs| == 0 then None
    else if cs[|cs| - 1].Test? then Some(cs[|cs| - 1].text)
    else LastTest(cs[..|cs| - 1])
  }

  predicate HasOpaque(cs: seq<Child>) {
    exists i :: 0 <= i < |cs| && cs[i].Opaque?
  }

  predicate HasToken(cs: seq<Child>, t: Token) {
    exists i :: 0 <= i < |cs| && cs[i] == Tok(t)
  }

  // ---------------------------------------------------------------
  // visitActiondef

  /** The flow reconciliation at the end of `visitActiondef`: an unset side
      takes the other side's flow, both unset become SERIAL, and two set
      flows are kept even when they differ. */
  function Reconcile(actionFlow: Flow, blockFlow: Flow): (r: (Flow, Flow))
    ensures r.0 != Unknown && r.1 != Unknown
    ensures actionFlow == Unknown && blockFlow != Unknown ==> r.0 == r.1 == blockFlow
    ensures actionFlow != Unknown && blockFlow == Unknown ==> r.0 == r.1 == actionFlow
    ensures actionFlow == Unknown && blockFlow == Unknown ==> r.0 == r.1 == Serial
    ensures actionFlow != Unknown && blockFlow != Unknown ==> r == (actionFlow, blockFlow)
  {
    if actionFlow == Unknown && blockFlow != Unknown then (blockFlow, blockFlow)
    else if actionFlow != Unknown && blockFlow == Unknown then (actionFlow, actionFlow)
    else if actionFlow == Unknown && blockFlow == Unknown then (Serial, Serial)
    else (actionFlow, blockFlow)
  }

  /** Reconciling an already reconciled pair changes nothing. */
  lemma ReconcileIdempotent(actionFlow: Flow, blockFlow: Flow)
    ensures var (a, b) := Reconcile(actionFlow, blockFlow);
      Reconcile(a, b) == (a, b)
  {
  }

  /** `visitActiondef`: the last name, block and flow keyword win; then the
      flows are reconciled. */
  method VisitActiondef(cs: seq<Child>) returns (r: Result<Action>)
    ensures r.Fail? <==> HasOpaque(cs)
    ensures r.Ok? ==>
      var b := LastBlock(cs).GetOr(EmptyBlock);
      && r.value.name == LastName(cs)
      && r.value.block.stmts == b.stmts
      && (r.value.flow, r.value.block.flow) == Reconcile(LastFlow(cs), b.flow)
  {
    var name := "";
    var block := EmptyBlock;
    var flow := Unknown;
    var i := 0;
    while i < |cs|
      invariant 0 <= i <= |cs|
      invariant !HasOpaque(cs[..i])
      invariant name == LastName(cs[..i])
      invariant block == LastBlock(cs[..i]).GetOr(EmptyBlock)
      invariant flow == LastFlow(cs[..i])
    {
      assert cs[..i + 1][..i] == cs[..i];
      match cs[i] {
      case Opaque =>
        assert cs[i].Opaque?;
        return Fail("visitActiondef child (unknown) type");
      case Named(text) =>
        name := text;
      case Test(_) =>
      case Rule(proto) =>
        if proto.PBlock? {
          block := proto.block;
        }
      case Tok(t) =>
        if FlowKeyword(t).Some? {
          flow := FlowKeyword(t).value;
        }
      }
      i := i + 1;
    }
    assert cs[..i] == cs;
    var (actionFlow, blockFlow) := Reconcile(flow, block.flow);
    r := Ok(Action(name, actionFlow, block.(flow := blockFlow)));
  }

  // ---------------------------------------------------------------
  // visitLabelled_stmt

  /** `visitLabelled_stmt`: the last child block (an empty one when there
      is none) with the flow of the last flow keyword. */
  method VisitLabelledStmt(cs: seq<Child>) returns (r: Result<Block>)
    ensures r.Fail? <==> HasOpaque(cs)
    ensures r.Ok? ==> r.value.flow == LastFlow(cs)
    ensures r.Ok? ==> r.value.stmts == (if LastBlock(cs).Some? then LastBlock(cs).value.stmts else [])
  {
    var block: Option<Block> := None;
    var flow := Unknown;
    var i := 0;
    while i < |cs|
      invariant 0 <= i <= |cs|
      invariant !HasOpaque(cs[..i])
      invariant block == LastBlock(cs[..i])
      invariant flow == LastFlow(cs[..i])
    {
      assert cs[..i + 1][..i] == cs[..i];
      var c := cs[i];
      if c.Opaque? {
        return Fail("visitLabelled_stmt child (unknown) type");
      } else if c.Tok? {
        if FlowKeyword(c.token).Some? {
          flow := FlowKeyword(c.token).value;
        }
      } else if Visited(c).PBlock? {
        block := Some(Visited(c).block);
      }
      i := i + 1;
    }
    assert cs[..i] == cs;
    r := Ok(block.GetOr(EmptyBlock).(flow := flow));
  }

  // ---------------------------------------------------------------
  // visitSuite

  /** A child `visitSuite` accepts: a statement or a terminal. */
  predicate SuiteChild(c: Child) {
    c.Tok? || (c.Rule? && c.proto.PStmt?)
  }

  /** The statements of a suite, in order. */
  function SuiteStmts(cs: seq<Child>): seq<Statement> {
    if |cs| == 0 then []
    else
      var c := cs[|cs| - 1];
      SuiteStmts(cs[..|cs| - 1]) + if c.Rule? && c.proto.PStmt? then [c.proto.stmt] else []
  }

  /** The statement-collecting loop of `visitSuite`. */
  method CollectSuite(cs: seq<Child>) returns (r: Result<seq<Statement>>)
    ensures r.Ok? <==> forall i :: 0 <= i < |cs| ==> SuiteChild(cs[i])
    ensures r.Ok? ==> r.value == SuiteStmts(cs)
  {
    var stmts: seq<Statement> := [];
    var i := 0;
    while i < |cs|
      invariant 0 <= i <= |cs|
      invariant forall j :: 0 <= j < i ==> SuiteChild(cs[j])
      invariant stmts == SuiteStmts(cs[..i])
    {
      assert cs[..i + 1][..i] == cs[..i];
      if !SuiteChild(cs[i]) {
        return Fail("visitSuite child (unknown) type");
      }
      if cs[i].Rule? {
        stmts := stmts + [cs[i].proto.stmt];
      }
      i := i + 1;
    }
    assert cs[..i] == cs;
    r := Ok(stmts);
  }

  /** The unwrap at the end of `visitSuite` as written: a protobuf
      submessage field is never `None`, so the test reduces to the length
      and the block field is taken even when it was never set. */
  function UnwrapAsWritten(stmts: seq<Statement>): Block {
    if |stmts| == 1 then BlockField(stmts[0]) else Block(Unknown, stmts)
  }

  /** The unwrap as evidently intended: only a statement that holds a
      block is replaced by that block. */
  function Unwrap(stmts: seq<Statement>): (r: Block)
    ensures |stmts| == 1 && stmts[0].block.Some? ==> r == stmts[0].block.value
    ensures !(|stmts| == 1 && stmts[0].block.Some?) ==> r == Block(Unknown, stmts)
  {
    if |stmts| == 1 && stmts[0].block.Some? then stmts[0].block.value else Block(Unknown, stmts)
  }

  /** A suite keeps its statements: either the block lists them all, or the
      suite was one block statement and the result is that block. */
  predicate KeepsStatements(stmts: seq<Statement>, r: Block) {
    r.stmts == stmts || (|stmts| == 1 && stmts[0].block == Some(r))
  }

  lemma UnwrapKeepsStatements(stmts: seq<Statement>)
    ensures KeepsStatements(stmts, Unwrap(stmts))
  {
  }

  /** As written, a suite made of one Python statement loses it. */
  lemma UnwrapAsWrittenDropsStatement()
    ensures var stmts := [Statement(Some(PyStmt("x = 1")), None)];
      && UnwrapAsWritten(stmts) == EmptyBlock
      && !KeepsStatements(stmts, UnwrapAsWritten(stmts))
  {
    var stmts := [Statement(Some(PyStmt("x = 1")), None)];
    assert UnwrapAsWritten(stmts).stmts == [];
  }

  /** `visitSuite`, with the unwrap as intended: a suite of one block
      statement becomes that block, and any other suite a fresh block of
      UNKNOWN flow listing its statements. */
  method VisitSuite(cs: seq<Child>) returns (r: Result<Block>)
    ensures r.Ok? <==> forall i :: 0 <= i < |cs| ==> SuiteChild(cs[i])
    ensures r.Ok? ==> KeepsStatements(SuiteStmts(cs), r.value)
    ensures r.Ok? ==> var stmts := SuiteStmts(cs);
      && (|stmts| == 1 && stmts[0].block.Some? ==> r.value == stmts[0].block.value)
      && (!(|stmts| == 1 && stmts[0].block.Some?) ==> r.value == Block(Unknown, stmts))
  {
    var stmts :- CollectSuite(cs);
    UnwrapKeepsStatements(stmts);
    r := Ok(Unwrap(stmts));
  }

  // ---------------------------------------------------------------
  // visitStmt

  /** `is_list_of_type`: every element is an Invariant. */
  function IsListOfType(items: seq<Proto>): (r: bool)
    ensures r <==> forall i :: 0 <= i < |items| ==> items[i].PInvariant?
    ensures |items| == 0 ==> r
  {
    if |items| == 0 then true
    else items[0].PInvariant? && IsListOfType(items[1..])
  }

  /** `visitStmt`: exactly one child; a Python statement or a block is
      wrapped into a Statement, other declarations pass through, `None`
      stays `None`, anything else raises. */
  function VisitStmt(childCount: int, child: Proto): (r: Result<Proto>)
    ensures childCount != 1 ==> r.Fail?
    ensures childCount == 1 && child.PPy? ==> r == Ok(PStmt(Statement(Some(child.py), None)))
    ensures childCount == 1 && child.PBlock? ==> r == Ok(PStmt(Statement(None, Some(child.block))))
    ensures childCount == 1 && (child.PNone? || child.PStateVars? || child.PAction? || child.PInvariant?) ==>
      r == Ok(child)
    ensures childCount == 1 && child.PList? ==> (r.Ok? <==> IsListOfType(child.items))
    ensures childCount == 1 && child.PStmt? ==> r.Fail?
    ensures r.Ok? ==> r.value.PStmt? || r.value == child
  {
    if childCount != 1 then Fail("visitStmt child count != 1")
    else
      match child
      case PNone => Ok(PNone)
      case PPy(py) => Ok(PStmt(Statement(Some(py), None)))
      case PBlock(b) => Ok(PStmt(Statement(None, Some(b))))
      case PStateVars(_) => Ok(child)
      case PAction(_) => Ok(child)
      case PInvariant(_) => Ok(child)
      case PList(items) => if IsListOfType(items) then Ok(child) else Fail("visitStmt childProto (unknown) type")
      case PStmt(_) => Fail("visitStmt childProto (unknown) type")
  }

  // ---------------------------------------------------------------
  // visitInvariant_stmt

  /** `visitInvariant_stmt`: the keywords set their flags independently and
      the expression is the dedented text of the last test child. */
  method VisitInvariantStmt(cs: seq<Child>) returns (r: Result<Invariant>)
    ensures r.Fail? <==> HasOpaque(cs)
    ensures r.Ok? ==> r.value.always == HasToken(cs, AlwaysKw)
    ensures r.Ok? ==> r.value.eventually == HasToken(cs, EventuallyKw)
    ensures r.Ok? && LastTest(cs).None? ==> r.value.pyExpr == ""
    ensures r.Ok? && LastTest(cs).Some? ==> r.value.pyExpr == TransformCode(LastTest(cs).value, 0).value
    ensures r.Ok? ==> r.value.nested.None?
  {
    var inv := Invariant(false, false, "", None);
    var i := 0;
    while i < |cs|
      invariant 0 <= i <= |cs|
      invariant !HasOpaque(cs[..i])
      invariant inv.always == HasToken(cs[..i], AlwaysKw)
      invariant inv.eventually == HasToken(cs[..i], EventuallyKw)
      invariant inv.pyExpr == if LastTest(cs[..i]).Some? then TransformCode(LastTest(cs[..i]).value, 0).value else ""
      invariant inv.nested.None?
    {
      PrefixStep(cs, i, AlwaysKw);
      PrefixStep(cs, i, EventuallyKw);
      if cs[i].Opaque? {
        assert HasOpaque(cs) by {
          assert 0 <= i < |cs| && cs[i].Opaque?;
        }
        return Fail("visitInvariant_stmt child (unknown) type");
      }
      inv := InvariantChild(inv, cs[i]);
      i := i + 1;
    }
    assert cs[..i] == cs;
    r := Ok(inv);
  }

  /** What one known child of an invariant statement contributes: its test
      sets the expression and the `always` and `eventually` keywords set
      their flags. */
  function InvariantChild(inv: Invariant, c: Child): Invariant
    requires !c.Opaque?
  {
    match c
    case Test(text) => inv.(pyExpr := TransformCode(text, 0).value)
    case Tok(t) =>
      if t == AlwaysKw then inv.(always := true)
      else if t == EventuallyKw then inv.(eventually := true)
      else inv
    case _ => inv
  }

  /** How the scanned prefix of the children grows by one child. */
  lemma PrefixStep(cs: seq<Child>, i: int, t: Token)
    requires 0 <= i < |cs|
    ensures LastTest(cs[..i + 1]) == if cs[i].Test? then Some(cs[i].text) else LastTest(cs[..i])
    ensures HasOpaque(cs[..i + 1]) <==> HasOpaque(cs[..i]) || cs[i].Opaque?
    ensures HasToken(cs[..i + 1], t) <==> HasToken(cs[..i], t) || cs[i] == Tok(t)
  {
    var p := cs[..i + 1];
    assert p[..i] == cs[..i];
    assert p[i] == cs[i];
    if HasToken(p, t) && cs[i] != Tok(t) {
      var k :| 0 <= k < |p| && p[k] == Tok(t);
      assert cs[..i][k] == p[k];
    }
    if HasOpaque(p) && !cs[i].Opaque? {
      var k :| 0 <= k < |p| && p[k].Opaque?;
      assert cs[..i][k] == p[k];
    }
  }

  /** The positions among the first `n` children of the sub-trees a visit
      descends into (everything but terminals), ascending. */
  function SubtreeIndices(cs: seq<Child>, n: nat): (idx: seq<int>)
    requires n <= |cs|
    ensures forall x :: x in idx <==> 0 <= x < n && !cs[x].Tok? && !cs[x].Opaque?
    ensures forall k | 0 <= k < |idx| :: 0 <= idx[k] < n
    ensures forall a, b | 0 <= a < b < |idx| :: idx[a] < idx[b]
  {
    if n == 0 then []
    else
      SubtreeIndices(cs, n - 1) + if !cs[n - 1].Tok? && !cs[n - 1].Opaque? then [n - 1] else []
  }

  /** `visitInvariants_suite`: the visited sub-trees, all of which must be
      invariants; terminals are skipped. The result holds one invariant per
      sub-tree, in the children's order. */
  function InvariantsSuite(cs: seq<Child>): (r: Result<seq<Invariant>>)
    ensures r.Ok? <==> forall i :: 0 <= i < |cs| && !cs[i].Tok? && !cs[i].Opaque? ==> Visited(cs[i]).PInvariant?
    ensures r.Ok? ==> forall k :: 0 <= k < |r.value| ==>
      exists i :: 0 <= i < |cs| && Visited(cs[i]) == PInvariant(r.value[k])
    ensures r.Ok? ==>
      var idx := SubtreeIndices(cs, |cs|);
      && |r.value| == |idx|
      && forall k | 0 <= k < |idx| :: 0 <= idx[k] < |cs| && PInvariant(r.value[k]) == Visited(cs[idx[k]])
  {
    var r := InvariantsPrefix(cs, |cs|);
    assert r.Ok? ==> forall k :: 0 <= k < |r.value| ==>
      exists i :: 0 <= i < |cs| && Visited(cs[i]) == PInvariant(r.value[k]) by {
      if r.Ok? {
        var idx := SubtreeIndices(cs, |cs|);
        forall k | 0 <= k < |r.value|
          ensures exists i :: 0 <= i < |cs| && Visited(cs[i]) == PInvariant(r.value[k])
        {
          assert 0 <= idx[k] < |cs| && Visited(cs[idx[k]]) == PInvariant(r.value[k]);
        }
      }
    }
    r
  }

  /** Every sub-tree among the first `n` children is an invariant. */
  ghost predicate AllInvariants(cs: seq<Child>, n: nat)
    requires n <= |cs|
  {
    forall i :: 0 <= i < n && !cs[i].Tok? && !cs[i].Opaque? ==> Visited(cs[i]).PInvariant?
  }

  /** `invs` holds, in order, the invariants of the sub-trees among the
      first `n` children. */
  ghost predicate InvariantsOf(cs: seq<Child>, n: nat, invs: seq<Invariant>)
    requires n <= |cs|
  {
    var idx := SubtreeIndices(cs, n);
    |invs| == |idx| && forall k | 0 <= k < |idx| :: PInvariant(invs[k]) == Visited(cs[idx[k]])
  }

  /** One more child: a terminal changes nothing, and an invariant is
      appended. */
  lemma InvariantsOfStep(cs: seq<Child>, n: nat, rest: seq<Invariant>)
    requires 0 < n <= |cs| && InvariantsOf(cs, n - 1, rest)
    ensures cs[n - 1].Tok? || cs[n - 1].Opaque? ==> InvariantsOf(cs, n, rest)
    ensures !cs[n - 1].Tok? && !cs[n - 1].Opaque? && Visited(cs[n - 1]).PInvariant? ==>
      InvariantsOf(cs, n, rest + [Visited(cs[n - 1]).inv])
  {
  }

  /** The visit of the first `n` children. */
  function InvariantsPrefix(cs: seq<Child>, n: nat): (r: Result<seq<Invariant>>)
    requires n <= |cs|
    ensures r.Ok? <==> AllInvariants(cs, n)
    ensures r.Ok? ==> InvariantsOf(cs, n, r.value)
  {
    if n == 0 then Ok([])
    else
      match InvariantsPrefix(cs, n - 1)
      case Fail(e) => Fail(e)
      case Ok(rest) =>
        InvariantsOfStep(cs, n, rest);
        var c := cs[n - 1];
        if c.Tok? || c.Opaque? then Ok(rest)
        else if Visited(c).PInvariant? then Ok(rest + [Visited(c).inv])
        else Fail("visitInvariants_suite childProto (unknown) type")
  }
}

=== FILE: process.dfy ===
/** Threads and processes of `modelchecker/thread.go` and
  `modelchecker/processor.go`: call frames on a `Stack`, threads, and the
  process (one "universe") that owns a heap and its threads.

  Processes are values: a fork is an equal copy whose `parent` is the
  process it was made from. The parent's list of children only records
  forks for debugging and is not modelled. The current thread and its top
  frame are reached by index and `Peek`; Go panics when either is missing,
  so the operations that use them require `Runnable`.
 */
module Processes {
  import opened Wrappers
  import opened Ast
  import opened Stacks
  import opened Sorting
  import opened Scopes
  import opened Text

  /** `CallFrame`: the file executed, the program counter, and the scope
      chain (outermost first; empty for a nil scope). */
  datatype Frame<V> = Frame(fileIndex: int, pc: string, scopes: seq<Scope<V>>)

  datatype Thread<V> = Thread(stack: Stack<Frame<V>>)

  datatype Process<V> = Process(
    name: string,
    heap: Heap<V>,
    threads: seq<Thread<V>>,
    current: int,
    parent: Option<Process<V>>)

  // ---------------------------------------------------------------------------
  // Threads
  // ---------------------------------------------------------------------------

  /** The thread has a well-formed stack with a frame on top. */
  ghost predicate HasFrame<V>(t: Thread<V>) {
    Valid(t.stack) && |t.stack.s| > 0
  }

  /** `NewThread(process, files, fileIndex, action)`: one frame, at `action`,
      with no scope yet. */
  function NewThread<V>(fileIndex: int, action: string): (t: Thread<V>)
    ensures HasFrame(t)
    ensures Len(t.stack) == 1
    ensures CurrentFrame(t) == Frame(fileIndex, action, [])
  {
    Thread(Push(NewStack(), Frame(fileIndex, action, [])))
  }

  /** `currentFrame`: the frame on top of the stack. */
  function CurrentFrame<V>(t: Thread<V>): (f: Frame<V>)
    requires HasFrame(t)
    ensures f == t.stack.s[|t.stack.s| - 1]
  {
    Peek(t.stack).value
  }

  /** Replaces the top frame, as writing through the frame pointer does. */
  function SetCurrentFrame<V>(t: Thread<V>, f: Frame<V>): (r: Thread<V>)
    requires HasFrame(t)
    ensures HasFrame(r)
    ensures CurrentFrame(r) == f
    ensures Len(r.stack) == Len(t.stack)
    ensures r.stack.s[..Len(t.stack) - 1] == t.stack.s[..Len(t.stack) - 1]
  {
    var n := |t.stack.s|;
    Thread(Stack(t.stack.s[..n - 1] + [f], Some(f)))
  }

  /** `InsertNewScope`: a new empty scope, flow not yet set, nested inside
      the top frame's scope. */
  function InsertNewScope<V>(t: Thread<V>): (r: Thread<V>)
    requires HasFrame(t)
    ensures HasFrame(r)
    ensures CurrentFrame(r).scopes == CurrentFrame(t).scopes + [Scope(map[], Unknown, [])]
    ensures CurrentFrame(r).pc == CurrentFrame(t).pc
    ensures CurrentFrame(r).fileIndex == CurrentFrame(t).fileIndex
    ensures Len(r.stack) == Len(t.stack)
  {
    var f := CurrentFrame(t);
    SetCurrentFrame(t, f.(scopes := f.scopes + [Scope(map[], Unknown, [])]))
  }

  /** A new scope hides nothing: every name looks up as before. */
  lemma InsertNewScopeKeepsLookup<V>(t: Thread<V>, name: string)
    requires HasFrame(t) && |CurrentFrame(t).scopes| > 0
    ensures Lookup(CurrentFrame(InsertNewScope(t)).scopes, name) == Lookup(CurrentFrame(t).scopes, name)
  {
    var s := CurrentFrame(t).scopes;
    var s' := CurrentFrame(InsertNewScope(t)).scopes;
    assert s'[..|s'| - 1] == s;
  }

  // ---------------------------------------------------------------------------
  // Processes
  // ---------------------------------------------------------------------------

  /** `current` indexes a thread that has a frame. */
  ghost predicate Runnable<V>(p: Process<V>) {
    0 <= p.current < |p.threads| && HasFrame(p.threads[p.current])
  }

  /** Every thread has a frame, so each has a program counter. */
  ghost predicate AllFramed<V>(p: Process<V>) {
    forall i | 0 <= i < |p.threads| :: HasFrame(p.threads[i])
  }

  function Frame0<V>(p: Process<V>): Frame<V>
    requires Runnable(p)
  {
    CurrentFrame(p.threads[p.current])
  }

  /** `currentPc` of the current thread. */
  function Pc<V>(p: Process<V>): string
    requires Runnable(p)
  {
    Frame0(p).pc
  }

  /** Writes the current thread's top frame; everything else is kept. */
  function SetFrame<V>(p: Process<V>, f: Frame<V>): (r: Process<V>)
    requires Runnable(p)
    ensures Runnable(r) && Frame0(r) == f
    ensures |r.threads| == |p.threads| && r.current == p.current
    ensures forall i | 0 <= i < |p.threads| && i != p.current :: r.threads[i] == p.threads[i]
    ensures r.heap == p.heap && r.name == p.name && r.parent == p.parent
    ensures AllFramed(p) ==> AllFramed(r)
  {
    p.(threads := p.threads[p.current := SetCurrentFrame(p.threads[p.current], f)])
  }

  /** Sets the current thread's program counter. */
  function SetPc<V>(p: Process<V>, pc: string): (r: Process<V>)
    requires Runnable(p)
    ensures Runnable(r) && Frame0(r) == Frame0(p).(pc := pc)
    ensures |r.threads| == |p.threads| && r.current == p.current
    ensures r.heap == p.heap && r.parent == p.parent
    ensures AllFramed(p) ==> AllFramed(r)
  {
    SetFrame(p, Frame0(p).(pc := pc))
  }

  /** `NewProcess(name, files, parent)`: an empty heap and one thread at the
      empty program counter, which is current. */
  function NewProcess<V>(name: string, parent: Option<Process<V>>): (p: Process<V>)
    ensures |p.threads| == 1 && p.current == 0
    ensures Runnable(p) && AllFramed(p)
    ensures Pc(p) == "" && Frame0(p).scopes == [] && Frame0(p).fileIndex == 0
    ensures p.heap.globals == map[]
    ensures p.name == name && p.parent == parent
  {
    Process(name, Heap(map[]), [NewThread(0, "")], 0, parent)
  }

  /** `Fork`: a child universe with a cloned heap, cloned threads and the
      same current thread, whose parent is `p`. */
  function Fork<V>(p: Process<V>): (r: Process<V>)
    ensures r.name == p.name && r.current == p.current
    ensures r.heap.globals == p.heap.globals
    ensures r.threads == p.threads
    ensures r.parent == Some(p)
  {
    Process(p.name, Heap(CloneDict(p.heap.globals)), p.threads, p.current, Some(p))
  }

  /** `Process.NewThread`: appends a thread at file 0 and the empty program
      counter; `current` is not changed. */
  function AddThread<V>(p: Process<V>): (r: Process<V>)
    ensures r.threads == p.threads + [NewThread(0, "")]
    ensures r.current == p.current && r.heap == p.heap && r.name == p.name
    ensures AllFramed(p) ==> AllFramed(r)
  {
    p.(threads := p.threads + [NewThread(0, "")])
  }

  /** `removeCurrentThread`: drops the current thread, keeps the order of the
      others and makes thread 0 current. */
  function RemoveCurrentThread<V>(p: Process<V>): (r: Process<V>)
    requires 0 <= p.current < |p.threads|
    ensures |r.threads| == |p.threads| - 1
    ensures forall i | 0 <= i < p.current :: r.threads[i] == p.threads[i]
    ensures forall i | p.current <= i < |r.threads| :: r.threads[i] == p.threads[i + 1]
    ensures r.current == 0
    ensures r.heap == p.heap && r.name == p.name && r.parent == p.parent
    ensures AllFramed(p) ==> AllFramed(r)
  {
    p.(threads := p.threads[..p.current] + p.threads[p.current + 1..], current := 0)
  }

  /** Putting the removed thread back where it was restores the thread list. */
  lemma RemoveCurrentThreadInverse<V>(p: Process<V>)
    requires 0 <= p.current < |p.threads|
    ensures var r := RemoveCurrentThread(p);
      r.threads[..p.current] + [p.threads[p.current]] + r.threads[p.current..] == p.threads
      && multiset(r.threads) + multiset{p.threads[p.current]} == multiset(p.threads)
  {
    var r := RemoveCurrentThread(p);
    var c := p.current;
    assert r.threads[..c] == p.threads[..c];
    assert r.threads[c..] == p.threads[c + 1..];
    assert p.threads == p.threads[..c] + [p.threads[c]] + p.threads[c + 1..];
  }

  // ---------------------------------------------------------------------------
  // Variables of the current frame
  // ---------------------------------------------------------------------------

  /** `GetAllVariables`: the heap globals, overridden by what the current
      frame's scope chain makes visible. */
  function GetAllVariables<V>(p: Process<V>): (d: map<string, V>)
    requires Runnable(p) && |Frame0(p).scopes| > 0
    ensures d.Keys == p.heap.globals.Keys + Visible(Frame0(p).scopes).Keys
    ensures forall k | k in d ::
      d[k] == match Lookup(Frame0(p).scopes, k)
        case Some(v) => v
        case None => p.heap.globals[k]
  {
    var scopes := Frame0(p).scopes;
    var d := Snapshot(scopes, p.heap);
    assert forall k | k in d :: d[k] == match Lookup(scopes, k)
        case Some(v) => v
        case None => p.heap.globals[k]
    by {
      forall k | k in d
        ensures d[k] == match Lookup(scopes, k)
          case Some(v) => v
          case None => p.heap.globals[k]
      {
        VisibleIsLookup(scopes, k);
      }
    }
    d
  }

  /** `updateAllVariablesInScope(dict)`: writes every entry of `dict` back to
      the current frame's scope chain or to the heap, each to the one place
      `PlaceOf` names. Only the current frame and the heap change. */
  method UpdateAllVariablesInScope<V>(p: Process<V>, dict: map<string, V>) returns (r: Process<V>)
    requires Runnable(p) && |Frame0(p).scopes| > 0
    ensures Runnable(r)
    ensures Frame0(r) == Frame0(p).(scopes := WrittenBack(Frame0(p).scopes, p.heap, dict))
    ensures r.heap == ExpectedHeap(Frame0(p).scopes, p.heap, dict)
    ensures |r.threads| == |p.threads| && r.current == p.current
    ensures forall i | 0 <= i < |p.threads| && i != p.current :: r.threads[i] == p.threads[i]
  {
    var f := Frame0(p);
    var scopes, heap := UpdateAll(f.scopes, p.heap, dict);
    assert scopes == WrittenBack(f.scopes, p.heap, dict);
    r := SetFrame(p, f.(scopes := scopes)).(heap := heap);
  }

  // ---------------------------------------------------------------------------
  // Hashing
  // ---------------------------------------------------------------------------

  /** The hashes of the threads, in thread order. */
  function ThreadHashes<V>(threads: seq<Thread<V>>, threadHash: Thread<V> -> string): (hs: seq<string>)
    ensures |hs| == |threads|
    ensures forall i | 0 <= i < |threads| :: hs[i] == threadHash(threads[i])
  {
    if |threads| == 0 then [] else [threadHash(threads[0])] + ThreadHashes(threads[1..], threadHash)
  }

  /** `Process.HashCode`: the digest of the current thread's hash, then all
      thread hashes in sorted order, then the heap hash. SHA-256 and the
      hashes of threads and of the heap are parameters. */
  function HashCode<V>(p: Process<V>, threadHash: Thread<V> -> string,
                       heapHash: Heap<V> -> string, digest: seq<string> -> string): string
    requires |p.threads| == 0 || 0 <= p.current < |p.threads|
  {
    var hs := ThreadHashes(p.threads, threadHash);
    var currentHash := if |hs| > 0 then hs[p.current] else "";
    StrLeOrder();
    digest([currentHash] + Sort(hs, StrLe) + [heapHash(p.heap)])
  }

  lemma StrLeOrder()
    ensures Preorder(StrLe) && Antisymmetric(StrLe)
  {
    forall a, b ensures StrLe(a, b) || StrLe(b, a) {
      StrLeTotal(a, b);
    }
    forall a, b, c | StrLe(a, b) && StrLe(b, c) ensures StrLe(a, c) {
      StrLeTransitive(a, b, c);
    }
    forall a, b | StrLe(a, b) && StrLe(b, a) ensures a == b {
      StrLeAntisymmetric(a, b);
    }
  }

  /** The hash depends only on the current thread's hash, the multiset of
      thread hashes and the heap hash. */
  lemma HashCodeDependsOn<V>(p: Process<V>, q: Process<V>, threadHash: Thread<V> -> string,
                            heapHash: Heap<V> -> string, digest: seq<string> -> string)
    requires 0 <= p.current < |p.threads| && 0 <= q.current < |q.threads|
    requires threadHash(p.threads[p.current]) == threadHash(q.threads[q.current])
    requires multiset(ThreadHashes(p.threads, threadHash)) == multiset(ThreadHashes(q.threads, threadHash))
    requires heapHash(p.heap) == heapHash(q.heap)
    ensures HashCode(p, threadHash, heapHash, digest) == HashCode(q, threadHash, heapHash, digest)
  {
    StrLeOrder();
    SortPermutationInvariant(ThreadHashes(p.threads, threadHash), ThreadHashes(q.threads, threadHash), StrLe);
  }

  /** Reordering the threads while keeping the same current thread and heap
      gives the same hash. */
  lemma HashCodePermutation<V>(p: Process<V>, q: Process<V>, threadHash: Thread<V> -> string,
                               heapHash: Heap<V> -> string, digest: seq<string> -> string)
    requires 0 <= p.current < |p.threads| && 0 <= q.current < |q.threads|
    requires multiset(p.threads) == multiset(q.threads)
    requires p.threads[p.current] == q.threads[q.current]
    requires p.heap == q.heap
    ensures HashCode(p, threadHash, heapHash, digest) == HashCode(q, threadHash, heapHash, digest)
  {
    HashesOfPermutation(p.threads, q.threads, threadHash);
    HashCodeDependsOn(p, q, threadHash, heapHash, digest);
  }

  lemma ThreadHashesAppend<V>(a: seq<Thread<V>>, b: seq<Thread<V>>, threadHash: Thread<V> -> string)
    ensures ThreadHashes(a + b, threadHash) == ThreadHashes(a, threadHash) + ThreadHashes(b, threadHash)
  {
    assert |ThreadHashes(a + b, threadHash)| == |a| + |b|;
  }

  /** Permuted threads have permuted hashes. */
  lemma {:induction false} HashesOfPermutation<V>(a: seq<Thread<V>>, b: seq<Thread<V>>, threadHash: Thread<V> -> string)
    requires multiset(a) == multiset(b)
    ensures multiset(ThreadHashes(a, threadHash)) == multiset(ThreadHashes(b, threadHash))
    decreases |a|
  {
    assert |a| == |multiset(a)| == |multiset(b)| == |b|;
    if |a| > 0 {
      var x := a[0];
      assert x in multiset(b);
      var j :| 0 <= j < |b| && b[j] == x;
      var rest := b[..j] + b[j + 1..];
      assert multiset(a) == multiset{x} + multiset(a[1..]) by {
        assert a == [x] + a[1..];
      }
      assert multiset(b) == multiset{x} + multiset(rest) by {
        SplitAround(b, j);
        assert multiset(b) == multiset(b[..j]) + multiset{x} + multiset(b[j + 1..]);
      }
      CancelOne(x, multiset(a[1..]), multiset(rest));
      HashesOfPermutation(a[1..], rest, threadHash);
      HashesCons(a, threadHash);
      SplitAround(b, j);
      HashesMiddle(b[..j], x, b[j + 1..], threadHash);
    }
  }

  lemma HashesCons<V>(a: seq<Thread<V>>, threadHash: Thread<V> -> string)
    requires |a| > 0
    ensures multiset(ThreadHashes(a, threadHash)) ==
      multiset{threadHash(a[0])} + multiset(ThreadHashes(a[1..], threadHash))
  {
  }

  /** Removing a thread removes its hash. */
  lemma HashesMiddle<V>(l: seq<Thread<V>>, x: Thread<V>, r: seq<Thread<V>>, threadHash: Thread<V> -> string)
    ensures multiset(ThreadHashes(l + [x] + r, threadHash)) ==
      multiset{threadHash(x)} + multiset(ThreadHashes(l + r, threadHash))
  {
    ThreadHashesAppend(l + [x], r, threadHash);
    ThreadHashesAppend(l, [x], threadHash);
    ThreadHashesAppend(l, r, threadHash);
    assert ThreadHashes([x], threadHash) == [threadHash(x)];
  }

  lemma SplitAround<T>(s: seq<T>, j: int)
    requires 0 <= j < |s|
    ensures s == s[..j] + [s[j]] + s[j + 1..]
  {
  }

  lemma CancelOne<T>(x: T, m: multiset<T>, n: multiset<T>)
    requires multiset{x} + m == multiset{x} + n
    ensures m == n
  {
    assert m == (multiset{x} + m) - multiset{x};
    assert n == (multiset{x} + n) - multiset{x};
  }
}

=== FILE: protopath.dfy ===
/** Program-counter paths (`modelchecker/protopath.go`).

  A thread's program counter is a dotted path into the AST of a file, such
  as `Actions[0].Block.Stmts[2].Block.Stmts[0]`. The source resolves such
  paths with Go reflection over the generated protobuf structs; here the AST
  is a `Value` tree and every reflective step is spelled out:
  - the file itself is a struct value, so only an indexed segment such as
    `Actions[0]` may be applied to it (`v.Elem()` on a struct panics);
  - every other message is reached through a pointer (`Msg`), which may be
    nil (`NilMsg`) when the submessage is unset;
  - a message's `fields` are the fields its Go struct declares.
 */
module ProtoPath {
  import opened Wrappers
  import opened Text
  import opened Ast

  /** The Go type of a message, as `GetProtoFieldByPath`'s callers switch on it. */
  datatype Kind = ActionMsg | BlockMsg | StatementMsg | AnyStmtMsg | BranchMsg | OtherMsg

  datatype Value =
    | Msg(kind: Kind, fields: map<string, Value>)
    | NilMsg
    | List(items: seq<Value>)
    | Str(text: string)
    | FlowEnum(flow: Flow)

  /** The outcome of a path lookup: a field, nil, or a panic. */
  datatype Lookup = Found(value: Value) | Missing | Panic

  // ---------------------------------------------------------------------------
  // Path segments
  // ---------------------------------------------------------------------------

  /** A segment of the form `Name[index]` (both brackets present). */
  predicate IsIndexed(part: string) {
    '[' in part && ']' in part
  }

  /** The text before the first `[`. */
  function FieldName(part: string): string {
    Split(part, '[')[0]
  }

  /** The text between the first `[` and the `]` that follows it. */
  function IndexText(part: string): string
    requires '[' in part
  {
    Split(Split(part, '[')[1], ']')[0]
  }

  /** The segment `name[i]`, as `fmt.Sprintf("%s[%d]", name, i)` writes it. */
  function Indexed(name: string, i: int): string {
    name + "[" + IntToString(i) + "]"
  }

  /** Reading back a segment written by `Indexed` recovers its name and index. */
  lemma IndexedParts(name: string, i: int)
    requires '[' !in name && ']' !in name && '.' !in name
    requires IsInt64(i)
    ensures IsIndexed(Indexed(name, i))
    ensures '.' !in Indexed(name, i)
    ensures FieldName(Indexed(name, i)) == name
    ensures Atoi(IndexText(Indexed(name, i))) == Some(i)
  {
    var d := IntToString(i);
    NumeralPlain(i);
    IndexedShape(name, d);
    assert Split(Indexed(name, i), '[') == [name, d + "]"];
    assert Split(d + "]", ']') == [d, ""];
    AtoiIntToString(i);
  }

  /** A decimal numeral holds no bracket and no dot. */
  lemma NumeralPlain(i: int)
    ensures '[' !in IntToString(i) && ']' !in IntToString(i) && '.' !in IntToString(i)
  {
    var d := IntToString(i);
    forall k | 0 <= k < |d| ensures d[k] != '[' && d[k] != ']' && d[k] != '.' {
      if i < 0 && k > 0 {
        assert d[k] == d[1..][k - 1];
      }
    }
  }

  /** `name[d]` splits at its bracket into `name` and `d]`, and `d]` splits
      at its bracket into `d` and the empty string. */
  lemma IndexedShape(name: string, d: string)
    requires '[' !in name && ']' !in name && '.' !in name
    requires '[' !in d && ']' !in d && '.' !in d
    ensures var seg := name + "[" + d + "]";
      && IsIndexed(seg) && '.' !in seg
      && Split(seg, '[') == [name, d + "]"]
      && Split(d + "]", ']') == [d, ""]
  {
    var tail := d + "]";
    assert name + "[" + d + "]" == name + "[" + tail;
    CloseNoOpen(d);
    OpenNoDot(name, tail);
    SplitAtOnly(name, tail, '[');
    SplitAtOnly(d, "", ']');
    assert d + [']'] + "" == tail;
  }

  /** Appending `]` to text without `[` or `.` adds neither. */
  lemma CloseNoOpen(d: string)
    requires '[' !in d && '.' !in d
    ensures '[' !in d + "]" && '.' !in d + "]" && ']' in d + "]"
  {
    var tail := d + "]";
    assert tail[|d|] == ']';
    forall k | 0 <= k < |tail| ensures tail[k] != '.' && tail[k] != '[' {
      if k < |d| { assert tail[k] == d[k]; }
    }
  }

  /** `name[tail` holds a `[`, and no `.` when neither part does. */
  lemma OpenNoDot(name: string, tail: string)
    requires '.' !in name && '.' !in tail
    ensures '[' in name + "[" + tail && '.' !in name + "[" + tail
  {
    var seg := name + "[" + tail;
    assert seg[|name|] == '[';
    forall k | 0 <= k < |seg| ensures seg[k] != '.' {
      if k < |name| { assert seg[k] == name[k]; }
      else if k > |name| { assert seg[k] == tail[k - |name| - 1]; }
    }
  }

  /** Text with exactly one separator splits into the two sides. */
  lemma SplitAtOnly(a: string, b: string, sep: char)
    requires sep !in a && sep !in b
    ensures Split(a + [sep] + b, sep) == [a, b]
  {
    SplitAppend(a, b, sep);
  }

  // ---------------------------------------------------------------------------
  // GetFieldByPath
  // ---------------------------------------------------------------------------

  /** An indexed segment applied to the fields of a struct: the index must be
      an integer (else panic); the field must exist, be a list, and hold that
      index (else nil). */
  function IndexStep(fields: map<string, Value>, part: string): (r: Lookup)
    requires IsIndexed(part)
    ensures r.Panic? <==> Atoi(IndexText(part)).None?
    ensures r.Found? <==>
      && Atoi(IndexText(part)).Some?
      && FieldName(part) in fields
      && fields[FieldName(part)].List?
      && 0 <= Atoi(IndexText(part)).value < |fields[FieldName(part)].items|
    ensures r.Found? ==>
      r.value == fields[FieldName(part)].items[Atoi(IndexText(part)).value]
  {
    match Atoi(IndexText(part))
    case None => Panic
    case Some(index) =>
      var name := FieldName(part);
      if name !in fields then Missing
      else match fields[name]
        case List(items) => if 0 <= index < |items| then Found(items[index]) else Missing
        case _ => Missing
  }

  /** One segment applied to a value reached through a pointer. A plain
      segment names a field; a nil pointer or a non-message value panics. */
  function Step(v: Value, part: string): (r: Lookup)
    ensures !v.Msg? ==> r.Panic?
    ensures v.Msg? && !IsIndexed(part) ==>
      r == (if part in v.fields then Found(v.fields[part]) else Missing)
  {
    match v
    case Msg(_, fields) =>
      if IsIndexed(part) then IndexStep(fields, part)
      else if part in fields then Found(fields[part])
      else Missing
    case _ => Panic
  }

  /** The remaining segments applied in order; the first nil or panic stops. */
  function Walk(v: Value, parts: seq<string>): Lookup
    decreases |parts|
  {
    if |parts| == 0 then Found(v)
    else match Step(v, parts[0])
      case Found(w) => Walk(w, parts[1..])
      case other => other
  }

  /** `GetFieldByPath(file, path)`. The file is a struct: its first segment
      must be indexed. */
  function GetFieldByPath(file: map<string, Value>, path: string): Lookup
  {
    var parts := Split(path, '.');
    var first := if IsIndexed(parts[0]) then IndexStep(file, parts[0]) else Panic;
    match first
    case Found(w) => Walk(w, parts[1..])
    case other => other
  }

  /** Walking a concatenation of segment lists is walking the first list and
      then, from where it ended, the second. */
  lemma {:induction false} WalkAppend(v: Value, a: seq<string>, b: seq<string>)
    ensures Walk(v, a + b) ==
      match Walk(v, a)
      case Found(w) => Walk(w, b)
      case other => other
    decreases |a|
  {
    if |a| == 0 {
      assert a + b == b;
    } else {
      assert (a + b)[0] == a[0];
      assert (a + b)[1..] == a[1..] + b;
      match Step(v, a[0])
      case Found(w) => WalkAppend(w, a[1..], b);
      case Missing =>
      case Panic =>
    }
  }

  /** Resolving `path.part` is resolving `path` and then taking one step. */
  lemma GetFieldByPathExtend(file: map<string, Value>, path: string, part: string)
    requires '.' !in part
    ensures GetFieldByPath(file, path + "." + part) ==
      match GetFieldByPath(file, path)
      case Found(w) => Step(w, part)
      case other => other
  {
    var parts := Split(path, '.');
    assert path + "." + part == path + ['.'] + part;
    SplitAppend(path, part, '.');
    assert Split(path + "." + part, '.') == parts + [part];
    assert (parts + [part])[0] == parts[0];
    assert (parts + [part])[1..] == parts[1..] + [part];
    var first := if IsIndexed(parts[0]) then IndexStep(file, parts[0]) else Panic;
    if first.Found? {
      WalkAppend(first.value, parts[1..], [part]);
      match Walk(first.value, parts[1..])
      case Found(w) =>
        assert [part][1..] == [];
      case Missing =>
      case Panic =>
    }
  }

  /** A statement path written as `block.Stmts[i]` resolves to the i-th
      statement of the block it extends, and to nil past the end. */
  lemma StmtPathResolves(file: map<string, Value>, block: string, i: int)
    requires IsInt64(i)
    ensures var r := GetFieldByPath(file, block + "." + Indexed("Stmts", i));
      match GetFieldByPath(file, block)
      case Found(Msg(_, fields)) =>
        if "Stmts" in fields && fields["Stmts"].List? && 0 <= i < |fields["Stmts"].items|
        then r == Found(fields["Stmts"].items[i])
        else r == Missing
      case Found(_) => r == Panic
      case other => r == other
  {
    IndexedParts("Stmts", i);
    GetFieldByPathExtend(file, block, Indexed("Stmts", i));
  }

  // ---------------------------------------------------------------------------
  // GetProtoFieldByPath
  // ---------------------------------------------------------------------------

  /** A message reached by a path: its kind and fields. */
  datatype Message = Message(kind: Kind, fields: map<string, Value>)

  /** `GetProtoFieldByPath`: nil stays None; a message pointer is returned;
      a nil pointer or a non-message value panics when dereferenced. */
  function GetProtoFieldByPath(file: map<string, Value>, path: string): (r: Result<Option<Message>>)
    ensures r == Ok(None) <==> GetFieldByPath(file, path).Missing?
    ensures r.Ok? && r.value.Some? <==>
      GetFieldByPath(file, path).Found? && GetFieldByPath(file, path).value.Msg?
    ensures r.Ok? && r.value.Some? ==>
      GetFieldByPath(file, path).value ==
        Msg(r.value.value.kind, r.value.value.fields)
  {
    match GetFieldByPath(file, path)
    case Found(Msg(kind, fields)) => Ok(Some(Message(kind, fields)))
    case Found(_) => Fail("reflect: call of Elem on a non-pointer value")
    case Missing => Ok(None)
    case Panic => Fail("reflect panic or strconv.Atoi error")
  }

  // ---------------------------------------------------------------------------
  // GetNextFieldPath
  // ---------------------------------------------------------------------------

  /** Where the right-to-left scan of `GetNextFieldPath` stops: an indexed
      segment whose index does not parse, or one naming `Stmts`. */
  predicate StopsScan(part: string) {
    IsIndexed(part) && (Atoi(IndexText(part)).None? || FieldName(part) == "Stmts")
  }

  /** The statement path `next` with the field it resolves to, or, when it
      resolves to nothing, the end marker of the block at `block`. */
  function NextOrEnd(file: map<string, Value>, block: string, next: string): Result<(string, Option<Value>)> {
    match GetFieldByPath(file, next)
    case Found(v) => Ok((next, Some(v)))
    case Missing => Ok((block + ".$", None))
    case Panic => Fail("reflect panic")
  }

  /** The outcome at the stopping segment `parts[k]`: the statement after
      it. A top-level segment has no block to end, so its nil outcome keeps
      the bumped segment itself. */
  function NextAt(file: map<string, Value>, parts: seq<string>, k: nat): Result<(string, Option<Value>)>
    requires k < |parts| && StopsScan(parts[k])
  {
    match Atoi(IndexText(parts[k]))
    case None => Fail("strconv.Atoi: invalid syntax")
    case Some(index) =>
      var bumped := Indexed("Stmts", Wrap64(index + 1));
      if k > 0 then
        var block := Join(parts[..k], '.');
        NextOrEnd(file, block, block + "." + bumped)
      else
        match GetFieldByPath(file, bumped)
        case Found(v) => Ok((bumped, Some(v)))
        case Missing => Ok((bumped, None))
        case Panic => Fail("reflect panic")
  }

  /** `parts[k]` is the rightmost stopping segment of `parts[..i]`. */
  predicate RightmostStop(parts: seq<string>, i: nat, k: nat) {
    && k < i <= |parts|
    && StopsScan(parts[k])
    && forall j | k < j < i :: !StopsScan(parts[j])
  }

  /** The scan over `parts[..i]`, right to left. */
  function NextFrom(file: map<string, Value>, parts: seq<string>, i: nat): (r: Result<(string, Option<Value>)>)
    requires i <= |parts|
    ensures (forall j :: 0 <= j < i ==> !StopsScan(parts[j])) ==> r == Ok(("", None))
    ensures forall k: nat | RightmostStop(parts, i, k) :: r == NextAt(file, parts, k)
  {
    if i == 0 then Ok(("", None))
    else if StopsScan(parts[i - 1]) then
      assert forall k: nat | RightmostStop(parts, i, k) :: k == i - 1;
      NextAt(file, parts, i - 1)
    else
      assert forall k: nat | RightmostStop(parts, i, k) :: RightmostStop(parts, i - 1, k);
      NextFrom(file, parts, i - 1)
  }

  /** `GetNextFieldPath(file, path)`: the path of the statement after the one
      named by the rightmost `Stmts[i]` segment, with the field it resolves to. */
  function GetNextFieldPath(file: map<string, Value>, path: string): Result<(string, Option<Value>)>
  {
    var parts := Split(path, '.');
    NextFrom(file, parts, |parts|)
  }

  /** With no indexed `Stmts` segment and every index well formed, there is
      no next statement: the result is the empty path. */
  lemma NextFieldPathNone(file: map<string, Value>, path: string)
    requires forall j :: 0 <= j < |Split(path, '.')| ==> !StopsScan(Split(path, '.')[j])
    ensures GetNextFieldPath(file, path) == Ok(("", None))
  {
  }

  /** For the rightmost segment `Stmts[i]` of `P.Stmts[i]` (segments right of
      it being well-formed non-`Stmts` ones), the result is `P.Stmts[i+1]`
      when that resolves, else `P.$`; a panic while resolving propagates. */
  lemma NextFieldPathRightmost(file: map<string, Value>, prefix: string, i: int, suffix: seq<string>)
    requires IsInt64(i) && IsInt64(i + 1)
    requires forall j :: 0 <= j < |suffix| ==> '.' !in suffix[j] && !StopsScan(suffix[j])
    ensures var path := Join(Split(prefix, '.') + [Indexed("Stmts", i)] + suffix, '.');
      var next := prefix + "." + Indexed("Stmts", i + 1);
      GetNextFieldPath(file, path) == NextOrEnd(file, prefix, next)
  {
    StmtsSegments(prefix, i, suffix);
    NextOfJoinStmts(file, Split(prefix, '.') + [Indexed("Stmts", i)] + suffix, |Split(prefix, '.')|, prefix, i);
  }

  /** The segments of `P.Stmts[i]` followed by `suffix`: all dot-free, with
      `Stmts[i]` the rightmost stopping one and `P` joined from those before it. */
  lemma StmtsSegments(prefix: string, i: int, suffix: seq<string>)
    requires IsInt64(i)
    requires forall j :: 0 <= j < |suffix| ==> '.' !in suffix[j] && !StopsScan(suffix[j])
    ensures var pp := Split(prefix, '.');
      var parts := pp + [Indexed("Stmts", i)] + suffix;
      && (forall j :: 0 <= j < |parts| ==> '.' !in parts[j])
      && 0 < |pp| < |parts|
      && parts[|pp|] == Indexed("Stmts", i) && StopsScan(parts[|pp|])
      && Join(parts[..|pp|], '.') == prefix
      && (forall j | |pp| < j < |parts| :: !StopsScan(parts[j]))
  {
    var pp := Split(prefix, '.');
    var seg := Indexed("Stmts", i);
    var parts := pp + [seg] + suffix;
    IndexedParts("Stmts", i);
    SegmentsAround(pp, seg, suffix);
    assert parts[..|pp|] == pp;
    JoinSplit(prefix, '.');
  }

  /** The path joined from dot-free segments whose rightmost stopping
      segment is `prefix`'s `Stmts[i]` continues after that statement. */
  lemma NextOfJoinStmts(file: map<string, Value>, parts: seq<string>, k: nat, prefix: string, i: int)
    requires forall j :: 0 <= j < |parts| ==> '.' !in parts[j]
    requires 0 < k < |parts| && IsInt64(i) && IsInt64(i + 1)
    requires parts[k] == Indexed("Stmts", i) && StopsScan(parts[k])
    requires Join(parts[..k], '.') == prefix
    requires forall j | k < j < |parts| :: !StopsScan(parts[j])
    ensures GetNextFieldPath(file, Join(parts, '.')) ==
      NextOrEnd(file, prefix, prefix + "." + Indexed("Stmts", i + 1))
  {
    NextOfJoinAtStop(file, parts, k);
    NextAtStmts(file, parts, k, prefix, i);
  }

  /** The path joined from dot-free segments is scanned segment by segment,
      stopping at its rightmost stopping segment. */
  lemma NextOfJoinAtStop(file: map<string, Value>, parts: seq<string>, k: nat)
    requires forall j :: 0 <= j < |parts| ==> '.' !in parts[j]
    requires k < |parts| && StopsScan(parts[k])
    requires forall j | k < j < |parts| :: !StopsScan(parts[j])
    ensures GetNextFieldPath(file, Join(parts, '.')) == NextAt(file, parts, k)
  {
    SplitJoin(parts, '.');
    assert GetNextFieldPath(file, Join(parts, '.')) == NextFrom(file, parts, |parts|);
    NextFromAtStop(file, parts, k);
  }

  /** Facts about the segment list `pp + [seg] + suffix` used above. */
  lemma SegmentsAround(pp: seq<string>, seg: string, suffix: seq<string>)
    requires forall j :: 0 <= j < |pp| ==> '.' !in pp[j]
    requires '.' !in seg && StopsScan(seg)
    requires forall j :: 0 <= j < |suffix| ==> '.' !in suffix[j] && !StopsScan(suffix[j])
    ensures var parts := pp + [seg] + suffix;
      && (forall j :: 0 <= j < |parts| ==> '.' !in parts[j])
      && parts[|pp|] == seg
      && (forall j | |pp| < j < |parts| :: !StopsScan(parts[j]))
  {
    var parts := pp + [seg] + suffix;
    forall j | 0 <= j < |parts| ensures '.' !in parts[j] {
      if j < |pp| { assert parts[j] == pp[j]; }
      else if j > |pp| { assert parts[j] == suffix[j - |pp| - 1]; }
    }
    forall j | |pp| < j < |parts| ensures !StopsScan(parts[j]) {
      assert parts[j] == suffix[j - |pp| - 1];
    }
  }

  /** The outcome at a well-formed `Stmts[i]` segment preceded by `prefix`. */
  lemma NextAtStmts(file: map<string, Value>, parts: seq<string>, k: nat, prefix: string, i: int)
    requires 0 < k < |parts| && IsInt64(i) && IsInt64(i + 1)
    requires parts[k] == Indexed("Stmts", i)
    requires Join(parts[..k], '.') == prefix
    requires StopsScan(parts[k])
    ensures var next := prefix + "." + Indexed("Stmts", i + 1);
      NextAt(file, parts, k) == NextOrEnd(file, prefix, next)
  {
    IndexedParts("Stmts", i);
    assert Atoi(IndexText(parts[k])) == Some(i);
    assert Wrap64(i + 1) == i + 1;
    assert Join(parts[..k], '.') + "." + Indexed("Stmts", Wrap64(i + 1)) == prefix + "." + Indexed("Stmts", i + 1);
  }

  /** The scan over all segments stops at the rightmost stopping segment. */
  lemma NextFromAtStop(file: map<string, Value>, parts: seq<string>, k: nat)
    requires k < |parts| && StopsScan(parts[k])
    requires forall j | k < j < |parts| :: !StopsScan(parts[j])
    ensures NextFrom(file, parts, |parts|) == NextAt(file, parts, k)
  {
    assert RightmostStop(parts, |parts|, k);
  }

  // ---------------------------------------------------------------------------
  // Parent block and segment removal
  // ---------------------------------------------------------------------------

  /** `RemoveLastSegment(path, substr)`: the text before the last occurrence
      of `substr`, or "" when it does not occur. */
  function RemoveLastSegment(path: string, substr: string): (r: string)
    ensures (forall j :: 0 <= j <= |path| ==> !OccursAt(path, substr, j)) ==> r == ""
    ensures forall j | 0 <= j <= |path| && OccursAt(path, substr, j)
      && (forall k | j < k <= |path| :: !OccursAt(path, substr, k)) :: r == path[..j]
    ensures r <= path
  {
    var lastIndex := LastIndex(path, substr);
    if lastIndex == -1 then "" else path[..lastIndex]
  }

  function RemoveLastBlock(path: string): (r: string)
    ensures (forall j :: 0 <= j <= |path| ==> !OccursAt(path, ".Block", j)) ==> r == ""
    ensures forall j | 0 <= j <= |path| && OccursAt(path, ".Block", j)
      && (forall k | j < k <= |path| :: !OccursAt(path, ".Block", k)) :: r == path[..j]
  {
    RemoveLastSegment(path, ".Block")
  }

  function RemoveLastForStmt(path: string): (r: string)
    ensures (forall j :: 0 <= j <= |path| ==> !OccursAt(path, ".ForStmt", j)) ==> r == ""
    ensures forall j | 0 <= j <= |path| && OccursAt(path, ".ForStmt", j)
      && (forall k | j < k <= |path| :: !OccursAt(path, ".ForStmt", k)) :: r == path[..j]
  {
    RemoveLastSegment(path, ".ForStmt")
  }

  function RemoveLastWhileStmt(path: string): (r: string)
    ensures (forall j :: 0 <= j <= |path| ==> !OccursAt(path, ".WhileStmt", j)) ==> r == ""
    ensures forall j | 0 <= j <= |path| && OccursAt(path, ".WhileStmt", j)
      && (forall k | j < k <= |path| :: !OccursAt(path, ".WhileStmt", k)) :: r == path[..j]
  {
    RemoveLastSegment(path, ".WhileStmt")
  }

  /** `ParentBlockPath(path)`: the path cut just after its last `.Block`, or
      "" when it has none. The result is a prefix of the path that ends in
      `.Block`, and no `.Block` starts further right. */
  function ParentBlockPath(path: string): (r: string)
    ensures r == "" <==> forall j :: 0 <= j <= |path| ==> !OccursAt(path, ".Block", j)
    ensures r != "" ==> r <= path && OccursAt(r, ".Block", |r| - 6)
    ensures r != "" ==> forall k :: |r| - 6 < k <= |path| ==> !OccursAt(path, ".Block", k)
  {
    var lastIndex := LastIndex(path, ".Block");
    if lastIndex == -1 then ""
    else
      assert path[..lastIndex] + ".Block" == path[..lastIndex + 6];
      path[..lastIndex] + ".Block"
  }

  // ---------------------------------------------------------------------------
  // End of block
  // ---------------------------------------------------------------------------

  /** The length of the run of ASCII digits starting at `j`. */
  function DigitRun(s: string, j: nat): (n: nat)
    requires j <= |s|
    ensures j + n <= |s|
    ensures forall k :: j <= k < j + n ==> IsDigit(s[k])
    ensures j + n < |s| ==> !IsDigit(s[j + n])
    decreases |s| - j
  {
    if j < |s| && IsDigit(s[j]) then 1 + DigitRun(s, j + 1) else 0
  }

  /** The regular expression `Stmts\[\d+\]` matches at `i`. */
  predicate MatchAt(s: string, i: nat) {
    && OccursAt(s, "Stmts[", i)
    && DigitRun(s, i + 6) >= 1
    && i + 6 + DigitRun(s, i + 6) < |s|
    && s[i + 6 + DigitRun(s, i + 6)] == ']'
  }

  /** Where the match at `i` ends (exclusive). */
  function MatchEnd(s: string, i: nat): (e: nat)
    requires MatchAt(s, i)
    ensures i + 8 <= e <= |s|
  {
    i + 6 + DigitRun(s, i + 6) + 1
  }

  /** No match starts strictly inside another, so the matches that
      `FindAllStringIndex` reports are all the positions where the pattern
      matches, and the last one reported is the rightmost. */
  lemma MatchesDisjoint(s: string, i: nat, j: nat)
    requires MatchAt(s, i) && i < j < MatchEnd(s, i)
    ensures !MatchAt(s, j)
  {
    assert s[i..i + 6] == "Stmts[";
    if j < i + 6 {
      assert s[j] == "Stmts["[j - i];
    } else {
      assert IsDigit(s[j]) || s[j] == ']';
    }
    assert s[j] != 'S';
    assert j + 6 <= |s| ==> s[j..j + 6][0] == s[j];
  }

  /** The rightmost match at a position `<= k`, scanning down. */
  function LastMatchFrom(s: string, k: int): (r: Option<nat>)
    requires k < |s|
    ensures r.Some? ==> r.value <= k && MatchAt(s, r.value)
    ensures forall j: nat :: (r.None? || r.value < j) && j <= k ==> !MatchAt(s, j)
    decreases k + 1
  {
    if k < 0 then None
    else if MatchAt(s, k) then Some(k)
    else LastMatchFrom(s, k - 1)
  }

  function LastMatch(s: string): (r: Option<nat>)
    ensures r.Some? ==> MatchAt(s, r.value)
    ensures forall j: nat :: (r.None? || r.value < j) ==> !MatchAt(s, j)
  {
    LastMatchFrom(s, |s| - 1)
  }

  /** `EndOfBlock(path)` = `replaceLastStmts(path, "$")`: the last
      `Stmts[<digits>]` becomes `$`; the text before and after it is kept;
      a path without one is returned unchanged. */
  function EndOfBlock(path: string): (r: string)
    ensures (forall j: nat :: !MatchAt(path, j)) ==> r == path
  {
    match LastMatch(path)
    case None => path
    case Some(i) => path[..i] + "$" + path[MatchEnd(path, i)..]
  }

  /** The match `EndOfBlock` replaces is the rightmost one. */
  lemma EndOfBlockReplacesLast(path: string, i: nat)
    requires MatchAt(path, i) && forall j: nat :: i < j ==> !MatchAt(path, j)
    ensures EndOfBlock(path) == path[..i] + "$" + path[MatchEnd(path, i)..]
  {
    LastMatchIs(path, i);
  }

  /** After `EndOfBlock` replaced the match at `i`, no match remains at or
      after `i`: a second call can only replace an earlier `Stmts[...]`. */
  lemma EndOfBlockClearsTail(path: string, i: nat)
    requires MatchAt(path, i) && forall j: nat :: i < j ==> !MatchAt(path, j)
    ensures forall j: nat :: i <= j ==> !MatchAt(EndOfBlock(path), j)
  {
    LastMatchIs(path, i);
    assert EndOfBlock(path) == path[..i] + "$" + path[MatchEnd(path, i)..];
    forall j: nat | i <= j
      ensures !MatchAt(EndOfBlock(path), j)
    {
      NoMatchAfterMarker(path, i, j);
    }
  }

  /** One position of `EndOfBlockClearsTail`. */
  lemma NoMatchAfterMarker(path: string, i: nat, j: nat)
    requires MatchAt(path, i) && forall j: nat :: i < j ==> !MatchAt(path, j)
    requires i <= j
    ensures !MatchAt(path[..i] + "$" + path[MatchEnd(path, i)..], j)
  {
    var e := MatchEnd(path, i);
    var r := path[..i] + "$" + path[e..];
    if j == i {
      assert r[i] == '$';
      assert j + 6 <= |r| ==> r[j..j + 6][0] == r[j];
    } else if j <= |r| {
      var d := j - i - 1 + e;
      assert r[j..] == path[d..];
      ShiftMatch(r, path, j, d);
    }
  }

  lemma LastMatchIs(path: string, i: nat)
    requires MatchAt(path, i) && forall j: nat :: i < j ==> !MatchAt(path, j)
    ensures LastMatch(path) == Some(i)
  {
  }

  /** A match depends only on the text from its start onwards. */
  lemma ShiftMatch(a: string, b: string, j: nat, d: nat)
    requires j <= |a| && d <= |b| && a[j..] == b[d..]
    ensures MatchAt(a, j) ==> MatchAt(b, d)
  {
    if j + 6 <= |a| {
      assert a[j..j + 6] == a[j..][..6];
      assert b[d..d + 6] == b[d..][..6];
      DigitRunShift(a, b, j + 6, d + 6);
      var n := DigitRun(a, j + 6);
      if j + 6 + n < |a| {
        assert a[j + 6 + n] == a[j..][6 + n];
        assert b[d + 6 + n] == b[d..][6 + n];
      }
    }
  }

  lemma {:induction false} DigitRunShift(a: string, b: string, j: nat, d: nat)
    requires j <= |a| && d <= |b| && a[j..] == b[d..]
    ensures DigitRun(a, j) == DigitRun(b, d)
    decreases |a| - j
  {
    if j < |a| {
      assert a[j] == a[j..][0];
      assert b[d] == b[d..][0];
      assert a[j + 1..] == a[j..][1..];
      assert b[d + 1..] == b[d..][1..];
      DigitRunShift(a, b, j + 1, d + 1);
    }
  }
}

=== FILE: scope.dfy ===
/** Variable storage of `modelchecker/thread.go`: the process-wide `Heap`,
  lexical `Scope` chains, and the dictionary helpers built on them.

  A scope chain is a sequence of scopes, outermost first: the innermost
  scope, the one a frame points at, is the last element, and the empty
  sequence stands for a frame that has no scope yet (a nil `*Scope`).
  Values are of an arbitrary type `V`; copying a Starlark set in
  `CopyDict` yields an equal value, so it is not distinguished here.
 */
module Scopes {
  import opened Wrappers
  import opened Ast
  import opened Sorting

  datatype Heap<V> = Heap(globals: map<string, V>)

  datatype Scope<V> = Scope(vars: map<string, V>, flow: Flow, skip: seq<int>)

  // ---------------------------------------------------------------------------
  // Heap
  // ---------------------------------------------------------------------------

  /** `Heap.update(k, v)`: overwrites `k` only if it is already a global, and
      reports whether it did. It never adds a key. */
  function HeapUpdate<V>(h: Heap<V>, k: string, v: V): (r: (Heap<V>, bool))
    ensures r.1 <==> k in h.globals
    ensures r.0.globals.Keys == h.globals.Keys
    ensures r.1 ==> r.0.globals[k] == v
    ensures forall k' :: k' in h.globals && k' != k ==> r.0.globals[k'] == h.globals[k']
    ensures !r.1 ==> r.0 == h
  {
    if k in h.globals then (Heap(h.globals[k := v]), true) else (h, false)
  }

  // ---------------------------------------------------------------------------
  // Lookup through a scope chain
  // ---------------------------------------------------------------------------

  /** Scope `j` is the innermost scope of the chain that binds `name`. */
  predicate Innermost<V>(scopes: seq<Scope<V>>, name: string, j: int) {
    && 0 <= j < |scopes|
    && name in scopes[j].vars
    && forall k | j < k < |scopes| :: name !in scopes[k].vars
  }

  /** No scope of the chain binds `name`. */
  predicate Unbound<V>(scopes: seq<Scope<V>>, name: string) {
    forall j | 0 <= j < |scopes| :: name !in scopes[j].vars
  }

  /** `Scope.Lookup(name)` on the innermost scope of a non-empty chain: the
      value bound by the innermost scope that defines `name`. */
  function Lookup<V>(scopes: seq<Scope<V>>, name: string): (r: Option<V>)
    requires |scopes| > 0
    ensures r.None? <==> Unbound(scopes, name)
    ensures forall j | Innermost(scopes, name, j) :: r == Some(scopes[j].vars[name])
    decreases |scopes|
  {
    var n := |scopes| - 1;
    if name in scopes[n].vars then Some(scopes[n].vars[name])
    else if n == 0 then None
    else
      var outer := scopes[..n];
      assert forall j | Innermost(scopes, name, j) :: Innermost(outer, name, j);
      assert Unbound(outer, name) ==> Unbound(scopes, name);
      Lookup(outer, name)
  }

  /** `getAllVisibleVariablesToDict`: the outer scopes are copied first, so
      an inner binding overwrites an outer one. */
  function Visible<V>(scopes: seq<Scope<V>>): (d: map<string, V>)
    ensures forall name :: name in d <==> !Unbound(scopes, name)
    decreases |scopes|
  {
    if |scopes| == 0 then map[]
    else CopyDict(scopes[|scopes| - 1].vars, Some(Visible(scopes[..|scopes| - 1])))
  }

  /** `GetAllVisibleVariables` agrees with `Lookup` on every name: the
      visible value is the innermost binding. */
  lemma {:induction false} VisibleIsLookup<V>(scopes: seq<Scope<V>>, name: string)
    requires |scopes| > 0
    ensures name in Visible(scopes) <==> Lookup(scopes, name).Some?
    ensures name in Visible(scopes) ==> Visible(scopes)[name] == Lookup(scopes, name).value
    decreases |scopes|
  {
    var inner := scopes[|scopes| - 1];
    if name !in inner.vars && |scopes| > 1 {
      VisibleIsLookup(scopes[..|scopes| - 1], name);
    }
  }

  // ---------------------------------------------------------------------------
  // Dictionary copies
  // ---------------------------------------------------------------------------

  /** `CopyDict(from, to)`: every key of `from` with `from`'s value, the other
      keys of `to` unchanged; a nil `to` starts from a fresh dictionary. */
  function CopyDict<V>(from: map<string, V>, to: Option<map<string, V>>): (r: map<string, V>)
    ensures r.Keys == from.Keys + (if to.Some? then to.value.Keys else {})
    ensures forall k | k in from :: r[k] == from[k]
    ensures to.Some? ==> forall k | k in to.value && k !in from :: r[k] == to.value[k]
  {
    var base := if to.None? then map[] else to.value;
    base + from
  }

  /** `CloneDict`: an equal copy. */
  function CloneDict<V>(d: map<string, V>): (r: map<string, V>)
    ensures r == d
  {
    CopyDict(d, None)
  }

  // ---------------------------------------------------------------------------
  // Writing back through a chain
  // ---------------------------------------------------------------------------

  /** `updateScopedVariable`: overwrites `key` in the innermost scope that
      binds it and reports true, or changes nothing and reports false. */
  function UpdateScoped<V>(scopes: seq<Scope<V>>, key: string, val: V): (r: (seq<Scope<V>>, bool))
    ensures |r.0| == |scopes|
    ensures r.1 <==> !Unbound(scopes, key)
    ensures !r.1 ==> r.0 == scopes
    ensures forall j | Innermost(scopes, key, j) ::
      r.0 == scopes[j := scopes[j].(vars := scopes[j].vars[key := val])]
    decreases |scopes|
  {
    if |scopes| == 0 then (scopes, false)
    else
      var n := |scopes| - 1;
      var inner := scopes[n];
      if key in inner.vars then (scopes[n := inner.(vars := inner.vars[key := val])], true)
      else
        var (outer, found) := UpdateScoped(scopes[..n], key, val);
        assert scopes == scopes[..n] + [inner];
        assert Unbound(scopes[..n], key) ==> Unbound(scopes, key);
        assert forall j | Innermost(scopes, key, j) :: Innermost(scopes[..n], key, j);
        assert forall j | Innermost(scopes, key, j) ::
          outer + [inner] == scopes[j := scopes[j].(vars := scopes[j].vars[key := val])] by {
          forall j | Innermost(scopes, key, j)
            ensures outer + [inner] == scopes[j := scopes[j].(vars := scopes[j].vars[key := val])]
          {
            ReplaceInPrefix(scopes, n, j, scopes[j].(vars := scopes[j].vars[key := val]));
          }
        }
        (outer + [inner], found)
  }

  /** Replacing an element of a prefix, then putting the last element back,
      replaces that element of the whole sequence. */
  lemma ReplaceInPrefix<T>(s: seq<T>, n: nat, j: nat, x: T)
    requires j < n == |s| - 1
    ensures s[..n][j := x] + [s[n]] == s[j := x]
  {
  }

  /** Where `updateAllVariablesInScope` puts a key. */
  datatype Place = InScope(index: nat) | InHeap | Declared

  function PlaceOf<V>(scopes: seq<Scope<V>>, heap: Heap<V>, key: string): (p: Place)
    ensures p.InScope? ==> Innermost(scopes, key, p.index)
    ensures p.InHeap? <==> Unbound(scopes, key) && key in heap.globals
    ensures p.Declared? <==> Unbound(scopes, key) && key !in heap.globals
  {
    if !Unbound(scopes, key) then
      var j := InnermostIndex(scopes, key);
      InScope(j)
    else if key in heap.globals then InHeap
    else Declared
  }

  function InnermostIndex<V>(scopes: seq<Scope<V>>, key: string): (j: nat)
    requires !Unbound(scopes, key)
    ensures Innermost(scopes, key, j)
    decreases |scopes|
  {
    var n := |scopes| - 1;
    if key in scopes[n].vars then n
    else
      assert !Unbound(scopes[..n], key) by {
        var i :| 0 <= i < |scopes| && key in scopes[i].vars;
        assert i < n && scopes[..n][i] == scopes[i];
      }
      InnermostIndex(scopes[..n], key)
  }

  /** Key `k` of the written-back dictionary lands in scope `j`: the
      innermost scope binding it, or the innermost scope of the chain when
      neither a scope nor the heap has it. */
  predicate Lands<V>(scopes: seq<Scope<V>>, heap: Heap<V>, k: string, j: nat) {
    var place := PlaceOf(scopes, heap, k);
    place == InScope(j) || (place.Declared? && j == |scopes| - 1)
  }

  /** The entries of `dict` that land in scope `j`. */
  function Placed<V>(scopes: seq<Scope<V>>, heap: Heap<V>, dict: map<string, V>, j: nat): map<string, V> {
    map k | k in dict && Lands(scopes, heap, k, j) :: dict[k]
  }

  /** The chain `scopes` after writing back `dict`. */
  function ExpectedScope<V>(scopes: seq<Scope<V>>, heap: Heap<V>, dict: map<string, V>, j: nat): Scope<V>
    requires j < |scopes|
  {
    scopes[j].(vars := scopes[j].vars + Placed(scopes, heap, dict, j))
  }

  /** The whole chain after writing back `dict`. */
  function WrittenBack<V>(scopes: seq<Scope<V>>, heap: Heap<V>, dict: map<string, V>): (r: seq<Scope<V>>)
    ensures |r| == |scopes|
    ensures forall j | 0 <= j < |scopes| :: r[j] == ExpectedScope(scopes, heap, dict, j)
  {
    seq(|scopes|, j requires 0 <= j < |scopes| => ExpectedScope(scopes, heap, dict, j))
  }

  /** The heap after writing back `dict`: only keys no scope binds and the
      heap already has. */
  function ExpectedHeap<V>(scopes: seq<Scope<V>>, heap: Heap<V>, dict: map<string, V>): Heap<V>
  {
    Heap(heap.globals + map k | k in dict && PlaceOf(scopes, heap, k).InHeap? :: dict[k])
  }

  /** Declares `key` in the innermost scope. */
  function Declare<V>(scopes: seq<Scope<V>>, key: string, val: V): (r: seq<Scope<V>>)
    requires |scopes| > 0
    ensures |r| == |scopes|
  {
    var n := |scopes| - 1;
    scopes[n := scopes[n].(vars := scopes[n].vars[key := val])]
  }

  /** Two chains whose scopes bind the same names place every key alike. */
  lemma PlaceOfSameKeys<V>(s1: seq<Scope<V>>, s2: seq<Scope<V>>, h1: Heap<V>, h2: Heap<V>, key: string)
    requires |s1| == |s2|
    requires forall j | 0 <= j < |s1| :: (key in s1[j].vars <==> key in s2[j].vars)
    requires key in h1.globals <==> key in h2.globals
    ensures PlaceOf(s1, h1, key) == PlaceOf(s2, h2, key)
  {
    if !Unbound(s1, key) {
      var j1 := PlaceOf(s1, h1, key).index;
      var j2 := PlaceOf(s2, h2, key).index;
      assert Innermost(s1, key, j1) && Innermost(s1, key, j2);
    }
  }

  /** One key of `updateAllVariablesInScope`: overwrite the innermost scope
      binding it, else the global of that name, else declare it in the
      innermost scope. */
  function WriteKey<V>(scopes: seq<Scope<V>>, heap: Heap<V>, k: string, v: V): (r: (seq<Scope<V>>, Heap<V>))
    requires |scopes| > 0
    ensures |r.0| == |scopes|
  {
    var (updated, found) := UpdateScoped(scopes, k, v);
    if found then (updated, heap)
    else
      var (h2, ok) := HeapUpdate(heap, k, v);
      if ok then (scopes, h2) else (Declare(scopes, k, v), heap)
  }

  /** `updateAllVariablesInScope` on a chain and a heap, visiting the keys of
      `dict` in an arbitrary order as a Go map range does. */
  method UpdateAll<V>(scopes: seq<Scope<V>>, heap: Heap<V>, dict: map<string, V>)
    returns (scopes': seq<Scope<V>>, heap': Heap<V>)
    requires |scopes| > 0
    ensures |scopes'| == |scopes|
    ensures forall j | 0 <= j < |scopes| :: scopes'[j] == ExpectedScope(scopes, heap, dict, j)
    ensures heap' == ExpectedHeap(scopes, heap, dict)
  {
    scopes' := scopes;
    heap' := heap;
    var todo := dict.Keys;
    while todo != {}
      invariant todo <= dict.Keys
      invariant |scopes'| == |scopes|
      invariant forall j | 0 <= j < |scopes| ::
        scopes'[j] == ExpectedScope(scopes, heap, map k | k in dict && k !in todo :: dict[k], j)
      invariant heap' == ExpectedHeap(scopes, heap, map k | k in dict && k !in todo :: dict[k])
      decreases todo
    {
      var k :| k in todo;
      ghost var done := map k' | k' in dict && k' !in todo :: dict[k'];
      assert (map k' | k' in dict && k' !in todo - {k} :: dict[k']) == done[k := dict[k]];
      WriteKeyStep(scopes, heap, done, k, dict[k], scopes', heap');
      scopes', heap' := WriteKey(scopes', heap', k, dict[k]).0, WriteKey(scopes', heap', k, dict[k]).1;
      todo := todo - {k};
    }
    assert (map k | k in dict && k !in todo :: dict[k]) == dict;
  }

  /** Writing one more key keeps the chain and heap equal to the expected
      write-back of the keys done so far. */
  lemma WriteKeyStep<V>(scopes: seq<Scope<V>>, heap: Heap<V>, done: map<string, V>, k: string, v: V,
                        cur: seq<Scope<V>>, curHeap: Heap<V>)
    requires |scopes| > 0 && k !in done
    requires |cur| == |scopes|
    requires forall j | 0 <= j < |scopes| :: cur[j] == ExpectedScope(scopes, heap, done, j)
    requires curHeap == ExpectedHeap(scopes, heap, done)
    ensures forall j | 0 <= j < |scopes| ::
      WriteKey(cur, curHeap, k, v).0[j] == ExpectedScope(scopes, heap, done[k := v], j)
    ensures WriteKey(cur, curHeap, k, v).1 == ExpectedHeap(scopes, heap, done[k := v])
  {
    forall j | 0 <= j < |scopes|
      ensures (k in cur[j].vars <==> k in scopes[j].vars)
    {
      assert cur[j] == ExpectedScope(scopes, heap, done, j);
    }
    assert k in curHeap.globals <==> k in heap.globals;
    PlaceOfSameKeys(cur, scopes, curHeap, heap, k);
    forall j | 0 <= j < |scopes|
      ensures WriteKey(cur, curHeap, k, v).0[j] == ExpectedScope(scopes, heap, done[k := v], j)
    {
      ExpectedScopeStep(scopes, heap, done, k, v, j);
    }
    ExpectedHeapStep(scopes, heap, done, k, v);
  }

  lemma PlacedStep<V>(scopes: seq<Scope<V>>, heap: Heap<V>, done: map<string, V>, k: string, v: V, j: nat)
    requires k !in done
    ensures Placed(scopes, heap, done[k := v], j) ==
      if Lands(scopes, heap, k, j) then Placed(scopes, heap, done, j)[k := v]
      else Placed(scopes, heap, done, j)
  {
    var p1 := Placed(scopes, heap, done, j);
    var p2 := Placed(scopes, heap, done[k := v], j);
    if Lands(scopes, heap, k, j) {
      assert p2.Keys == p1.Keys + {k};
    } else {
      assert p2.Keys == p1.Keys;
    }
  }

  lemma ExpectedScopeStep<V>(scopes: seq<Scope<V>>, heap: Heap<V>, done: map<string, V>, k: string, v: V, j: nat)
    requires j < |scopes| && k !in done
    ensures var before := ExpectedScope(scopes, heap, done, j);
      ExpectedScope(scopes, heap, done[k := v], j) ==
        if Lands(scopes, heap, k, j) then before.(vars := before.vars[k := v]) else before
  {
    PlacedStep(scopes, heap, done, k, v, j);
  }

  lemma ExpectedHeapStep<V>(scopes: seq<Scope<V>>, heap: Heap<V>, done: map<string, V>, k: string, v: V)
    requires k !in done
    ensures var before := ExpectedHeap(scopes, heap, done);
      ExpectedHeap(scopes, heap, done[k := v]) ==
        if PlaceOf(scopes, heap, k).InHeap? then Heap(before.globals[k := v]) else before
  {
  }

  /** The variables a statement sees: the heap overridden by the chain. */
  function Snapshot<V>(scopes: seq<Scope<V>>, heap: Heap<V>): map<string, V> {
    CopyDict(Visible(scopes), Some(CloneDict(heap.globals)))
  }

  /** Writing back an unmodified snapshot changes neither the chain nor the
      heap: no key is declared anew and every value goes back where it came
      from. */
  lemma WriteBackUnchanged<V>(scopes: seq<Scope<V>>, heap: Heap<V>)
    requires |scopes| > 0
    ensures WrittenBack(scopes, heap, Snapshot(scopes, heap)) == scopes
    ensures ExpectedHeap(scopes, heap, Snapshot(scopes, heap)) == heap
  {
    var r := WrittenBack(scopes, heap, Snapshot(scopes, heap));
    forall j | 0 <= j < |scopes| ensures r[j] == scopes[j] {
      SnapshotPlacedInScope(scopes, heap, j);
    }
    SnapshotPlacedInHeap(scopes, heap);
  }

  lemma SnapshotPlacedInScope<V>(scopes: seq<Scope<V>>, heap: Heap<V>, j: nat)
    requires 0 <= j < |scopes|
    ensures ExpectedScope(scopes, heap, Snapshot(scopes, heap), j) == scopes[j]
  {
    var d := Snapshot(scopes, heap);
    var placed := Placed(scopes, heap, d, j);
    forall k | k in placed ensures k in scopes[j].vars && placed[k] == scopes[j].vars[k] {
      if PlaceOf(scopes, heap, k).Declared? {
        SnapshotKey(scopes, heap, k);
        assert false;
      }
      ReadFromScope(scopes, heap, k, j);
    }
    OverrideAgreeing(scopes[j].vars, placed);
  }

  lemma SnapshotPlacedInHeap<V>(scopes: seq<Scope<V>>, heap: Heap<V>)
    requires |scopes| > 0
    ensures ExpectedHeap(scopes, heap, Snapshot(scopes, heap)) == heap
  {
    var d := Snapshot(scopes, heap);
    var added := map k | k in d && PlaceOf(scopes, heap, k).InHeap? :: d[k];
    forall k | k in added ensures k in heap.globals && added[k] == heap.globals[k] {
      ReadFromHeap(scopes, heap, k);
    }
    OverrideAgreeing(heap.globals, added);
  }

  /** The snapshot holds exactly the names the chain binds or the heap has. */
  lemma SnapshotKey<V>(scopes: seq<Scope<V>>, heap: Heap<V>, k: string)
    ensures k in Snapshot(scopes, heap) <==> !Unbound(scopes, k) || k in heap.globals
  {
  }

  /** Overriding a map with entries it already has changes nothing. */
  lemma OverrideAgreeing<K, W>(m: map<K, W>, p: map<K, W>)
    requires forall k | k in p :: k in m && p[k] == m[k]
    ensures m + p == m
  {
  }

  /** After writing back `dict`, every key of it reads back with its new
      value through the heap and the chain. */
  lemma ReadAfterWrite<V>(scopes: seq<Scope<V>>, heap: Heap<V>, dict: map<string, V>, k: string)
    requires |scopes| > 0 && k in dict
    ensures var d := Snapshot(WrittenBack(scopes, heap, dict), ExpectedHeap(scopes, heap, dict));
      k in d && d[k] == dict[k]
  {
    var s' := WrittenBack(scopes, heap, dict);
    var h' := ExpectedHeap(scopes, heap, dict);
    forall j | 0 <= j < |scopes|
      ensures k in s'[j].vars <==> (k in scopes[j].vars || Lands(scopes, heap, k, j))
      ensures Lands(scopes, heap, k, j) ==> s'[j].vars[k] == dict[k]
    {
      WrittenBackBinds(scopes, heap, dict, k, j);
    }
    match PlaceOf(scopes, heap, k)
    case InScope(j) =>
      assert Innermost(s', k, j);
      ReadFromScope(s', h', k, j);
    case Declared =>
      assert Innermost(s', k, |scopes| - 1);
      ReadFromScope(s', h', k, |scopes| - 1);
    case InHeap =>
      assert Unbound(s', k);
      ReadFromHeap(s', h', k);
  }

  /** Scope `j` of the written-back chain binds `k` when the scope did or
      `k` lands there, with `dict`'s value in the latter case. */
  lemma WrittenBackBinds<V>(scopes: seq<Scope<V>>, heap: Heap<V>, dict: map<string, V>, k: string, j: nat)
    requires j < |scopes| && k in dict
    ensures var s' := WrittenBack(scopes, heap, dict);
      && (k in s'[j].vars <==> (k in scopes[j].vars || Lands(scopes, heap, k, j)))
      && (Lands(scopes, heap, k, j) ==> s'[j].vars[k] == dict[k])
  {
    assert k in Placed(scopes, heap, dict, j) <==> Lands(scopes, heap, k, j);
  }

  /** A name bound by the chain reads back its innermost binding. */
  lemma ReadFromScope<V>(scopes: seq<Scope<V>>, heap: Heap<V>, k: string, j: nat)
    requires Innermost(scopes, k, j)
    ensures k in Snapshot(scopes, heap) && Snapshot(scopes, heap)[k] == scopes[j].vars[k]
  {
    VisibleIsLookup(scopes, k);
  }

  /** A name the chain does not bind reads back from the heap. */
  lemma ReadFromHeap<V>(scopes: seq<Scope<V>>, heap: Heap<V>, k: string)
    requires Unbound(scopes, k) && k in heap.globals
    ensures k in Snapshot(scopes, heap) && Snapshot(scopes, heap)[k] == heap.globals[k]
  {
  }

  // ---------------------------------------------------------------------------
  // Skip lists
  // ---------------------------------------------------------------------------

  /** `ContainsInt`: linear membership test. */
  method ContainsInt(skip: seq<int>, i: int) returns (found: bool)
    ensures found <==> i in skip
  {
    found := false;
    var n := 0;
    while n < |skip|
      invariant 0 <= n <= |skip|
      invariant !found ==> i !in skip[..n]
      invariant found ==> i in skip
    {
      if skip[n] == i {
        found := true;
        return;
      }
      n := n + 1;
    }
    assert skip[..n] == skip;
  }

  predicate IntLe(a: int, b: int) {
    a <= b
  }

  lemma IntLeOrder()
    ensures Preorder(IntLe) && Antisymmetric(IntLe)
  {
  }

  /** `sortedCopy`: an ascending permutation of the skip list; the input, a
      value, is untouched. */
  function SortedCopy(s: seq<int>): (r: seq<int>)
    ensures multiset(r) == multiset(s)
    ensures forall i, j | 0 <= i < j < |r| :: r[i] <= r[j]
  {
    IntLeOrder();
    Sort(s, IntLe)
  }
}

=== FILE: search.dfy ===
/** The breadth-first exploration of `modelchecker/processor.go`: graph
  nodes with their action and fork depths, the three ways a node gains a
  successor (`Merge`, `ForkForAction`, `ForkForAlternatePaths`), and the
  rules that decide which successors are queued and which nodes are
  expanded under `MaxActions`.

  Nodes live in a sequence and edges are indexes into it. Running a
  thread (`Thread.Execute`) needs the Starlark interpreter and is not
  modelled: its outcome, the forks and the yield flag, is an input here.
 */
module Search {
  import opened Wrappers
  import opened Scopes
  import opened Processes
  import opened ProtoPath
  import opened Text

  /** `Node`: a process (none for a merge node) and the number of actions
      started and of forks taken on the way from the root. */
  datatype Node<V> = Node(process: Option<Process<V>>, actionDepth: int, forkDepth: int)

  datatype Graph<V> = Graph(nodes: seq<Node<V>>, outbound: seq<seq<nat>>, inbound: seq<seq<nat>>)

  /** Every action is also a fork, so the fork depth bounds the action depth. */
  predicate DepthsOk<V>(n: Node<V>) {
    0 <= n.actionDepth <= n.forkDepth
  }

  /** Edges point at nodes, each edge is recorded at both ends, and every
      node's depths are consistent. */
  ghost predicate WellFormed<V>(g: Graph<V>) {
    && |g.outbound| == |g.nodes| && |g.inbound| == |g.nodes|
    && (forall i, k | 0 <= i < |g.nodes| && 0 <= k < |g.outbound[i]| :: g.outbound[i][k] < |g.nodes|)
    && (forall i, k | 0 <= i < |g.nodes| && 0 <= k < |g.inbound[i]| :: g.inbound[i][k] < |g.nodes|)
    && (forall i, j | 0 <= i < |g.nodes| && 0 <= j < |g.nodes| :: j in g.outbound[i] <==> i in g.inbound[j])
    && (forall i | 0 <= i < |g.nodes| :: DepthsOk(g.nodes[i]))
  }

  /** `NewNode(process)`: a root at depth zero with no edges. */
  function NewNode<V>(g: Graph<V>, p: Process<V>): (r: (Graph<V>, nat))
    requires WellFormed(g)
    ensures WellFormed(r.0) && r.1 == |g.nodes|
    ensures r.0.nodes == g.nodes + [Node(Some(p), 0, 0)]
  {
    (Graph(g.nodes + [Node(Some(p), 0, 0)], g.outbound + [[]], g.inbound + [[]]), |g.nodes|)
  }

  /** Adds `target` to the edge list of node `at`. */
  function AddEdge(lists: seq<seq<nat>>, at: nat, target: nat): (r: seq<seq<nat>>)
    requires at < |lists|
    ensures |r| == |lists|
    ensures forall i, j | 0 <= i < |lists| :: j in r[i] <==> j in lists[i] || (i == at && j == target)
  {
    lists[at := lists[at] + [target]]
  }

  /** Appends `node` with an edge from `src` and, when `dst` is given, an
      edge on to `dst`. */
  function Attach<V>(g: Graph<V>, node: Node<V>, src: nat, dst: Option<nat>): (r: (Graph<V>, nat))
    requires WellFormed(g) && src < |g.nodes| && (dst.Some? ==> dst.value < |g.nodes|)
    requires DepthsOk(node)
    ensures r.1 == |g.nodes| && r.0.nodes == g.nodes + [node]
    ensures WellFormed(r.0)
    ensures r.1 in r.0.outbound[src] && src in r.0.inbound[r.1]
    ensures dst.Some? ==> dst.value in r.0.outbound[r.1] && r.1 in r.0.inbound[dst.value]
    ensures forall i, j | 0 <= i < |g.nodes| && 0 <= j < |g.nodes| :: j in r.0.outbound[i] <==> j in g.outbound[i]
  {
    var m := |g.nodes|;
    var out := AddEdge(g.outbound, src, m) + [if dst.Some? then [dst.value] else []];
    var inb := (if dst.Some? then AddEdge(g.inbound, dst.value, m) else g.inbound) + [[src]];
    var r := Graph(g.nodes + [node], out, inb);
    AttachInRange(g, r, src, dst);
    AttachSymmetric(g, r, src, dst);
    (r, m)
  }

  lemma AttachInRange<V>(g: Graph<V>, r: Graph<V>, src: nat, dst: Option<nat>)
    requires WellFormed(g) && src < |g.nodes| && (dst.Some? ==> dst.value < |g.nodes|)
    requires |r.nodes| == |g.nodes| + 1 && |r.outbound| == |r.nodes| && |r.inbound| == |r.nodes|
    requires forall i, j | 0 <= i < |g.nodes| :: j in r.outbound[i] <==> j in g.outbound[i] || (i == src && j == |g.nodes|)
    requires forall i, j | 0 <= i < |g.nodes| :: j in r.inbound[i] <==> j in g.inbound[i] || (dst == Some(i) && j == |g.nodes|)
    requires r.outbound[|g.nodes|] == if dst.Some? then [dst.value] else []
    requires r.inbound[|g.nodes|] == [src]
    ensures forall i, k | 0 <= i < |r.nodes| && 0 <= k < |r.outbound[i]| :: r.outbound[i][k] < |r.nodes|
    ensures forall i, k | 0 <= i < |r.nodes| && 0 <= k < |r.inbound[i]| :: r.inbound[i][k] < |r.nodes|
  {
    forall i, k | 0 <= i < |r.nodes| && 0 <= k < |r.outbound[i]| ensures r.outbound[i][k] < |r.nodes| {
      var j := r.outbound[i][k];
      if i < |g.nodes| && j != |g.nodes| {
        assert j in r.outbound[i];
        var k' :| 0 <= k' < |g.outbound[i]| && g.outbound[i][k'] == j;
      }
    }
    forall i, k | 0 <= i < |r.nodes| && 0 <= k < |r.inbound[i]| ensures r.inbound[i][k] < |r.nodes| {
      var j := r.inbound[i][k];
      if i < |g.nodes| && j != |g.nodes| {
        assert j in r.inbound[i];
        var k' :| 0 <= k' < |g.inbound[i]| && g.inbound[i][k'] == j;
      }
    }
  }

  lemma AttachSymmetric<V>(g: Graph<V>, r: Graph<V>, src: nat, dst: Option<nat>)
    requires WellFormed(g) && src < |g.nodes| && (dst.Some? ==> dst.value < |g.nodes|)
    requires |r.nodes| == |g.nodes| + 1 && |r.outbound| == |r.nodes| && |r.inbound| == |r.nodes|
    requires forall i, j | 0 <= i < |g.nodes| :: j in r.outbound[i] <==> j in g.outbound[i] || (i == src && j == |g.nodes|)
    requires forall i, j | 0 <= i < |g.nodes| :: j in r.inbound[i] <==> j in g.inbound[i] || (dst == Some(i) && j == |g.nodes|)
    requires r.outbound[|g.nodes|] == if dst.Some? then [dst.value] else []
    requires r.inbound[|g.nodes|] == [src]
    ensures forall i, j | 0 <= i < |r.nodes| && 0 <= j < |r.nodes| :: j in r.outbound[i] <==> i in r.inbound[j]
  {
  }

  /** `Node.Merge(other)`: a process-less node with `n`'s depths, linked
      from `n` and on to `other`. */
  function Merge<V>(g: Graph<V>, n: nat, other: nat): (r: (Graph<V>, nat))
    requires WellFormed(g) && n < |g.nodes| && other < |g.nodes|
    ensures WellFormed(r.0) && r.1 == |g.nodes|
    ensures r.0.nodes == g.nodes + [Node(None, g.nodes[n].actionDepth, g.nodes[n].forkDepth)]
    ensures r.1 in r.0.outbound[n] && other in r.0.outbound[r.1]
  {
    Attach(g, Node(None, g.nodes[n].actionDepth, g.nodes[n].forkDepth), n, Some(other))
  }

  /** `ForkForAction(action)`: a fork of `n`'s process renamed after the
      action, one action and one fork deeper. */
  function ForkForAction<V>(g: Graph<V>, n: nat, actionName: string): (r: (Graph<V>, nat))
    requires WellFormed(g) && n < |g.nodes| && g.nodes[n].process.Some?
    ensures |r.0.nodes| == |g.nodes| + 1
    ensures WellFormed(r.0) && r.1 == |g.nodes| && r.1 in r.0.outbound[n]
    ensures var parent := g.nodes[n];
      r.0.nodes == g.nodes + [Node(Some(Fork(parent.process.value).(name := actionName)),
                                   parent.actionDepth + 1, parent.forkDepth + 1)]
  {
    var parent := g.nodes[n];
    var node := Node(Some(Fork(parent.process.value).(name := actionName)), parent.actionDepth + 1, parent.forkDepth + 1);
    Attach(g, node, n, None)
  }

  /** `ForkForAlternatePaths(process)`: a successor holding `p`, at the same
      action depth and one fork deeper. */
  function ForkForAlternatePaths<V>(g: Graph<V>, n: nat, p: Process<V>): (r: (Graph<V>, nat))
    requires WellFormed(g) && n < |g.nodes|
    ensures r.0.nodes == g.nodes + [Node(Some(p), g.nodes[n].actionDepth, g.nodes[n].forkDepth + 1)]
    ensures WellFormed(r.0) && r.1 == |g.nodes| && r.1 in r.0.outbound[n]
  {
    Attach(g, Node(Some(p), g.nodes[n].actionDepth, g.nodes[n].forkDepth + 1), n, None)
  }

  // ---------------------------------------------------------------------------
  // Scheduling
  // ---------------------------------------------------------------------------

  /** The process of a new action: a fork named after the action with one
      more thread, at `Actions[i]`. */
  function StartAction<V>(p: Process<V>, actionName: string, i: int): (r: Process<V>)
    ensures |r.threads| == |p.threads| + 1 && r.name == actionName
    ensures r.heap.globals == p.heap.globals && r.parent == Some(p)
    ensures r.threads[..|p.threads|] == p.threads
    ensures HasFrame(r.threads[|p.threads|])
    ensures CurrentFrame(r.threads[|p.threads|]) == Frame(0, Indexed("Actions", i), [])
  {
    var q := AddThread(Fork(p).(name := actionName));
    var last := |q.threads| - 1;
    var t := q.threads[last];
    q.(threads := q.threads[last := SetCurrentFrame(t, CurrentFrame(t).(pc := Indexed("Actions", i)))])
  }

  /** The queue entry for the `i`-th action when `node` yields. The new
      thread becomes current. */
  function ActionSuccessor<V>(node: Node<V>, actions: seq<string>, i: nat): (r: Node<V>)
    requires node.process.Some? && i < |actions|
    ensures r.actionDepth == node.actionDepth + 1 && r.forkDepth == node.forkDepth + 1
    ensures r.process.Some? && Runnable(r.process.value)
    ensures Pc(r.process.value) == Indexed("Actions", i)
    ensures r.process.value.current == |node.process.value.threads|
    ensures r.process.value.name == actions[i]
  {
    var p := StartAction(node.process.value, actions[i], i);
    Node(Some(p.(current := |p.threads| - 1)), node.actionDepth + 1, node.forkDepth + 1)
  }

  /** The indexes below `i` of the threads of `q` that have not finished,
      ascending. */
  function Unfinished<V>(q: Process<V>, i: nat): (idx: seq<int>)
    requires AllFramed(q) && i <= |q.threads|
    ensures forall t :: t in idx <==> 0 <= t < i && CurrentFrame(q.threads[t]).pc != ""
    ensures forall k | 0 <= k < |idx| :: 0 <= idx[k] < i
    ensures forall a, b | 0 <= a < b < |idx| :: idx[a] < idx[b]
  {
    if i == 0 then []
    else
      Unfinished(q, i - 1) + if CurrentFrame(q.threads[i - 1]).pc != "" then [i - 1] else []
  }

  /** The queue entry that runs thread `t` of `q`: a fork of `q` with `t`
      current, at the node's action depth and one fork deeper. */
  function ThreadFork<V>(node: Node<V>, q: Process<V>, t: int): (r: Node<V>)
    requires AllFramed(q) && 0 <= t < |q.threads|
    ensures r.actionDepth == node.actionDepth && r.forkDepth == node.forkDepth + 1
    ensures r.process.Some? && Runnable(r.process.value) && r.process.value.parent == Some(q)
    ensures Pc(r.process.value) == CurrentFrame(q.threads[t]).pc
  {
    Node(Some(Fork(q).(current := t)), node.actionDepth, node.forkDepth + 1)
  }

  /** `r` runs, in order, the unfinished threads of `q` below `i`. */
  ghost predicate RunsUnfinished<V>(node: Node<V>, q: Process<V>, i: nat, r: seq<Node<V>>)
    requires AllFramed(q) && i <= |q.threads|
  {
    var idx := Unfinished(q, i);
    |r| == |idx| && forall k | 0 <= k < |r| :: r[k] == ThreadFork(node, q, idx[k])
  }

  /** One more thread: its entry is appended exactly when it has not
      finished. */
  lemma RunsUnfinishedStep<V>(node: Node<V>, q: Process<V>, i: nat, rest: seq<Node<V>>)
    requires AllFramed(q) && 0 < i <= |q.threads| && RunsUnfinished(node, q, i - 1, rest)
    ensures CurrentFrame(q.threads[i - 1]).pc == "" ==> RunsUnfinished(node, q, i, rest)
    ensures CurrentFrame(q.threads[i - 1]).pc != "" ==>
      RunsUnfinished(node, q, i, rest + [ThreadFork(node, q, i - 1)])
  {
  }

  /** Each such entry runs an unfinished thread of a fork of `q`. */
  lemma RunsUnfinishedEntries<V>(node: Node<V>, q: Process<V>, i: nat, r: seq<Node<V>>)
    requires AllFramed(q) && i <= |q.threads| && RunsUnfinished(node, q, i, r)
    ensures forall k | 0 <= k < |r| ::
      && r[k].actionDepth == node.actionDepth && r[k].forkDepth == node.forkDepth + 1
      && r[k].process.Some? && Runnable(r[k].process.value) && Pc(r[k].process.value) != ""
      && r[k].process.value.parent == Some(q)
  {
    var idx := Unfinished(q, i);
    forall k | 0 <= k < |r|
      ensures r[k].process.Some? && Runnable(r[k].process.value) && Pc(r[k].process.value) != ""
    {
      assert idx[k] in idx;
    }
  }

  /** The queue entries for the threads of `q` that have not finished: a
      fork of `q` in which that thread is current, one per unfinished
      thread, in thread order. */
  function ThreadSuccessors<V>(node: Node<V>, q: Process<V>, i: nat): (r: seq<Node<V>>)
    requires AllFramed(q) && i <= |q.threads|
    ensures forall k | 0 <= k < |r| ::
      && r[k].actionDepth == node.actionDepth && r[k].forkDepth == node.forkDepth + 1
      && r[k].process.Some? && Runnable(r[k].process.value) && Pc(r[k].process.value) != ""
      && r[k].process.value.parent == Some(q)
    ensures RunsUnfinished(node, q, i, r) && |r| <= i
    decreases i
  {
    var r := if i == 0 then [] else (
      var rest := ThreadSuccessors(node, q, i - 1);
      RunsUnfinishedStep(node, q, i, rest);
      if CurrentFrame(q.threads[i - 1]).pc == "" then rest
      else rest + [ThreadFork(node, q, i - 1)]);
    RunsUnfinishedEntries(node, q, i, r);
    r
  }

  /** `YieldNode` (with `q` the node's own process) and `YieldFork` (with `q`
      a fork): one entry per unfinished thread of `q`, then, only while the
      node's action depth is below `maxActions`, one entry per action. */
  function YieldSuccessors<V>(node: Node<V>, q: Process<V>, actions: seq<string>, maxActions: int): (r: seq<Node<V>>)
    requires node.process.Some? && AllFramed(q)
    ensures DepthsOk(node) ==> forall k | 0 <= k < |r| :: DepthsOk(r[k])
    ensures node.actionDepth <= maxActions ==> forall k | 0 <= k < |r| :: r[k].actionDepth <= maxActions
    ensures forall k | 0 <= k < |r| :: r[k].forkDepth == node.forkDepth + 1
    ensures node.actionDepth >= maxActions ==> forall k | 0 <= k < |r| :: r[k].actionDepth == node.actionDepth
  {
    var threads := ThreadSuccessors(node, q, |q.threads|);
    if node.actionDepth >= maxActions then threads
    else threads + seq(|actions|, i requires 0 <= i < |actions| => ActionSuccessor(node, actions, i))
  }

  /** How `processNode` schedules after the current thread ran and
      produced `forks` and the yield flag `yielded`: nothing for a state already visited,
      alternate-path forks when it did not yield, and otherwise the yield
      successors of each fork, or of the node itself when it did not fork. */
  function Schedule<V>(node: Node<V>, forks: seq<Process<V>>, yielded: bool, visited: bool,
                       actions: seq<string>, maxActions: int): (r: seq<Node<V>>)
    requires node.process.Some? && AllFramed(node.process.value)
    requires forall k | 0 <= k < |forks| :: AllFramed(forks[k])
    ensures visited ==> r == []
    ensures DepthsOk(node) ==> forall k | 0 <= k < |r| :: DepthsOk(r[k])
    ensures node.actionDepth <= maxActions ==> forall k | 0 <= k < |r| :: r[k].actionDepth <= maxActions
    ensures forall k | 0 <= k < |r| :: r[k].forkDepth == node.forkDepth + 1
  {
    if visited then []
    else if !yielded then
      seq(|forks|, k requires 0 <= k < |forks| => Node(Some(forks[k]), node.actionDepth, node.forkDepth + 1))
    else if |forks| > 0 then YieldForks(node, forks, actions, maxActions)
    else YieldSuccessors(node, node.process.value, actions, maxActions)
  }

  /** `YieldFork` for every fork, in order. */
  function YieldForks<V>(node: Node<V>, forks: seq<Process<V>>, actions: seq<string>, maxActions: int): (r: seq<Node<V>>)
    requires node.process.Some?
    requires forall k | 0 <= k < |forks| :: AllFramed(forks[k])
    ensures DepthsOk(node) ==> forall k | 0 <= k < |r| :: DepthsOk(r[k])
    ensures node.actionDepth <= maxActions ==> forall k | 0 <= k < |r| :: r[k].actionDepth <= maxActions
    ensures forall k | 0 <= k < |r| :: r[k].forkDepth == node.forkDepth + 1
    decreases |forks|
  {
    if |forks| == 0 then []
    else
      var first := YieldSuccessors(node, forks[0], actions, maxActions);
      var rest := YieldForks(node, forks[1..], actions, maxActions);
      SuccessorsFollow(node, forks[0], actions, maxActions);
      FollowsConcat(node, maxActions, first, rest);
      first + rest
  }

  /** The depth facts every queued successor of `node` satisfies. */
  predicate Follows<V>(node: Node<V>, maxActions: int, x: Node<V>) {
    && (DepthsOk(node) ==> DepthsOk(x))
    && (node.actionDepth <= maxActions ==> x.actionDepth <= maxActions)
    && x.forkDepth == node.forkDepth + 1
  }

  /** Every yield successor follows its node. */
  lemma SuccessorsFollow<V>(node: Node<V>, q: Process<V>, actions: seq<string>, maxActions: int)
    requires node.process.Some? && AllFramed(q)
    ensures var r := YieldSuccessors(node, q, actions, maxActions);
      forall k | 0 <= k < |r| :: Follows(node, maxActions, r[k])
  {
  }

  lemma FollowsConcat<V>(node: Node<V>, maxActions: int, a: seq<Node<V>>, b: seq<Node<V>>)
    requires forall k | 0 <= k < |a| :: Follows(node, maxActions, a[k])
    requires forall k | 0 <= k < |b| :: Follows(node, maxActions, b[k])
    ensures forall k | 0 <= k < |a + b| :: Follows(node, maxActions, (a + b)[k])
  {
  }

  /** The init node (at the empty program counter) drops its only thread
      and forks one process per action. No depth check applies here. */
  function InitSuccessors<V>(node: Node<V>, actions: seq<string>): (r: seq<Node<V>>)
    requires node.process.Some? && 0 <= node.process.value.current < |node.process.value.threads|
    ensures |r| == |actions|
    ensures forall i | 0 <= i < |r| ::
      && r[i].actionDepth == node.actionDepth + 1 && r[i].forkDepth == node.forkDepth + 1
      && r[i].process.Some? && r[i].process.value.name == actions[i]
      && |r[i].process.value.threads| == |node.process.value.threads|
  {
    var p := RemoveCurrentThread(node.process.value);
    seq(|actions|, i requires 0 <= i < |actions| =>
      Node(Some(StartAction(p, actions[i], i)), node.actionDepth + 1, node.forkDepth + 1))
  }

  /** The program counter of a new action names that action of the file. */
  lemma ActionPcResolves(file: map<string, Value>, i: int)
    requires IsInt64(i)
    ensures GetFieldByPath(file, Indexed("Actions", i)) ==
      if "Actions" in file && file["Actions"].List? && 0 <= i < |file["Actions"].items|
      then Found(file["Actions"].items[i])
      else Missing
  {
    IndexedParts("Actions", i);
  }

  /** The `Start` loop, `fuel` iterations of it: nodes deeper than
      `maxActions` are taken off the queue and dropped; every other node is
      expanded and its successors queued. Returns the expanded nodes. */
  function Explore<V>(queue: seq<Node<V>>, expand: Node<V> -> seq<Node<V>>, maxActions: int, fuel: nat)
    : (expanded: seq<Node<V>>)
    ensures forall k | 0 <= k < |expanded| :: expanded[k].actionDepth <= maxActions
    decreases fuel
  {
    if fuel == 0 || |queue| == 0 then []
    else
      var node := queue[0];
      if node.actionDepth > maxActions then
        Explore(queue[1..], expand, maxActions, fuel - 1)
      else
        [node] + Explore(queue[1..] + expand(node), expand, maxActions, fuel - 1)
  }
}

=== FILE: sorting.dfy ===
/** Sorting by a total order, the common part of Go's `sort.Ints` (used by
  `sortedCopy`) and `sort.Strings` (used by `Process.HashCode`). The model
  sorts by insertion; any correct sort yields the same sequence, which is
  what `SortedUnique` proves.
 */
module Sorting {

  ghost predicate Total<T(!new)>(le: (T, T) -> bool) {
    forall a, b :: le(a, b) || le(b, a)
  }

  ghost predicate Transitive<T(!new)>(le: (T, T) -> bool) {
    forall a, b, c :: le(a, b) && le(b, c) ==> le(a, c)
  }

  ghost predicate Antisymmetric<T(!new)>(le: (T, T) -> bool) {
    forall a, b :: le(a, b) && le(b, a) ==> a == b
  }

  /** A total preorder: enough to sort. */
  ghost predicate Preorder<T(!new)>(le: (T, T) -> bool) {
    Total(le) && Transitive(le)
  }

  predicate SortedBy<T>(s: seq<T>, le: (T, T) -> bool) {
    forall i, j :: 0 <= i < j < |s| ==> le(s[i], s[j])
  }

  /** Inserts `x` into the sorted sequence `s` before the first element it is
      not above. */
  function Insert<T(!new)>(x: T, s: seq<T>, le: (T, T) -> bool): (r: seq<T>)
    requires Preorder(le)
    requires SortedBy(s, le)
    ensures multiset(r) == multiset(s) + multiset{x}
    ensures SortedBy(r, le)
    ensures |r| == |s| + 1
  {
    if |s| == 0 then [x]
    else if le(x, s[0]) then [x] + s
    else
      var rest := Insert(x, s[1..], le);
      assert s == [s[0]] + s[1..];
      assert forall k :: 0 <= k < |rest| ==> le(s[0], rest[k]) by {
        forall k | 0 <= k < |rest|
          ensures le(s[0], rest[k])
        {
          assert rest[k] in multiset(rest);
          assert rest[k] == x || rest[k] in multiset(s[1..]);
          if rest[k] != x {
            var m :| 0 <= m < |s[1..]| && s[1..][m] == rest[k];
            assert s[m + 1] == rest[k];
          }
        }
      }
      [s[0]] + rest
  }

  /** Insertion sort: a sorted permutation of `s`. */
  function Sort<T(!new)>(s: seq<T>, le: (T, T) -> bool): (r: seq<T>)
    requires Preorder(le)
    ensures multiset(r) == multiset(s)
    ensures SortedBy(r, le)
    ensures |r| == |s|
  {
    if |s| == 0 then []
    else
      assert s == s[..|s| - 1] + [s[|s| - 1]];
      Insert(s[|s| - 1], Sort(s[..|s| - 1], le), le)
  }

  /** Under a total order, a multiset has exactly one sorted arrangement. */
  lemma {:induction false} SortedUnique<T(!new)>(a: seq<T>, b: seq<T>, le: (T, T) -> bool)
    requires Antisymmetric(le)
    requires SortedBy(a, le) && SortedBy(b, le)
    requires multiset(a) == multiset(b)
    ensures a == b
    decreases |a|
  {
    if |a| > 0 {
      SortedHeadsEqual(a, b, le);
      MultisetTail(a);
      MultisetTail(b);
      SortedTail(a, le);
      SortedTail(b, le);
      SortedUnique(a[1..], b[1..], le);
      ConsEqual(a, b);
    }
  }

  lemma ConsEqual<T>(a: seq<T>, b: seq<T>)
    requires |a| > 0 && |b| > 0 && a[0] == b[0] && a[1..] == b[1..]
    ensures a == b
  {
    assert a == [a[0]] + a[1..];
    assert b == [b[0]] + b[1..];
  }

  /** Two sorted arrangements of one multiset start with the same element. */
  lemma SortedHeadsEqual<T(!new)>(a: seq<T>, b: seq<T>, le: (T, T) -> bool)
    requires Antisymmetric(le)
    requires SortedBy(a, le) && SortedBy(b, le)
    requires multiset(a) == multiset(b) && |a| > 0
    ensures |b| > 0 && a[0] == b[0]
  {
    assert a[0] in multiset(b);
    var j :| 0 <= j < |b| && b[j] == a[0];
    assert b[0] in multiset(a);
    var i :| 0 <= i < |a| && a[i] == b[0];
    if i != 0 && j != 0 {
      assert le(a[0], a[i]);
      assert le(b[0], b[j]);
    }
  }

  lemma MultisetTail<T>(s: seq<T>)
    requires |s| > 0
    ensures multiset(s[1..]) == multiset(s) - multiset{s[0]}
  {
    assert s == [s[0]] + s[1..];
  }

  lemma SortedTail<T>(s: seq<T>, le: (T, T) -> bool)
    requires |s| > 0 && SortedBy(s, le)
    ensures SortedBy(s[1..], le)
  {
    forall i, j | 0 <= i < j < |s[1..]|
      ensures le(s[1..][i], s[1..][j])
    {
      assert s[1..][i] == s[i + 1] && s[1..][j] == s[j + 1];
    }
  }

  /** Sorting depends only on the multiset of the input. */
  lemma SortPermutationInvariant<T(!new)>(a: seq<T>, b: seq<T>, le: (T, T) -> bool)
    requires Preorder(le) && Antisymmetric(le)
    requires multiset(a) == multiset(b)
    ensures Sort(a, le) == Sort(b, le)
  {
    SortedUnique(Sort(a, le), Sort(b, le), le);
  }

  /** The indexes 0 to n - 1. */
  function Range(n: nat): (r: set<int>)
    ensures forall x :: x in r <==> 0 <= x < n
    ensures |r| == n
  {
    if n == 0 then {} else Range(n - 1) + {n - 1}
  }
}

=== FILE: stack.dfy ===
/** `lib.Stack[T]`: a slice-backed stack that caches a pointer to its top
  element in `peak`. The mutex and the deep copy made by go-clone have no
  counterpart in a value model.
 */
module Stacks {
  import opened Wrappers

  /** `s` holds the elements bottom first; `peak` is the cached top. */
  datatype Stack<T> = Stack(s: seq<T>, peak: Option<T>)

  /** The cache invariant: `peak` is nil exactly when the stack is empty, and
      otherwise it is the last element of `s`. */
  ghost predicate Valid<T>(st: Stack<T>) {
    if |st.s| == 0 then st.peak.None? else st.peak == Some(st.s[|st.s| - 1])
  }

  function NewStack<T>(): (st: Stack<T>)
    ensures Valid(st)
    ensures Len(st) == 0
    ensures Peek(st).None?
  {
    Stack([], None)
  }

  function Len<T>(st: Stack<T>): nat {
    |st.s|
  }

  /** `Peek` answers from the cache, never from the slice. */
  function Peek<T>(st: Stack<T>): (r: Option<T>)
    ensures Valid(st) && |st.s| == 0 ==> r.None?
    ensures Valid(st) && |st.s| > 0 ==> r == Some(st.s[|st.s| - 1])
  {
    st.peak
  }

  function Push<T>(st: Stack<T>, v: T): (r: Stack<T>)
    requires Valid(st)
    ensures Valid(r)
    ensures r.s == st.s + [v]
    ensures Len(r) == Len(st) + 1
    ensures Peek(r) == Some(v)
  {
    Stack(st.s + [v], Some(v))
  }

  /** Returns the stack after popping and the popped element, or the stack
      unchanged and None when it is empty. */
  function Pop<T>(st: Stack<T>): (r: (Stack<T>, Option<T>))
    requires Valid(st)
    ensures Valid(r.0)
    ensures |st.s| == 0 ==> r == (st, None)
    ensures |st.s| > 0 ==> r.1 == Some(st.s[|st.s| - 1]) && r.0.s == st.s[..|st.s| - 1]
  {
    var l := |st.s|;
    if l == 0 then (st, None)
    else
      var rest := st.s[..l - 1];
      var top := if l > 1 then Some(st.s[l - 2]) else None;
      (Stack(rest, top), Some(st.s[l - 1]))
  }

  /** A push followed by a pop returns the pushed element and restores the
      previous contents and top. */
  lemma PushPop<T>(st: Stack<T>, v: T)
    requires Valid(st)
    ensures Pop(Push(st, v)) == (st, Some(v))
  {
    assert (st.s + [v])[..|st.s|] == st.s;
  }

  /** `Clone` pushes every element, bottom first, onto a new stack. */
  method Clone<T>(st: Stack<T>) returns (c: Stack<T>)
    requires Valid(st)
    ensures Valid(c)
    ensures c.s == st.s
    ensures Peek(c) == Peek(st)
  {
    c := NewStack();
    var i := 0;
    while i < |st.s|
      invariant 0 <= i <= |st.s|
      invariant Valid(c)
      invariant c.s == st.s[..i]
    {
      c := Push(c, st.s[i]);
      assert st.s[..i + 1] == st.s[..i] + [st.s[i]];
      i := i + 1;
    }
    assert st.s[..|st.s|] == st.s;
  }
}

=== FILE: text.dfy ===
/** String helpers with the semantics of the Go and Python library calls the
  model checker and its parser rely on: `strings.Split` / `str.split` on a
  one-character separator, `strings.Join`, `strings.LastIndex`,
  `strconv.Atoi`, `fmt`'s `%d`, Python's `str.isspace`, and Go's byte-wise
  string ordering used by `sort.Strings`.
 */
module Text {
  import opened Wrappers

  // ---------------------------------------------------------------------------
  // Split and Join on a single-character separator
  // ---------------------------------------------------------------------------

  /** `strings.Split(s, string(sep))` / `s.split(sep)`: the maximal pieces of
      `s` between occurrences of `sep`. There is always at least one piece. */
  function Split(s: string, sep: char): (parts: seq<string>)
    ensures |parts| >= 1
    ensures forall i :: 0 <= i < |parts| ==> sep !in parts[i]
    ensures sep !in s ==> parts == [s]
    ensures sep in s ==> |parts| >= 2
    decreases |s|
  {
    if |s| == 0 then [""]
    else if s[0] == sep then [""] + Split(s[1..], sep)
    else
      var rest := Split(s[1..], sep);
      assert s == [s[0]] + s[1..];
      assert sep in s ==> sep in s[1..];
      [[s[0]] + rest[0]] + rest[1..]
  }

  /** `strings.Join(parts, string(sep))` / `sep.join(parts)`. */
  function Join(parts: seq<string>, sep: char): string
  {
    if |parts| == 0 then ""
    else if |parts| == 1 then parts[0]
    else parts[0] + [sep] + Join(parts[1..], sep)
  }

  /** Joining the pieces of a split gives back the original string. */
  lemma {:induction false} JoinSplit(s: string, sep: char)
    ensures Join(Split(s, sep), sep) == s
    decreases |s|
  {
    if |s| == 0 {
    } else if s[0] == sep {
      JoinSplit(s[1..], sep);
      var rest := Split(s[1..], sep);
      assert Split(s, sep) == [""] + rest;
      assert ([""] + rest)[1..] == rest;
      assert s == [sep] + s[1..];
    } else {
      JoinSplit(s[1..], sep);
      var rest := Split(s[1..], sep);
      var first := [s[0]] + rest[0];
      assert Split(s, sep) == [first] + rest[1..];
      if |rest| == 1 {
        assert s == [s[0]] + s[1..];
      } else {
        assert ([first] + rest[1..])[1..] == rest[1..];
        assert Join(rest, sep) == rest[0] + [sep] + Join(rest[1..], sep);
        assert s == [s[0]] + s[1..];
      }
    }
  }

  /** Splitting a join of separator-free pieces gives back the pieces. */
  lemma {:induction false} SplitJoin(parts: seq<string>, sep: char)
    requires |parts| >= 1
    requires forall i :: 0 <= i < |parts| ==> sep !in parts[i]
    ensures Split(Join(parts, sep), sep) == parts
    decreases |parts|, |parts[0]|
  {
    if |parts| == 1 {
    } else if |parts[0]| == 0 {
      SplitJoin(parts[1..], sep);
      SplitJoinEmptyHead(parts, sep);
    } else {
      ShorterSepFree(parts, sep);
      SplitJoin(Shorter(parts), sep);
      SplitJoinCharHead(parts, sep);
    }
  }

  /** The pieces with the first character of the first piece removed. */
  function Shorter(parts: seq<string>): (r: seq<string>)
    requires |parts| > 0 && |parts[0]| > 0
    ensures |r| == |parts| && |r[0]| == |parts[0]| - 1
  {
    [parts[0][1..]] + parts[1..]
  }

  lemma ShorterSepFree(parts: seq<string>, sep: char)
    requires |parts| > 0 && |parts[0]| > 0
    requires forall i :: 0 <= i < |parts| ==> sep !in parts[i]
    ensures forall i :: 0 <= i < |parts| ==> sep !in Shorter(parts)[i]
  {
    var r := Shorter(parts);
    forall i | 0 <= i < |parts|
      ensures sep !in r[i]
    {
      if i == 0 {
        assert forall x :: x in parts[0][1..] ==> x in parts[0];
      } else {
        assert r[i] == parts[i];
      }
    }
  }

  /** The step of `SplitJoin` for an empty first piece. */
  lemma SplitJoinEmptyHead(parts: seq<string>, sep: char)
    requires |parts| >= 2 && parts[0] == ""
    requires Split(Join(parts[1..], sep), sep) == parts[1..]
    ensures Split(Join(parts, sep), sep) == parts
  {
    var rest := Join(parts[1..], sep);
    assert Join(parts, sep) == [sep] + rest;
    SplitSepCons(rest, sep);
    assert parts == [""] + parts[1..];
  }

  /** The step of `SplitJoin` for a first piece that starts with a
      character other than the separator. */
  lemma SplitJoinCharHead(parts: seq<string>, sep: char)
    requires |parts| >= 2 && |parts[0]| > 0 && parts[0][0] != sep
    requires Split(Join(Shorter(parts), sep), sep) == Shorter(parts)
    ensures Split(Join(parts, sep), sep) == parts
  {
    var c := parts[0][0];
    var shorter := Shorter(parts);
    var rest := Join(shorter, sep);
    assert shorter[1..] == parts[1..];
    assert rest == parts[0][1..] + [sep] + Join(parts[1..], sep);
    assert Join(parts, sep) == [c] + rest;
    SplitCharCons(c, rest, sep);
    assert [c] + parts[0][1..] == parts[0];
    assert parts == [[c] + shorter[0]] + shorter[1..];
  }

  lemma SplitSepCons(x: string, sep: char)
    ensures Split([sep] + x, sep) == [""] + Split(x, sep)
  {
    assert ([sep] + x)[1..] == x;
  }

  lemma SplitCharCons(c: char, x: string, sep: char)
    requires c != sep
    ensures Split([c] + x, sep) == [[c] + Split(x, sep)[0]] + Split(x, sep)[1..]
  {
    assert ([c] + x)[1..] == x;
  }

  /** Joining one more piece appends a separator and that piece. */
  lemma {:induction false} JoinAppend(parts: seq<string>, x: string, sep: char)
    requires |parts| > 0
    ensures Join(parts + [x], sep) == Join(parts, sep) + [sep] + x
    decreases |parts|
  {
    if |parts| > 1 {
      assert (parts + [x])[1..] == parts[1..] + [x];
      JoinAppend(parts[1..], x, sep);
    }
  }

  /** The pieces of `a + [sep] + b` are the pieces of `a` followed by the
      pieces of `b`. */
  lemma {:induction false} SplitAppend(a: string, b: string, sep: char)
    ensures Split(a + [sep] + b, sep) == Split(a, sep) + Split(b, sep)
    decreases |a|
  {
    if |a| == 0 {
      var s := a + [sep] + b;
      assert s == [sep] + b;
      assert s[1..] == b;
    } else {
      SplitAppend(a[1..], b, sep);
      SplitAppendStep(a, b, sep);
    }
  }

  /** The inductive step of `SplitAppend`: from the tail of `a` to `a`. */
  lemma SplitAppendStep(a: string, b: string, sep: char)
    requires |a| > 0
    requires Split(a[1..] + [sep] + b, sep) == Split(a[1..], sep) + Split(b, sep)
    ensures Split(a + [sep] + b, sep) == Split(a, sep) + Split(b, sep)
  {
    var s := a + [sep] + b;
    var ra := Split(a[1..], sep);
    var rb := Split(b, sep);
    assert s[0] == a[0];
    assert s[1..] == a[1..] + [sep] + b;
    assert Split(s[1..], sep) == ra + rb;
    SplitCons(s, sep);
    SplitCons(a, sep);
    if a[0] == sep {
      calc {
        Split(s, sep);
        [""] + (ra + rb);
        { PrependEmpty(ra, rb); }
        ([""] + ra) + rb;
      }
    } else {
      calc {
        Split(s, sep);
        [[a[0]] + (ra + rb)[0]] + (ra + rb)[1..];
        { PrependToFirst([a[0]], ra, rb); }
        ([[a[0]] + ra[0]] + ra[1..]) + rb;
      }
    }
  }

  lemma PrependEmpty(ra: seq<string>, rb: seq<string>)
    ensures [""] + (ra + rb) == ([""] + ra) + rb
  {
  }

  lemma PrependToFirst(c: string, ra: seq<string>, rb: seq<string>)
    requires |ra| > 0
    ensures [c + (ra + rb)[0]] + (ra + rb)[1..] == ([c + ra[0]] + ra[1..]) + rb
  {
    assert (ra + rb)[0] == ra[0];
    assert (ra + rb)[1..] == ra[1..] + rb;
  }

  /** One step of `Split` on a non-empty string, stated on its first character. */
  lemma SplitCons(s: string, sep: char)
    requires |s| > 0
    ensures s[0] == sep ==> Split(s, sep) == [""] + Split(s[1..], sep)
    ensures s[0] != sep ==>
      Split(s, sep) == [[s[0]] + Split(s[1..], sep)[0]] + Split(s[1..], sep)[1..]
  {
  }

  // ---------------------------------------------------------------------------
  // Substring search
  // ---------------------------------------------------------------------------

  /** `sub` occurs in `s` starting at index `i`. */
  predicate OccursAt(s: string, sub: string, i: int)
  {
    0 <= i && i + |sub| <= |s| && s[i..i + |sub|] == sub
  }

  /** `strings.LastIndex(s, sub)`: the greatest index at which `sub` occurs,
      or -1 when it does not occur at all. */
  function LastIndex(s: string, sub: string): (i: int)
    ensures -1 <= i <= |s|
    ensures i >= 0 ==> OccursAt(s, sub, i)
    ensures i == -1 <==> forall j :: 0 <= j <= |s| ==> !OccursAt(s, sub, j)
    ensures forall j :: i < j <= |s| ==> !OccursAt(s, sub, j)
  {
    if |sub| > |s| then -1 else LastIndexFrom(s, sub, |s| - |sub|)
  }

  /** Scans the candidate positions `k`, `k - 1`, ..., `0` for `sub`. */
  function LastIndexFrom(s: string, sub: string, k: int): (i: int)
    requires -1 <= k <= |s| - |sub|
    requires forall j :: k < j <= |s| ==> !OccursAt(s, sub, j)
    ensures -1 <= i <= k
    ensures i >= 0 ==> OccursAt(s, sub, i)
    ensures forall j :: i < j <= |s| ==> !OccursAt(s, sub, j)
    decreases k + 1
  {
    if k < 0 then -1
    else if s[k..k + |sub|] == sub then k
    else LastIndexFrom(s, sub, k - 1)
  }

  // ---------------------------------------------------------------------------
  // Decimal integers: fmt's %d and strconv.Atoi
  // ---------------------------------------------------------------------------

  /** Go's `int` is 64 bits wide on the platforms the checker targets. */
  const MinInt64: int := -0x8000_0000_0000_0000
  const MaxInt64: int := 0x7fff_ffff_ffff_ffff

  predicate IsInt64(n: int) {
    MinInt64 <= n <= MaxInt64
  }

  /** Two's-complement wrap-around of a Go `int` addition. */
  function Wrap64(n: int): (r: int)
    ensures IsInt64(r)
    ensures IsInt64(n) ==> r == n
    ensures (r - n) % 0x1_0000_0000_0000_0000 == 0
  {
    (n - MinInt64) % 0x1_0000_0000_0000_0000 + MinInt64
  }

  predicate IsDigit(c: char) {
    '0' <= c <= '9'
  }

  predicate AllDigits(s: string) {
    forall i :: 0 <= i < |s| ==> IsDigit(s[i])
  }

  function DigitChar(d: nat): (c: char)
    requires d < 10
    ensures IsDigit(c)
    ensures c as int == '0' as int + d
  {
    ('0' as int + d) as char
  }

  function DigitValue(c: char): (d: nat)
    requires IsDigit(c)
    ensures d < 10
    ensures DigitChar(d) == c
  {
    (c as int - '0' as int) as nat
  }

  /** The value of a string of decimal digits, most significant first. */
  function DigitsValue(s: string): nat
    requires AllDigits(s)
  {
    if |s| == 0 then 0
    else DigitsValue(s[..|s| - 1]) * 10 + DigitValue(s[|s| - 1])
  }

  /** The shortest decimal rendering of a natural number. */
  function NatToString(n: nat): (s: string)
    ensures |s| >= 1
    ensures AllDigits(s)
  {
    if n < 10 then [DigitChar(n)]
    else NatToString(n / 10) + [DigitChar(n % 10)]
  }

  lemma {:induction false} NatToStringValue(n: nat)
    ensures DigitsValue(NatToString(n)) == n
  {
    if n >= 10 {
      var s := NatToString(n);
      NatToStringValue(n / 10);
      NatToStringLast(n);
      assert DigitsValue(s) == DigitsValue(NatToString(n / 10)) * 10 + n % 10;
    }
  }

  /** The rendering of `n >= 10` is that of `n / 10` followed by the last
      digit. */
  lemma NatToStringLast(n: nat)
    requires n >= 10
    ensures var s := NatToString(n);
      s[..|s| - 1] == NatToString(n / 10) && DigitValue(s[|s| - 1]) == n % 10
  {
    var s := NatToString(n);
    assert s == NatToString(n / 10) + [DigitChar(n % 10)];
    assert s[|s| - 1] == DigitChar(n % 10);
  }

  /** `fmt.Sprintf("%d", n)`. */
  function IntToString(n: int): (s: string)
    ensures |s| >= 1
    ensures n >= 0 ==> AllDigits(s)
    ensures n < 0 ==> s[0] == '-' && AllDigits(s[1..])
  {
    if n >= 0 then NatToString(n) else "-" + NatToString(-n)
  }

  /** `strconv.Atoi(s)`: an optional sign followed by one or more decimal
      digits, whose value fits a 64-bit `int`; anything else is an error. */
  function Atoi(s: string): (r: Option<int>)
    ensures r.Some? ==> IsInt64(r.value)
    ensures |s| == 0 ==> r.None?
  {
    if |s| == 0 then None
    else
      var negative := s[0] == '-';
      var body := if s[0] == '+' || s[0] == '-' then s[1..] else s;
      if |body| == 0 || !AllDigits(body) then None
      else
        var magnitude := DigitsValue(body);
        var n: int := if negative then -(magnitude as int) else magnitude;
        if IsInt64(n) then Some(n) else None
  }

  /** Parsing the `%d` rendering of a 64-bit integer gives the integer back. */
  lemma AtoiIntToString(n: int)
    requires IsInt64(n)
    ensures Atoi(IntToString(n)) == Some(n)
  {
    if n >= 0 {
      NatToStringValue(n);
      assert IntToString(n)[0] != '-' && IntToString(n)[0] != '+' by {
        assert IsDigit(IntToString(n)[0]);
      }
    } else {
      NatToStringValue(-n);
      assert IntToString(n)[1..] == NatToString(-n);
    }
  }

  // ---------------------------------------------------------------------------
  // Python whitespace
  // ---------------------------------------------------------------------------

  /** Python's `str.isspace` on one character. */
  predicate IsSpace(c: char) {
    c == ' ' || ('\t' <= c <= '\r') || ('\U{1C}' <= c <= '\U{1F}')
    || c == '\U{85}' || c == '\U{A0}' || c == '\U{1680}'
    || ('\U{2000}' <= c <= '\U{200A}') || c == '\U{2028}' || c == '\U{2029}'
    || c == '\U{202F}' || c == '\U{205F}' || c == '\U{3000}'
  }

  /** `s.strip()` is non-empty: `s` has a character that is not whitespace. */
  predicate HasNonSpace(s: string) {
    exists i :: 0 <= i < |s| && !IsSpace(s[i])
  }

  /** `len(s) - len(s.lstrip())`: the length of the leading whitespace. */
  function LeadingSpace(s: string): (k: nat)
    ensures k <= |s|
    ensures forall i :: 0 <= i < k ==> IsSpace(s[i])
    ensures k < |s| ==> !IsSpace(s[k])
  {
    if |s| == 0 || !IsSpace(s[0]) then 0 else 1 + LeadingSpace(s[1..])
  }

  // ---------------------------------------------------------------------------
  // Go string ordering (byte-wise lexicographic, as used by sort.Strings)
  // ---------------------------------------------------------------------------

  /** `a <= b` on Go strings: lexicographic on character codes. */
  predicate StrLe(a: string, b: string)
  {
    if |a| == 0 then true
    else if |b| == 0 then false
    else if a[0] != b[0] then a[0] < b[0]
    else StrLe(a[1..], b[1..])
  }

  lemma {:induction false} StrLeTotal(a: string, b: string)
    ensures StrLe(a, b) || StrLe(b, a)
  {
    if |a| != 0 && |b| != 0 && a[0] == b[0] {
      StrLeTotal(a[1..], b[1..]);
    }
  }

  lemma {:induction false} StrLeAntisymmetric(a: string, b: string)
    requires StrLe(a, b) && StrLe(b, a)
    ensures a == b
  {
    if |a| == 0 {
    } else {
      StrLeAntisymmetric(a[1..], b[1..]);
      assert a == [a[0]] + a[1..];
      assert b == [b[0]] + b[1..];
    }
  }

  lemma {:induction false} StrLeTransitive(a: string, b: string, c: string)
    requires StrLe(a, b) && StrLe(b, c)
    ensures StrLe(a, c)
  {
    if |a| != 0 && |b| != 0 && |c| != 0 && a[0] == b[0] && b[0] == c[0] {
      StrLeTransitive(a[1..], b[1..], c[1..]);
    }
  }
}

=== FILE: wrappers.dfy ===
/** Failure-carrying datatypes shared by every module of the model.

  `Option` stands for a Go pointer that may be nil or a Go `(value, ok)` pair.
  `Result` stands for an operation that may stop the program: a Go `panic`,
  a Python `raise`, or an error return that the caller turns into a panic.
 */
module Wrappers {

  datatype Option<+T> = None | Some(value: T) {

    /** Returns the value held in Some, or `default` when None. */
    function GetOr(default: T): T {
      match this
      case Some(v) => v
      case None => default
    }
  }

  datatype Result<+T> = Ok(value: T) | Fail(reason: string) {

    predicate IsFailure() {
      Fail?
    }

    function PropagateFailure<U>(): Result<U>
      requires Fail?
    {
      Fail(reason)
    }

    function Extract(): T
      requires Ok?
    {
      value
    }
  }
}
